=== FILE: README.md ===
# easylearning question answering, modelled in Dafny

The easylearning application answers questions about uploaded PDF documents
without any language model. It is a rule-based retrieval engine:

1. When a PDF is uploaded, its page texts are cut into *chunks* of up to three
   sentences (`create_pdf_chunks`). It also gets a short text *summary* (`generate_pdf_summary`).
2. A question is *analysed* (`analyze_question`, `extract_keywords`). This gives a
   primary question type, keywords, and entities such as chapter numbers,
   capitalised names and locations.
3. Every chunk is *scored* against the analysis (`score_chunk_for_question`).
   Chunks with a positive score are sorted best first.
4. A few of the sorted chunks are *selected* (`select_best_chunks`). Chapter
   questions get at most one chunk per chapter.
5. The selected chunks are *composed* into an answer text within a length budget
   (`generate_answer_from_chunks`).
6. The answer is *translated* by fixed phrase tables into Gujarati or Hindi
   (`translate_answer`).
7. `generate_answer` strings these steps together. It reports whether anything
   was found, with a confidence of min(0.95, top score / 50).

The upload form's validator (`PDFUploadForm.clean_file`) accepts only a present
`.pdf` file of 1 byte to 10 MB.

The modules follow the steps:

| module | file | models |
|---|---|---|
| `Text` | Text.dfy | the Python string built-ins and regular expressions the code uses (`lower`, `strip`, `split`, `join`, `replace`, `in`, `int`/`str`, `chapter\s+(\d+)`, `\b…\b` word replacement) |
| `Segmenter` | Segmenter.dfy | `create_pdf_chunks`, as a class `ChunkStore` whose `chunks` field receives the created chunk records |
| `Analyzer` | Analyzer.dfy | `analyze_question`, `extract_keywords` |
| `Scorer` | Scorer.dfy | `score_chunk_for_question` |
| `Selector` | Selector.dfy | `select_best_chunks` |
| `Composer` | Composer.dfy | `generate_answer_from_chunks` |
| `Localizer` | Localizer.dfy | `translate_answer`, with its Gujarati and Hindi tables and the Gujarati patch replacements |
| `Answering` | Answering.dfy | `generate_answer`: relevance filter, stable sort, selection, confidence |
| `Summarizer` | Summarizer.dfy | the text logic of `generate_pdf_summary` |
| `Upload` | Upload.dfy | `PDFUploadForm.clean_file` |

Each loop of the source that builds up state (a list, a score, a text) is a method
with a `while` loop. The question-type loop and the priority loop of
`analyze_question` only compute a value and are the recursive functions `DetectIn`
and `FirstDetected`. Each method is proved against a specification function:
`Segment`, `Analyze`, `Score`, `Select`, `Compose`, `Localize`, `Answer` and
`Summarize`. The upload validator has no loop and is the function `CleanFile`. The
properties the code promises are lemmas about those functions.

Some things the proofs bring out about the code as written:

- The upload error "Invalid file selected." is never reported. A file without a
  name is already falsy, so the earlier "Please select a PDF file to upload."
  check catches it (`Upload.CleanFileCases`).
- The Gujarati patch `"a" → "એક"` (easylearning/views.py:1050) removes every
  letter `a`. The later patches whose pattern contains an `a` can therefore never
  match: "an", "and", "are", "was", "have", "has", "had", "that". The later
  "those" patch has no `a` and can still apply, for instance once the apostrophe
  patch has turned "thos'e" into "those".
  A Gujarati answer never contains `'` or `a` (`Localizer.GujaratiClean`).
- The Gujarati table repeats some keys. A Python dict literal keeps the first
  position and the last value of a repeated key, so the table is written in that
  effective form.

## Model

| member | source | states |
|---|---|---|
| Text.Lower | easylearning/views.py:415 | lowering keeps the length and maps each character by its own lower-case form |
| Text.StripShape | easylearning/views.py:350-354 | strip gives the empty string exactly on blank text, and otherwise a non-empty text with no white space at either end, leaving such a text unchanged |
| Text.SplitJoin | easylearning/views.py:359 | joining the pieces of `split(sep)` with sep gives the text back |
| Text.NormalizeSingleSpaced | easylearning/views.py:356 | collapsing white space gives back the words of a single-spaced text and leaves that text unchanged |
| Text.ContainsIff | easylearning/views.py:521 | `p in s` holds exactly when p occurs at some position of s |
| Text.ReplaceAllRemoves | easylearning/views.py:1030 | replacing a character by text without it leaves none of it |
| Text.NatToStringRoundTrip | easylearning/views.py:542 | the decimal text of a chapter number reads back as that number |
| Text.ChapterMatches | easylearning/views.py:451 | every match of `chapter\s+(\d+)` yields a non-empty run of digits |
| Text.ChapterAtIff | easylearning/views.py:451 | a match at the start of a text is exactly "chapter", white space, and then digits as far as they go; its group is those digits |
| Text.ChapterAtParts | easylearning/views.py:451 | a match found at the start of a text is made of "chapter", white space and a maximal digit run |
| Text.PartsChapterAt | easylearning/views.py:451 | "chapter", white space and a maximal digit run at the start of a text are found as a match |
| Text.NoChapterInside | easylearning/views.py:451 | no match starts inside another match, so matches never overlap |
| Text.ChapterMatchesIff | easylearning/views.py:451 | `findall` yields a group exactly when a match with that group starts at some position of the text |
| Text.FirstChapterLeftmost | easylearning/views.py:618-620 | `re.search` yields the group of the leftmost match, and nothing when no position starts a match |
| Text.Filter | easylearning/views.py:501 | a comprehension keeps exactly the elements that satisfy its condition |
| Segmenter.ChunkStore.CreatePdfChunks | easylearning/views.py:346-404 | the stored chunks grow by exactly `Segment(pages)` |
| Segmenter.ChunkStore.CreatePageChunks | easylearning/views.py:347-404 | one page adds the chunks of its sentence groups, numbered from the running count, all with this page's number; a page that failed extraction adds none |
| Segmenter.ChunkStore.ChunkSentences | easylearning/views.py:359-400 | the sentence loop adds one chunk per group of `Group(sentences, [])`, in order, with consecutive indices |
| Segmenter.ChunkStore.AddSentence | easylearning/views.py:364-390 | one sentence step either buffers the stripped sentence or emits the full group, keeping at most two buffered sentences and the current chunk equal to their ". " join |
| Segmenter.ChunkStore.Flush | easylearning/views.py:392-400 | the end of a page emits the buffered sentences as one last chunk when there are any |
| Segmenter.ChunkStore.Create | easylearning/views.py:380-386 | a chunk record is appended to the stored chunks |
| Segmenter.SegmentIndices | easylearning/views.py:346-400 | chunk indices are exactly 0..N-1 in emission order |
| Segmenter.SegmentPageNumbers | easylearning/views.py:347-404 | every chunk's page number is the 1-based position of a page whose text was extracted, counting skipped pages |
| Segmenter.SegmentPagesOrdered | easylearning/views.py:347-400 | page numbers never decrease along the chunks |
| Segmenter.SegmentTexts | easylearning/views.py:379-382 | every chunk text is non-empty and stripped |
| Segmenter.GroupSizes | easylearning/views.py:364-400 | every chunk holds one to three non-blank stripped sentences |
| Segmenter.GroupFull | easylearning/views.py:378-390 | every chunk but a page's last has three sentences or at least 300 characters |
| Segmenter.GroupContent | easylearning/views.py:364-375 | the chunks of a page hold exactly its non-blank stripped sentences, in order |
| Segmenter.FourSentenceExample | easylearning/views.py:346-400 | the page "A. B. C. D." gives the chunks "A. B. C" (index 0) and "D." (index 1), both on page 1 |
| Segmenter.SentencePageChunks | easylearning/views.py:353-400 | any page of four one-letter sentences gives a chunk of the first three sentences, then a chunk of the fourth |
| Segmenter.NewChunksAt | easylearning/views.py:380-385 | the k-th new chunk has index start + k, the k-th text and the page's number |
| Analyzer.DetectIn | easylearning/views.py:434-437 | a type is detected exactly when one of its cue words occurs in the lowered question |
| Analyzer.DetectInOrder | easylearning/views.py:434-437 | the detected types keep the order of the table they are taken from |
| Analyzer.OrderedCons | easylearning/views.py:435-437 | appending the current type or not, in front of the types detected later, keeps the table order |
| Analyzer.DetectIntentsOrder | easylearning/views.py:434-437 | each question type is detected at most once, in the order of the classification table |
| Analyzer.FirstDetectedIff | easylearning/views.py:470-477 | the primary type is the j-th of the priority order exactly when it was detected and no earlier one was |
| Analyzer.FirstDetectedNone | easylearning/views.py:470-477 | the primary type is general exactly when no type of the priority order was detected |
| Analyzer.PrimaryIntentIff | easylearning/views.py:469-477 | the primary type is a priority type exactly when it is the first detected one in the priority order |
| Analyzer.PrimaryIntentGeneral | easylearning/views.py:469-477 | the primary type is general exactly when no priority type was detected |
| Analyzer.ListOnlyIsGeneral | easylearning/views.py:473 | a question detecting only `list` is general, since `list` is not in the priority order |
| Analyzer.ChapterFirst | easylearning/views.py:473-477 | a detected chapter type always wins |
| Analyzer.StopWordFromIff | easylearning/views.py:491-498 | a word is a stop word exactly when it is one of the listed words |
| Analyzer.KeywordsContent | easylearning/views.py:507-510 | the six content words are appended exactly when one of the general words occurs as a substring of the question |
| Analyzer.GeneralWordInsideWord | easylearning/views.py:507-510 | general words are found inside other words: "me" in "name" gives "name the hero" the content words |
| Analyzer.BaseKeywordsShape | easylearning/views.py:500-505 | keywords are the question's words of length > 2 that are not stop words; when there are none, every word of length > 1 |
| Analyzer.Values | easylearning/views.py:452 | each chapter number is the integer value of its digit run |
| Analyzer.NumberRuns | easylearning/views.py:455-456 | the number strings are exactly the whole `\w`-runs made only of digits |
| Analyzer.NumberGluedToLetter | easylearning/views.py:455 | "chapter 3a" names no number, as "3a" is not a whole run of digits |
| Analyzer.CharacterNames | easylearning/views.py:459-460 | the names are exactly the whole `\w`-runs of one capital letter followed by lower-case letters |
| Analyzer.QuestionWordIsName | easylearning/views.py:459 | the question word counts as a name: "Who is Arjun?" gives "Who" and "Arjun" |
| Analyzer.LocationsFollow | easylearning/views.py:463-467 | the locations are exactly the words that follow a location word |
| Analyzer.AnalyzeChapter | easylearning/views.py:450-477 | a question with a chapter cue is a chapter question whose chapter numbers are the values of the `chapter <digits>` matches |
| Analyzer.ChapterQuestionExample | easylearning/views.py:413-477 | "What is Chapter 3 about?" is a chapter question about chapter 3 |
| Analyzer.ExtractLocations | easylearning/views.py:463-467 | the location loop computes `Locations(words)` |
| Analyzer.AnalyzeQuestion | easylearning/views.py:413-486 | the analysis equals `Analyze(question)` |
| Scorer.ScoreChunk | easylearning/views.py:514-606 | the scoring loop computes `Score(chunk, analysis)` |
| Scorer.ChapterScore | easylearning/views.py:541-543 | 50 points for each chapter number whose label occurs in the chunk |
| Scorer.NameScore | easylearning/views.py:550-552 | 30 points for each name whose lowered form occurs in the chunk |
| Scorer.ScoreBounds | easylearning/views.py:516-606 | the score is never negative, and is at least the number of keywords found in the lowered chunk |
| Scorer.KeywordHitsBound | easylearning/views.py:520-522 | the keyword points are at most the number of keywords, with equality exactly when every keyword occurs |
| Scorer.ScorePositive | easylearning/views.py:524-560 | for summary, general, character and plot questions every chunk scores at least 1 |
| Scorer.ChapterColonSubsumed | easylearning/views.py:542 | the `chapter N:` alternative adds nothing beyond `chapter N` |
| Scorer.ChapterLabelInLonger | easylearning/views.py:541-543 | the label is a substring test: a chunk naming chapter 12 earns 50 points for chapter 1 |
| Scorer.ScoreMono | easylearning/views.py:516-606 | a chunk containing another's lowered text scores at least as high |
| Selector.SelectBestChunks | easylearning/views.py:608-645 | the selection loop computes `Select(chunkScores, primary)` |
| Selector.ChapterScan | easylearning/views.py:613-628 | the chapter loop with its early exit computes the chapter pick |
| Selector.SelectShape | easylearning/views.py:608-645 | the selection keeps chunks in their ranked order, at most three, and always keeps the top chunk |
| Selector.SelectCounts | easylearning/views.py:630-643 | summary questions keep the top three chunks, other non-chapter questions the top two |
| Selector.SelectChapters | easylearning/views.py:613-628 | chapter questions keep no two chunks of one chapter, a chunk naming no chapter only among the first two kept, and the top two when no chunk names a chapter |
| Selector.SelectDescending | easylearning/views.py:608-645 | selecting from chunks sorted best first gives chunks sorted best first |
| Selector.ChapterPickDistinct | easylearning/views.py:615-624 | no chapter is kept twice |
| Selector.ChapterPickFresh | easylearning/views.py:622-624 | no kept chunk names a chapter seen before the scan |
| Selector.ChapterPickSubsequence | easylearning/views.py:616-628 | the chapter scan keeps chunks in order and at most three in all |
| Composer.GenerateAnswerFromChunks | easylearning/views.py:647-674 | the cleaning loop and the sentence loop compute `Compose(best, primary)` |
| Composer.TruncateLoop | easylearning/views.py:663-669 | the sentence loop with its early exit computes `Truncate(sentences, "", max)` |
| Composer.ComposeShape | easylearning/views.py:656-672 | the answer never exceeds its budget (1000 for summaries, 600 otherwise); a text within budget is kept unchanged; a longer one becomes "...", or the text cut at one of its ". " separators and stripped, which ends with a period and occurs in the text |
| Composer.ShortenShape | easylearning/views.py:661-672 | an over-budget text becomes "..." when its first sentence alone does not fit; when it fits, the result is the text cut at one of its ". " separators and stripped: a non-empty part of it within max characters ending with a period (for a text opening with "... " that part is "..." too) |
| Composer.StrippedCut | easylearning/views.py:670-672 | stripping the kept sentences gives a part of the text ending with a period, cut at a ". " separator, so "..." is not appended |
| Composer.TruncateShape | easylearning/views.py:663-669 | the sentence loop stops with nothing or with whole sentences, each followed by ". ", that form an opening part of the text, within max + 1 characters |
| Localizer.TranslateAnswer | easylearning/views.py:741-1095 | the translation equals `Localize(answer, language)` |
| Localizer.TranslateLongPhrases | easylearning/views.py:1015-1018 | the first Gujarati loop replaces every key longer than 3 characters, in table order |
| Localizer.TranslateShortWords | easylearning/views.py:1020-1026 | the second Gujarati loop replaces every key of at most 3 characters as a whole word, ignoring case |
| Localizer.TranslateAll | easylearning/views.py:1089-1095 | other languages replace every key of their table, in table order |
| Localizer.LocalizeIdentity | easylearning/views.py:743-744 | English, and any language without a table, leave the text unchanged |
| Localizer.ReplaceEachChars | easylearning/views.py:1092-1093 | every character of a translation comes from the text or from a translated phrase |
| Localizer.HindiChars | easylearning/views.py:1089-1095 | a Hindi translation holds only characters of the text or of the Hindi phrases |
| Localizer.ReplaceEachAppend | easylearning/views.py:1028-1086 | applying two replacement lists in turn is applying their concatenation |
| Localizer.ReplaceEachKeepsOut | easylearning/views.py:1028-1086 | replacements whose results hold no ASCII letter or apostrophe add none |
| Localizer.PatchesAddNoLatin | easylearning/views.py:1028-1086 | the Gujarati patches add no ASCII letter or apostrophe |
| Localizer.PatchesRemoveApostrophe | easylearning/views.py:1029-1030 | after the patches no apostrophe is left |
| Localizer.PatchesRemoveLetterA | easylearning/views.py:1050 | after the patches no letter `a` is left |
| Localizer.GujaratiClean | easylearning/views.py:1011-1088 | a Gujarati translation holds no apostrophe and no letter `a` |
| Answering.GenerateAnswer | easylearning/views.py:1097-1150 | the answer, found flag and confidence equal `Answer(chunks, question, language)` |
| Answering.ScoreAll | easylearning/views.py:1116-1121 | the scoring loop keeps each chunk with its score when the score is positive, in order |
| Answering.RelevantMembers | easylearning/views.py:1117-1121 | a scored chunk is kept exactly when it is a chunk of the document with its own positive score |
| Answering.InsertPermutes | easylearning/views.py:1124 | inserting into the sorted list adds exactly that element |
| Answering.SortPermutes | easylearning/views.py:1124 | sorting is a permutation |
| Answering.SortDescending | easylearning/views.py:1124 | sorting orders by score, highest first |
| Answering.SortStable | easylearning/views.py:1124 | sorting is stable: chunks of equal score keep their relative order |
| Answering.MaxScoreIsMax | easylearning/views.py:1139 | the maximum score is at least every score and is the score of some selected chunk |
| Answering.ConfidenceRange | easylearning/views.py:1140 | a positive top score gives a confidence in (0, 0.95], namely top/50 below 47.5 and 0.95 from 48 on |
| Answering.ReplyNoChunks | easylearning/views.py:1103-1105 | a document without chunks gives the no-content message, not found, confidence 0 |
| Answering.ReplyFoundIff | easylearning/views.py:1117-1146 | an answer is found exactly when some chunk scores above 0 |
| Answering.ReplyNotFound | easylearning/views.py:1147-1150 | an answer not found is the no-content or no-match message with confidence 0 |
| Answering.ReplyConfidence | easylearning/views.py:1139-1140 | a found answer's confidence is `Confidence` of the best score of any chunk, and lies in (0, 0.95] |
| Answering.TopIsBest | easylearning/views.py:1130-1139 | the maximum over the selected chunks is the top ranked score |
| Answering.ReplyBroadQuestions | easylearning/views.py:1118-1128 | summary, general, character and plot questions on a document with chunks always find an answer |
| Answering.ReplyLength | easylearning/views.py:1133 | a found answer's untranslated text is within its length budget |
| Answering.AnswerTranslatesReply | easylearning/views.py:1105-1150 | the language changes only the text: English gives the untranslated reply, and the found flag and confidence do not depend on the language |
| Answering.AnswerOutcomes | easylearning/views.py:1103-1150 | no chunks gives the translated no-content message, not found, confidence 0; chunks none of which scores above 0 give the translated no-match message, not found, confidence 0; otherwise the answer is found with confidence in (0, 0.95] |
| Answering.AnswerGujarati | easylearning/views.py:1136 | a Gujarati answer holds no apostrophe and no letter `a` |
| Summarizer.GeneratePdfSummary | easylearning/views.py:276-317 | the page loop and the summary compute `Summarize(pdf)` |
| Summarizer.ExtractText | easylearning/views.py:295-303 | the page loop gathers each extracted, non-empty page text followed by a space, in page order |
| Summarizer.SummarizeCases | easylearning/views.py:280-317 | each error message is returned exactly in its case; a document with a non-blank page gets the summary of its text, never the fallback message |
| Summarizer.BlankPages | easylearning/views.py:295-306 | the gathered text is blank exactly when every page is missing or blank |
| Summarizer.AbridgeSentences | easylearning/views.py:311-315 | a text of at least three sentences gives its first five sentences joined by ". " and ending with "."; summarising the summary changes nothing |
| Summarizer.AbridgeShort | easylearning/views.py:312-313 | a text of fewer than three sentences is kept if at most 300 characters, else cut to its first 300 characters and "..." |
| Summarizer.SummaryEnding | easylearning/views.py:311-317 | the summary of visible text is non-empty and ends with a space or a period |
| Summarizer.JoinedSentences | easylearning/views.py:311-315 | sentences joined by ". " and closed by "." split back into the same sentences |
| Summarizer.SentencesShape | easylearning/views.py:311 | every sentence is non-empty, stripped and free of periods |
| Upload.CleanFile | easylearning/forms.py:21-46 | on success the same file is returned |
| Upload.CleanFileCases | easylearning/forms.py:25-46 | a file is accepted exactly when present, named with ".pdf" and of 1..10485760 bytes; each error is reported exactly when the earlier checks pass and its own fails; "Invalid file selected." is never reported |
| Upload.UpperCaseSuffix | easylearning/forms.py:33-35 | the suffix check is case-sensitive and precedes the size checks: "….PDF" is refused whatever its size |
| Upload.SizeBounds | easylearning/forms.py:37-43 | exactly 10485760 bytes is accepted, one more is too large, 0 bytes is empty |

## Left out

- Reading PDFs: `PyPDF2`, `open` and `os.path` are not modelled. The segmenter and the summary take the page texts as input, with `None` for a page whose extraction failed. The summary also takes whether the file exists and its size.
- The database: `PDFChunk.objects.create` becomes an append to `ChunkStore.chunks`. `chunks.all()` becomes a sequence given in a fixed order, which the source leaves to the database.
- Logging: `print` calls are left out.
- Exception handlers: the `except` fallbacks of `generate_answer` ("Error generating answer: …") and `generate_pdf_summary` ("Error reading PDF: …" with the exception text) are not modelled. The PDF reading that can raise is outside the model. One modelled step can raise in Python but not in the model: `int(num)` in `analyze_question` refuses a digit run longer than 4300 digits, the interpreter's default conversion limit. The source then answers "Error generating answer: …", not found, with confidence 0.0. The model converts such a run with `DigitsValue` and answers normally.
- Text: `str.lower`, `str.isspace`, `str.split()` and the regular-expression classes `\w`, `\d`, `\s` and `\b` are modelled over ASCII only. Non-ASCII characters are treated as neither letters, digits nor white space, and are never case-folded. One visible consequence is in the Gujarati short-word pass: Python counts a Gujarati letter as `\w`, so after the long pass turns "daylight" into "day" followed by Gujarati text, no `\b` follows "day" and Python leaves it. The model sees a boundary there and replaces "day" too.
- Dates: the `dates` entity is always empty, as in the source.
- Confidence: it is computed as an exact `real`. The floating-point rounding of `max_score / 50.0` is not modelled.
- Localizer.ShortPass: it also requires a non-empty key before replacing a short key, which the source does not. Every key of both tables is non-empty, so this guard never applies.
- The rest of the application is not part of this model: the Django views, templates, messages, authentication, middleware, admin and URL configuration; `PDFUploadForm.clean`; `QuestionForm`; and `ThreadTitleForm`.

=== FILE: Analyzer.dfy ===
/**
 * The question analyzer: a question is classified into question types by cue
 * words, given one primary type by a fixed priority, and mined for chapter
 * numbers, numbers, capitalised names, locations and search keywords.
 */
module Analyzer {
  import opened Wrappers
  import opened Text

  /** The question types; General is the fallback primary type. */
  datatype Intent =
    | Summary | ChapterSpecific | Character | Plot | Setting | Time
    | Comparison | Definition | List | How | Why | Quantity | General

  /** The question types in the order of the classification table. */
  const TableOrder: seq<Intent> :=
    [Summary, ChapterSpecific, Character, Plot, Setting, Time,
     Comparison, Definition, List, How, Why, Quantity]

  /** The cue words of each question type; General has none. */
  function Cues(t: Intent): seq<string> {
    match t
    case Summary => ["summary", "brief", "overview", "general", "about", "what is this"]
    case ChapterSpecific => ["chapter", "section", "part"]
    case Character => ["character", "who", "person", "name", "protagonist", "hero", "villain"]
    case Plot => ["plot", "story", "narrative", "what happens", "events", "action"]
    case Setting => ["where", "place", "location", "world", "realm", "setting"]
    case Time => ["when", "time", "period", "era", "century", "year"]
    case Comparison => ["compare", "difference", "similar", "versus", "vs", "better", "worse"]
    case Definition => ["what is", "define", "meaning", "explain", "describe"]
    case List => ["list", "all", "every", "each", "names", "types", "kinds"]
    case How => ["how", "method", "process", "way", "technique"]
    case Why => ["why", "reason", "cause", "because", "purpose"]
    case Quantity => ["how many", "count", "number", "amount", "size", "length", "longest", "shortest"]
    case General => []
  }

  /** The more specific types first; List is deliberately absent. */
  const PriorityOrder: seq<Intent> :=
    [ChapterSpecific, Character, Quantity, Comparison, Definition, Plot,
     Setting, Time, How, Why, Summary]

  /** Some cue word of type t occurs in the lowered question. */
  predicate Detected(ql: string, t: Intent) {
    ContainsAny(ql, Cues(t))
  }

  /** The detected types among order, in that order. */
  function DetectIn(ql: string, order: seq<Intent>): (r: seq<Intent>)
    ensures forall t :: t in r <==> t in order && Detected(ql, t)
    ensures |r| <= |order|
    decreases |order|
  {
    if |order| == 0 then []
    else (if Detected(ql, order[0]) then [order[0]] else []) + DetectIn(ql, order[1..])
  }

  /** x stands at an earlier position of order than y. */
  predicate Before(order: seq<Intent>, x: Intent, y: Intent) {
    exists a, b :: 0 <= a < b < |order| && order[a] == x && order[b] == y
  }

  lemma BeforeShift(order: seq<Intent>, x: Intent, y: Intent)
    requires |order| > 0 && Before(order[1..], x, y)
    ensures Before(order, x, y)
  {
    var a, b :| 0 <= a < b < |order[1..]| && order[1..][a] == x && order[1..][b] == y;
    assert order[a + 1] == x && order[b + 1] == y;
  }

  lemma BeforeHead(order: seq<Intent>, y: Intent)
    requires |order| > 0 && y in order[1..]
    ensures Before(order, order[0], y)
  {
    var b :| 0 <= b < |order[1..]| && order[1..][b] == y;
    assert order[b + 1] == y;
  }

  /** Ordered by order: of any two elements of r, the earlier one comes from an
      earlier position of order. */
  predicate OrderedBy(r: seq<Intent>, order: seq<Intent>) {
    forall i, j :: 0 <= i < j < |r| ==> Before(order, r[i], r[j])
  }

  /** Keeping or dropping the head of order in front of a selection from its
      tail ordered by the tail gives a selection ordered by order. */
  lemma OrderedCons(order: seq<Intent>, head: seq<Intent>, rest: seq<Intent>)
    requires |order| > 0 && (head == [] || head == [order[0]])
    requires forall x :: x in rest ==> x in order[1..]
    requires OrderedBy(rest, order[1..])
    ensures OrderedBy(head + rest, order)
  {
    var r := head + rest;
    forall i, j | 0 <= i < j < |r| ensures Before(order, r[i], r[j]) {
      if head == [] {
        assert r[i] == rest[i] && r[j] == rest[j];
        BeforeShift(order, r[i], r[j]);
      } else if i == 0 {
        assert r[0] == order[0] && r[j] == rest[j - 1];
        BeforeHead(order, r[j]);
      } else {
        assert r[i] == rest[i - 1] && r[j] == rest[j - 1];
        BeforeShift(order, r[i], r[j]);
      }
    }
  }

  /** The detected types keep the order of the table. */
  lemma {:induction false} DetectInOrder(ql: string, order: seq<Intent>)
    ensures OrderedBy(DetectIn(ql, order), order)
    decreases |order|
  {
    if |order| > 0 {
      DetectInOrder(ql, order[1..]);
      var head := if Detected(ql, order[0]) then [order[0]] else [];
      OrderedCons(order, head, DetectIn(ql, order[1..]));
    }
  }

  /** Of two types at different positions of a table without repeats, the
      earlier one differs from the later one. */
  lemma BeforeDistinct(order: seq<Intent>, x: Intent, y: Intent)
    requires forall a, b :: 0 <= a < b < |order| ==> order[a] != order[b]
    requires Before(order, x, y)
    ensures x != y
  {
  }

  lemma TableOrderDistinct()
    ensures forall a, b :: 0 <= a < b < |TableOrder| ==> TableOrder[a] != TableOrder[b]
  {
  }

  /** Each type is detected at most once, in the order of the table. */
  lemma DetectIntentsOrder(ql: string)
    ensures OrderedBy(DetectIntents(ql), TableOrder)
    ensures forall i, j :: 0 <= i < j < |DetectIntents(ql)| ==>
      DetectIntents(ql)[i] != DetectIntents(ql)[j]
  {
    var r := DetectIntents(ql);
    DetectInOrder(ql, TableOrder);
    TableOrderDistinct();
    forall i, j | 0 <= i < j < |r| ensures r[i] != r[j] {
      BeforeDistinct(TableOrder, r[i], r[j]);
    }
  }

  /** detected_types: the types of the table whose cue words occur in the question. */
  function DetectIntents(ql: string): seq<Intent> {
    DetectIn(ql, TableOrder)
  }

  /** The first type of prio that was detected, or General. */
  function FirstDetected(prio: seq<Intent>, detected: seq<Intent>): (r: Intent)
    ensures r == General || (r in prio && r in detected)
    decreases |prio|
  {
    if |prio| == 0 then General
    else if prio[0] in detected then prio[0]
    else FirstDetected(prio[1..], detected)
  }

  /** primary_type. */
  function PrimaryIntent(detected: seq<Intent>): Intent {
    FirstDetected(PriorityOrder, detected)
  }

  /** The primary type is the detected type of highest priority: the type at
      position j of the priority order wins exactly when it was detected and no
      type before it was. */
  lemma {:induction false} FirstDetectedIff(prio: seq<Intent>, detected: seq<Intent>, j: int)
    requires 0 <= j < |prio|
    requires forall a, b :: 0 <= a < b < |prio| ==> prio[a] != prio[b]
    requires General !in prio
    ensures FirstDetected(prio, detected) == prio[j]
      <==> prio[j] in detected && forall i :: 0 <= i < j ==> prio[i] !in detected
    decreases |prio|
  {
    if j > 0 && prio[0] in detected {
      assert prio[0] != prio[j];
    } else if j > 0 {
      var rest := prio[1..];
      forall a, b | 0 <= a < b < |rest| ensures rest[a] != rest[b] {
        assert rest[a] == prio[a + 1] && rest[b] == prio[b + 1];
      }
      assert General !in rest;
      FirstDetectedIff(rest, detected, j - 1);
      assert FirstDetected(prio, detected) == FirstDetected(rest, detected);
      assert rest[j - 1] == prio[j];
      assert (forall i :: 0 <= i < j - 1 ==> rest[i] !in detected)
        <==> (forall i :: 0 <= i < j ==> prio[i] !in detected) by {
        assert forall i :: 0 <= i < j - 1 ==> rest[i] == prio[i + 1];
        assert forall i :: 0 < i < j ==> prio[i] == rest[i - 1];
      }
    }
  }

  /** The primary type is General exactly when no type of the priority order was
      detected. */
  lemma {:induction false} FirstDetectedNone(prio: seq<Intent>, detected: seq<Intent>)
    requires General !in prio
    ensures FirstDetected(prio, detected) == General <==> forall t :: t in prio ==> t !in detected
    decreases |prio|
  {
    if |prio| > 0 && prio[0] !in detected {
      FirstDetectedNone(prio[1..], detected);
      assert forall t :: t in prio ==> t == prio[0] || t in prio[1..];
    }
  }

  lemma PrimaryIntentIff(detected: seq<Intent>, j: int)
    requires 0 <= j < |PriorityOrder|
    ensures PrimaryIntent(detected) == PriorityOrder[j]
      <==> PriorityOrder[j] in detected && forall i :: 0 <= i < j ==> PriorityOrder[i] !in detected
  {
    FirstDetectedIff(PriorityOrder, detected, j);
  }

  lemma PrimaryIntentGeneral(detected: seq<Intent>)
    ensures PrimaryIntent(detected) == General
      <==> forall t :: t in PriorityOrder ==> t !in detected
  {
    FirstDetectedNone(PriorityOrder, detected);
  }

  /** A question whose only detected type is List has primary type General, since
      List has no place in the priority order. */
  lemma ListOnlyIsGeneral()
    ensures PrimaryIntent([List]) == General
  {
    PrimaryIntentGeneral([List]);
    forall t | t in PriorityOrder ensures t != List { }
  }

  /** A chapter question is a chapter question whatever else was detected. */
  lemma ChapterFirst(detected: seq<Intent>)
    requires ChapterSpecific in detected
    ensures PrimaryIntent(detected) == ChapterSpecific
  {
  }

  function StopWords(): seq<string> {
    [
    "the", "a", "an", "and", "or", "but", "in", "on", "at", "to", "for", "of", "with", "by",
    "is", "are", "was", "were", "be", "been", "have", "has", "had", "do", "does", "did",
    "will", "would", "could", "should", "may", "might", "can", "this", "that", "these",
    "those", "i", "you", "he", "she", "it", "we", "they", "me", "him", "her", "us", "them",
    "my", "your", "his", "its", "our", "their", "mine", "yours", "hers",
    "ours", "theirs"]
  }

  /** Words whose occurrence anywhere in the question, even inside another word,
      adds the generic content words to the keywords. */
  const GeneralWords: seq<string> :=
    ["give", "me", "tell", "about", "what", "how", "why", "when", "where", "brief", "detail", "summary"]

  const ContentWords: seq<string> := ["story", "content", "information", "text", "document", "pdf"]

  /** w is one of the stop words from position i on. */
  predicate StopWordFrom(w: string, i: nat)
    decreases |StopWords()| - i
  {
    i < |StopWords()| && (w == StopWords()[i] || StopWordFrom(w, i + 1))
  }

  predicate IsStopWord(w: string) { StopWordFrom(w, 0) }

  lemma {:induction false} StopWordFromIff(w: string, i: nat)
    ensures StopWordFrom(w, i) <==> exists k :: i <= k < |StopWords()| && StopWords()[k] == w
    decreases |StopWords()| - i
  {
    var sw := StopWords();
    if i < |sw| {
      StopWordFromIff(w, i + 1);
      assert StopWordFrom(w, i) <==> w == sw[i] || StopWordFrom(w, i + 1);
      if w == sw[i] {
        assert i <= i < |sw| && sw[i] == w;
      }
    } else {
      assert !StopWordFrom(w, i);
    }
  }

  predicate Meaningful(w: string) { |w| > 2 && !IsStopWord(w) }

  predicate LongerThanOne(w: string) { |w| > 1 }

  /** The keywords before the generic content words are added: the meaningful
      words, or, when there are none, every word longer than one character. */
  function BaseKeywords(ql: string): seq<string> {
    var kept := Filter(Words(ql), Meaningful);
    if |kept| == 0 then Filter(Words(ql), LongerThanOne) else kept
  }

  /** extract_keywords. */
  function ExtractKeywords(ql: string): seq<string> {
    BaseKeywords(ql) + (if ContainsAny(ql, GeneralWords) then ContentWords else [])
  }

  /** The six content words are appended exactly when a general word occurs in
      the question. */
  lemma KeywordsContent(ql: string)
    ensures (exists k :: 0 <= k < |GeneralWords| && Contains(ql, GeneralWords[k])) ==>
      ExtractKeywords(ql) == BaseKeywords(ql) + ContentWords
    ensures (forall k :: 0 <= k < |GeneralWords| ==> !Contains(ql, GeneralWords[k])) ==>
      ExtractKeywords(ql) == BaseKeywords(ql)
  {
    ContainsAnyIff(ql, GeneralWords);
  }

  /** The general words are searched as substrings: "me" inside "name" adds
      the content words to the keywords of "name the hero". */
  lemma GeneralWordInsideWord(ql: string)
    requires ql == "name the hero"
    ensures ExtractKeywords(ql) == BaseKeywords(ql) + ContentWords
  {
    assert ql[2..4] == "me";
    ContainsAt(ql, "me", 2);
    assert GeneralWords[1] == "me";
    ContainsAnyIff(ql, GeneralWords);
  }

  /** The base keywords are words of the question longer than one character:
      the meaningful ones when the question has any, and otherwise all of them. */
  lemma BaseKeywordsShape(ql: string)
    ensures forall w :: w in BaseKeywords(ql) ==> w in Words(ql) && |w| > 1
    ensures (exists w :: w in Words(ql) && Meaningful(w)) ==>
      forall w :: w in BaseKeywords(ql) <==> w in Words(ql) && Meaningful(w)
    ensures (forall w :: w in Words(ql) ==> !Meaningful(w)) ==>
      forall w :: w in BaseKeywords(ql) <==> w in Words(ql) && |w| > 1
  {
    FilterFallback(Words(ql), Meaningful, LongerThanOne);
  }

  /** int(x) for each of a list of digit strings. */
  function Values(ds: seq<string>): (r: seq<nat>)
    requires forall k :: 0 <= k < |ds| ==> AllDigits(ds[k])
    ensures |r| == |ds|
    ensures forall k :: 0 <= k < |ds| ==> r[k] == DigitsValue(ds[k])
    decreases |ds|
  {
    if |ds| == 0 then [] else [DigitsValue(ds[0])] + Values(ds[1..])
  }

  /** The numbers named as "chapter <digits>" in the lowered question. */
  function ChapterNumbers(ql: string): seq<nat> {
    Values(ChapterMatches(ql))
  }

  predicate DigitRun(w: string) { |w| > 0 && AllDigits(w) }

  /** re.findall(r'\b(\d+)\b', ...): the \w-runs made only of digits. */
  function NumberRuns(ql: string): (r: seq<string>)
    ensures forall k :: 0 <= k < |r| ==> DigitRun(r[k])
    ensures forall w :: w in r <==> w in WordRuns(ql) && DigitRun(w)
  {
    var r := Filter(WordRuns(ql), DigitRun);
    assert forall k :: 0 <= k < |r| ==> r[k] in r;
    r
  }

  function Numbers(ql: string): seq<nat> {
    Values(NumberRuns(ql))
  }

  /** A whole \w-run of one capital letter followed by lower-case letters,
      which is what \b[A-Z][a-z]+\b matches. */
  predicate IsName(w: string) {
    |w| >= 2 && IsUpper(w[0]) && forall i :: 1 <= i < |w| ==> IsLower(w[i])
  }

  /** The capitalised words of the original question. */
  function CharacterNames(q: string): (r: seq<string>)
    ensures forall w :: w in r <==> w in WordRuns(q) && IsName(w)
  {
    Filter(WordRuns(q), IsName)
  }

  /** A digit run glued to a letter is not a whole \w-run of digits, so
      "chapter 3a" names no number. */
  lemma NumberGluedToLetter()
    ensures NumberRuns("chapter 3a") == []
  {
    var tail := "3a";
    var ql := "chapter" + ([' '] + tail);
    assert ql == "chapter 3a";
    TokenAtEnd(tail, IsNonWordChar);
    TokenThenSep("chapter", ' ', tail, IsNonWordChar);
    assert WordRuns(ql) == ["chapter", "3a"];
    assert !DigitRun("chapter") && !DigitRun("3a");
  }

  /** The question word itself is a capitalised \w-run: "Who is Arjun?" yields
      the names "Who" and "Arjun". */
  lemma QuestionWordIsName()
    ensures CharacterNames("Who is Arjun?") == ["Who", "Arjun"]
  {
    QuestionRuns();
    QuestionNames();
  }

  lemma QuestionRuns()
    ensures WordRuns("Who is Arjun?") == ["Who", "is", "Arjun"]
  {
    var t3 := "Arjun" + ['?'];
    var t2 := "is" + ([' '] + t3);
    var q := "Who" + ([' '] + t2);
    assert q == "Who is Arjun?";
    TokenThenSep("Arjun", '?', [], IsNonWordChar);
    assert "Arjun" + (['?'] + []) == t3;
    TokenThenSep("is", ' ', t3, IsNonWordChar);
    TokenThenSep("Who", ' ', t2, IsNonWordChar);
  }

  lemma QuestionNames()
    ensures Filter(["Who", "is", "Arjun"], IsName) == ["Who", "Arjun"]
  {
    var runs := ["Who", "is", "Arjun"];
    assert IsName("Who") && !IsName("is") && IsName("Arjun");
    assert runs[1..] == ["is", "Arjun"];
    assert runs[1..][1..] == ["Arjun"];
    assert Filter(["Arjun"], IsName) == ["Arjun"];
  }

  const LocationWords: set<string> := {"in", "at", "from", "to", "near", "around"}

  /** The words following a location word among the first n words. */
  function LocationsUpTo(words: seq<string>, n: nat): seq<string>
    requires n <= |words|
  {
    if n == 0 then []
    else
      var found := if words[n - 1] in LocationWords && n < |words| then [words[n]] else [];
      LocationsUpTo(words, n - 1) + found
  }

  function Locations(words: seq<string>): seq<string> {
    LocationsUpTo(words, |words|)
  }

  /** Every location is a word that follows a location word, and every word that
      follows a location word is a location. */
  lemma {:induction false} LocationsFollow(words: seq<string>, n: nat)
    requires n <= |words|
    ensures forall l :: l in LocationsUpTo(words, n) <==>
      exists i :: 0 <= i < n && i + 1 < |words| && words[i] in LocationWords && words[i + 1] == l
    decreases n
  {
    if n > 0 {
      LocationsFollow(words, n - 1);
    }
  }

  /** The extracted entities; dates are never filled in. */
  datatype Entities = Entities(
    chapterNumbers: seq<nat>,
    characterNames: seq<string>,
    locations: seq<string>,
    dates: seq<string>,
    numbers: seq<nat>)

  /** The result of analysing one question. */
  datatype Analysis = Analysis(
    question: string,
    questionLower: string,
    detected: seq<Intent>,
    primary: Intent,
    entities: Entities,
    keywords: seq<string>)

  /** analyze_question, as a value. */
  function Analyze(q: string): Analysis {
    var ql := Strip(Lower(q));
    var detected := DetectIntents(ql);
    Analysis(q, ql, detected, PrimaryIntent(detected),
             Entities(ChapterNumbers(ql), CharacterNames(q), Locations(Words(ql)), [], Numbers(ql)),
             ExtractKeywords(ql))
  }

  /** A question whose lowered text names a chapter cue is a chapter question,
      and its chapter numbers are the values of its chapter matches. */
  lemma AnalyzeChapter(q: string)
    requires Detected(Strip(Lower(q)), ChapterSpecific)
    ensures Analyze(q).primary == ChapterSpecific
    ensures Analyze(q).entities.chapterNumbers == Values(ChapterMatches(Strip(Lower(q))))
  {
    assert ChapterSpecific in TableOrder;
    ChapterFirst(DetectIntents(Strip(Lower(q))));
  }

  /** "What is Chapter 3 about?" is a chapter question about chapter 3. */
  lemma ChapterQuestionExample(q: string)
    requires q == "What is Chapter 3 about?"
    ensures Analyze(q).primary == ChapterSpecific
    ensures Analyze(q).entities.chapterNumbers == [3]
  {
    var ql := ExampleLowered(q);
    ExampleDetected(ql);
    ExampleMatches(ql);
    AnalyzeChapter(q);
  }

  /** The example question, lowered and stripped. */
  lemma ExampleLowered(q: string) returns (ql: string)
    requires q == "What is Chapter 3 about?"
    ensures ql == Strip(Lower(q)) && ql == "what is " + ("chapter" + (" " + ("3" + " about?")))
  {
    ql := "what is " + ("chapter" + (" " + ("3" + " about?")));
    assert Lower(q) == ql;
    assert Strip(ql) == ql;
  }

  lemma ExampleDetected(ql: string)
    requires ql == "what is " + ("chapter" + (" " + ("3" + " about?")))
    ensures Detected(ql, ChapterSpecific)
  {
    assert OccursAt(ql, "chapter", 8);
    ContainsAt(ql, "chapter", 8);
  }

  lemma ExampleMatches(ql: string)
    requires ql == "what is " + ("chapter" + (" " + ("3" + " about?")))
    ensures Values(ChapterMatches(ql)) == [3]
  {
    var rest := "chapter" + (" " + ("3" + " about?"));
    forall k | 0 <= k < 8 ensures !IsPrefix("chapter", ql[k..]) {
      assert ql[k] != 'c';
    }
    ChapterMatchesSkip(ql, 8);
    assert ql[8..] == rest;
    ExampleChapterMatch();
    assert DigitsValue("3") == 3;
  }

  /** The one match of chapter\s+(\d+) in "chapter 3 about?". */
  lemma ExampleChapterMatch()
    ensures ChapterMatches("chapter" + (" " + ("3" + " about?"))) == ["3"]
  {
    var tail := " about?";
    var digits := "3" + tail;
    var rest := "chapter" + (" " + digits);
    assert rest[7..] == " " + digits;
    assert SpanOf(" " + digits, IsSpace) == 1;
    assert rest[8..] == digits;
    assert SpanOf(digits, IsDigit) == 1;
    assert rest[8..9] == "3";
    assert ChapterAt(rest) == Some(("3", 9));
    assert rest[9..] == tail;
    ExampleNoMatch();
  }

  lemma ExampleNoMatch()
    ensures ChapterMatches(" about?") == []
  {
    var tail := " about?";
    forall k | 0 <= k < |tail| ensures !IsPrefix("chapter", tail[k..]) {
      assert |tail[k..]| < 7 || tail[k] != 'c';
    }
    ChapterMatchesSkip(tail, |tail|);
    assert tail[|tail|..] == [];
  }

  /** The location loop: for each word that is a location word and has a
      successor, the successor is appended. */
  method ExtractLocations(words: seq<string>) returns (locations: seq<string>)
    ensures locations == Locations(words)
  {
    locations := [];
    var i := 0;
    while i < |words|
      invariant 0 <= i <= |words|
      invariant locations == LocationsUpTo(words, i)
    {
      if words[i] in LocationWords && i + 1 < |words| {
        locations := locations + [words[i + 1]];
      }
      i := i + 1;
    }
  }

  /** analyze_question. */
  method AnalyzeQuestion(q: string) returns (a: Analysis)
    ensures a == Analyze(q)
  {
    var ql := Strip(Lower(q));
    var detected := DetectIntents(ql);
    var locations := ExtractLocations(Words(ql));
    var entities := Entities(ChapterNumbers(ql), CharacterNames(q), locations, [], Numbers(ql));
    a := Analysis(q, ql, detected, PrimaryIntent(detected), entities, ExtractKeywords(ql));
  }
}

=== FILE: Answering.dfy ===
/**
 * Answering a question about one document: every chunk is scored against the
 * analysed question, the chunks scoring above zero are ranked best first, the
 * best of them are selected and composed into an answer, and the answer is
 * translated; the confidence grows with the best score, up to 0.95.
 */
module Answering {
  import opened Text
  import opened Analyzer
  import opened Segmenter
  import opened Scorer
  import opened Selector
  import opened Composer
  import opened Localizer

  /** The answer for a document without chunks. */
  const NoContentMessage: string := "I cannot find any content in this PDF to answer your question."

  /** The answer when no chunk scores above zero. */
  const NoMatchMessage: string :=
    "I cannot find specific information about this question in the PDF. The question may not be directly addressed in the document content."

  /** The answer text, whether relevant content was found, and the confidence. */
  datatype Outcome = Outcome(answer: string, found: bool, confidence: real)

  /** The chunks scoring above zero, each paired with its score, in document order. */
  function Relevant(chunks: seq<Chunk>, a: Analysis): seq<Scored>
    decreases |chunks|
  {
    if |chunks| == 0 then []
    else
      var c := chunks[|chunks| - 1];
      var score := Score(c, a);
      Relevant(chunks[..|chunks| - 1], a) + (if score > 0 then [Scored(c, score)] else [])
  }

  /** x placed before the first element scoring no more than it. */
  function Insert(x: Scored, ys: seq<Scored>): seq<Scored>
    decreases |ys|
  {
    if |ys| == 0 then [x]
    else if ys[0].score <= x.score then [x] + ys
    else [ys[0]] + Insert(x, ys[1..])
  }

  /** list.sort(key=score, reverse=True): highest score first, ties in their original order. */
  function SortByScore(xs: seq<Scored>): seq<Scored>
    decreases |xs|
  {
    if |xs| == 0 then [] else Insert(xs[0], SortByScore(xs[1..]))
  }

  /** The elements scoring exactly s, in order. */
  function Tied(xs: seq<Scored>, s: int): seq<Scored>
    decreases |xs|
  {
    if |xs| == 0 then []
    else (if xs[0].score == s then [xs[0]] else []) + Tied(xs[1..], s)
  }

  /** max(score for _, score in best). */
  function MaxScore(xs: seq<Scored>): int
    requires |xs| > 0
    decreases |xs|
  {
    if |xs| == 1 then xs[0].score
    else
      var rest := MaxScore(xs[1..]);
      if xs[0].score >= rest then xs[0].score else rest
  }

  /** min(0.95, top / 50.0). */
  function Confidence(top: int): real {
    var c := top as real / 50.0;
    if c < 0.95 then c else 0.95
  }

  /** The relevant chunks, best first. */
  function Ranked(chunks: seq<Chunk>, a: Analysis): seq<Scored> {
    SortByScore(Relevant(chunks, a))
  }

  /** generate_answer for an analysed question, before the answer is translated. */
  function Reply(chunks: seq<Chunk>, a: Analysis): Outcome {
    if |chunks| == 0 then Outcome(NoContentMessage, false, 0.0)
    else
      var ranked := Ranked(chunks, a);
      if |ranked| == 0 then Outcome(NoMatchMessage, false, 0.0)
      else
        var best := Select(ranked, a.primary);
        SelectShape(ranked, a.primary);
        Outcome(Compose(best, a.primary), true, Confidence(MaxScore(best)))
  }

  /** generate_answer: the reply to the analysed question, its text translated. */
  function Answer(chunks: seq<Chunk>, question: string, language: string): Outcome {
    var r := Reply(chunks, Analyze(question));
    Outcome(Localize(r.answer, language), r.found, r.confidence)
  }

  /** A scored pair is kept exactly when it is a chunk of the document with its
      own score, and that score is above zero. */
  lemma {:induction false} RelevantMembers(chunks: seq<Chunk>, a: Analysis)
    ensures forall x :: x in Relevant(chunks, a) <==> x.chunk in chunks && x.score == Score(x.chunk, a) && x.score > 0
    decreases |chunks|
  {
    if |chunks| > 0 {
      var init := chunks[..|chunks| - 1];
      RelevantMembers(init, a);
      assert chunks == init + [chunks[|chunks| - 1]];
      forall c ensures c in chunks <==> c in init || c == chunks[|chunks| - 1] {
        if c in chunks {
          var i :| 0 <= i < |chunks| && chunks[i] == c;
          if i < |chunks| - 1 {
            assert init[i] == c;
          }
        }
      }
    }
  }

  /** Inserting adds x and nothing else. */
  lemma {:induction false} InsertPermutes(x: Scored, ys: seq<Scored>)
    ensures multiset(Insert(x, ys)) == multiset(ys) + multiset{x}
    decreases |ys|
  {
    if |ys| > 0 && ys[0].score > x.score {
      InsertPermutes(x, ys[1..]);
      assert ys == [ys[0]] + ys[1..];
    }
  }

  /** Inserting into a list sorted best first keeps it sorted. */
  lemma {:induction false} InsertDescending(x: Scored, ys: seq<Scored>)
    requires Descending(ys)
    ensures Descending(Insert(x, ys))
    ensures |Insert(x, ys)| > 0 && (Insert(x, ys)[0] == x || Insert(x, ys)[0] == ys[0])
    decreases |ys|
  {
    if |ys| > 0 && ys[0].score > x.score {
      var rest := Insert(x, ys[1..]);
      InsertDescending(x, ys[1..]);
      var r := Insert(x, ys);
      assert r == [ys[0]] + rest;
      forall i, j | 0 <= i < j < |r| ensures r[i].score >= r[j].score {
        if i == 0 {
          InsertPermutes(x, ys[1..]);
          assert r[j] in multiset(rest);
          if r[j] != x {
            assert r[j] in multiset(ys[1..]);
            var k :| 0 <= k < |ys[1..]| && ys[1..][k] == r[j];
            assert ys[k + 1] == r[j];
          }
        } else {
          assert r[i] == rest[i - 1] && r[j] == rest[j - 1];
        }
      }
    }
  }

  /** Inserting x changes the run of elements tied with x's score only by putting
      x first in it, and leaves every other run alone. */
  lemma {:induction false} InsertTied(x: Scored, ys: seq<Scored>, s: int)
    ensures Tied(Insert(x, ys), s) == (if x.score == s then [x] else []) + Tied(ys, s)
    decreases |ys|
  {
    if |ys| == 0 {
      assert Tied([x], s) == (if x.score == s then [x] else []) + Tied([x][1..], s);
    } else if ys[0].score <= x.score {
      assert Insert(x, ys) == [x] + ys;
      assert ([x] + ys)[1..] == ys;
      assert Tied([x] + ys, s) == (if x.score == s then [x] else []) + Tied(ys, s);
    } else {
      var rest := Insert(x, ys[1..]);
      var head: seq<Scored> := if ys[0].score == s then [ys[0]] else [];
      var mine: seq<Scored> := if x.score == s then [x] else [];
      assert Insert(x, ys) == [ys[0]] + rest;
      assert ([ys[0]] + rest)[1..] == rest;
      assert Tied(ys, s) == head + Tied(ys[1..], s);
      InsertTied(x, ys[1..], s);
      assert Tied([ys[0]] + rest, s) == head + (mine + Tied(ys[1..], s));
      if x.score == s {
        assert head == [];
      } else {
        assert mine == [];
      }
    }
  }

  /** The ranking is sorted best first. */
  lemma {:induction false} SortDescending(xs: seq<Scored>)
    ensures Descending(SortByScore(xs))
    decreases |xs|
  {
    if |xs| > 0 {
      SortDescending(xs[1..]);
      InsertDescending(xs[0], SortByScore(xs[1..]));
    }
  }

  /** The ranking holds exactly the scored chunks it was given. */
  lemma {:induction false} SortPermutes(xs: seq<Scored>)
    ensures multiset(SortByScore(xs)) == multiset(xs)
    decreases |xs|
  {
    if |xs| > 0 {
      SortPermutes(xs[1..]);
      InsertPermutes(xs[0], SortByScore(xs[1..]));
      assert xs == [xs[0]] + xs[1..];
    }
  }

  /** The ranking is stable: chunks with equal scores keep their document order. */
  lemma {:induction false} SortStable(xs: seq<Scored>, s: int)
    ensures Tied(SortByScore(xs), s) == Tied(xs, s)
    decreases |xs|
  {
    if |xs| > 0 {
      SortStable(xs[1..], s);
      InsertTied(xs[0], SortByScore(xs[1..]), s);
    }
  }

  /** The largest score is the score of some element and no element scores more. */
  lemma {:induction false} MaxScoreIsMax(xs: seq<Scored>)
    requires |xs| > 0
    ensures forall i :: 0 <= i < |xs| ==> xs[i].score <= MaxScore(xs)
    ensures exists i :: 0 <= i < |xs| && xs[i].score == MaxScore(xs)
    decreases |xs|
  {
    if |xs| > 1 {
      MaxScoreIsMax(xs[1..]);
      forall i | 0 < i < |xs| ensures xs[i].score <= MaxScore(xs) {
        assert xs[i] == xs[1..][i - 1];
      }
      if xs[0].score < MaxScore(xs[1..]) {
        var i :| 0 <= i < |xs[1..]| && xs[1..][i].score == MaxScore(xs[1..]);
        assert xs[i + 1].score == MaxScore(xs);
      } else {
        assert xs[0].score == MaxScore(xs);
      }
    } else {
      assert xs[0].score == MaxScore(xs);
    }
  }

  /** The confidence of a positive score is positive and never above 0.95;
      it is the score over 50 up to a score of 47.5. */
  lemma ConfidenceRange(top: int)
    requires top > 0
    ensures 0.0 < Confidence(top) <= 0.95
    ensures top as real < 47.5 ==> Confidence(top) == top as real / 50.0
    ensures top >= 48 ==> Confidence(top) == 0.95
  {
  }

  /** A document without chunks gets the no-content message, not found, with confidence 0. */
  lemma ReplyNoChunks(a: Analysis)
    ensures Reply([], a) == Outcome(NoContentMessage, false, 0.0)
  {
  }

  /** Relevant content is found exactly when some chunk scores above zero. */
  lemma ReplyFoundIff(chunks: seq<Chunk>, a: Analysis)
    ensures Reply(chunks, a).found <==> exists c :: c in chunks && Score(c, a) > 0
  {
    var relevant := Relevant(chunks, a);
    RelevantMembers(chunks, a);
    SortPermutes(relevant);
    if exists c :: c in chunks && Score(c, a) > 0 {
      var c :| c in chunks && Score(c, a) > 0;
      assert Scored(c, Score(c, a)) in relevant;
      assert Scored(c, Score(c, a)) in multiset(Ranked(chunks, a));
    } else if |Ranked(chunks, a)| > 0 {
      assert Ranked(chunks, a)[0] in multiset(relevant);
    }
  }

  /** When nothing is found the answer is the no-match or the no-content message and
      the confidence is 0. */
  lemma ReplyNotFound(chunks: seq<Chunk>, a: Analysis)
    requires !Reply(chunks, a).found
    ensures Reply(chunks, a) == Outcome(if |chunks| == 0 then NoContentMessage else NoMatchMessage, false, 0.0)
  {
  }

  /** When content is found the confidence is that of the best score over all the
      chunks of the document: positive, and at most 0.95. */
  lemma ReplyConfidence(chunks: seq<Chunk>, a: Analysis)
    requires Reply(chunks, a).found
    ensures exists c :: (c in chunks && Score(c, a) > 0
                         && Reply(chunks, a).confidence == Confidence(Score(c, a))
                         && forall d :: d in chunks ==> Score(d, a) <= Score(c, a))
    ensures 0.0 < Reply(chunks, a).confidence <= 0.95
  {
    var relevant := Relevant(chunks, a);
    var ranked := Ranked(chunks, a);
    var best := Select(ranked, a.primary);
    SelectShape(ranked, a.primary);
    SortDescending(relevant);
    SortPermutes(relevant);
    RelevantMembers(chunks, a);
    TopIsBest(ranked, best);
    var top := ranked[0];
    assert top in multiset(relevant);
    forall d | d in chunks ensures Score(d, a) <= top.score {
      if Score(d, a) > 0 {
        assert Scored(d, Score(d, a)) in multiset(ranked);
        var k :| 0 <= k < |ranked| && ranked[k] == Scored(d, Score(d, a));
      }
    }
    ConfidenceRange(top.score);
  }

  /** The best selected chunk is the top of the ranking, and its score is the largest. */
  lemma TopIsBest(ranked: seq<Scored>, best: seq<Scored>)
    requires Descending(ranked) && |ranked| > 0
    requires IsSubsequence(best, ranked) && |best| > 0 && best[0] == ranked[0]
    ensures MaxScore(best) == ranked[0].score
  {
    SubsequenceDescending(best, ranked);
    MaxScoreIsMax(best);
  }

  /** Summary, general, character and plot questions always find content in a
      document that has chunks. */
  lemma ReplyBroadQuestions(chunks: seq<Chunk>, a: Analysis)
    requires |chunks| > 0
    requires a.primary in {Summary, General, Character, Plot}
    ensures Reply(chunks, a).found
  {
    ScorePositive(chunks[0], a);
    ReplyFoundIff(chunks, a);
  }

  /** An answer that was found never exceeds the length budget of its question type. */
  lemma ReplyLength(chunks: seq<Chunk>, a: Analysis)
    requires Reply(chunks, a).found
    ensures |Reply(chunks, a).answer| <= Budget(a.primary)
  {
    ComposeShape(Select(Ranked(chunks, a), a.primary), a.primary);
  }

  /** The answer in English is the reply itself; in another language it is the reply
      translated, with the same finding and confidence. */
  lemma AnswerTranslatesReply(chunks: seq<Chunk>, question: string, language: string)
    ensures Answer(chunks, question, "en") == Reply(chunks, Analyze(question))
    ensures Answer(chunks, question, language).found == Reply(chunks, Analyze(question)).found
    ensures Answer(chunks, question, language).confidence == Reply(chunks, Analyze(question)).confidence
  {
  }

  /**
   * The three outcomes of generate_answer in the asked language: no chunks gives
   * the translated no-content message, chunks none of which scores above zero
   * give the translated no-match message, both not found with confidence 0; a
   * chunk scoring above zero gives a found answer with confidence in (0, 0.95].
   */
  lemma AnswerOutcomes(chunks: seq<Chunk>, question: string, language: string)
    ensures |chunks| == 0 ==>
      Answer(chunks, question, language) == Outcome(Localize(NoContentMessage, language), false, 0.0)
    ensures |chunks| > 0 && (forall c :: c in chunks ==> Score(c, Analyze(question)) <= 0) ==>
      Answer(chunks, question, language) == Outcome(Localize(NoMatchMessage, language), false, 0.0)
    ensures (exists c :: c in chunks && Score(c, Analyze(question)) > 0) ==>
      Answer(chunks, question, language).found
      && 0.0 < Answer(chunks, question, language).confidence <= 0.95
  {
    var a := Analyze(question);
    var r := Reply(chunks, a);
    assert Answer(chunks, question, language) == Outcome(Localize(r.answer, language), r.found, r.confidence);
    ReplyFoundIff(chunks, a);
    if r.found {
      ReplyConfidence(chunks, a);
    } else {
      ReplyNotFound(chunks, a);
    }
  }

  /** A Gujarati answer holds no apostrophe and no letter a. */
  lemma AnswerGujarati(chunks: seq<Chunk>, question: string)
    ensures '\'' !in Answer(chunks, question, "gu").answer
    ensures 'a' !in Answer(chunks, question, "gu").answer
  {
    GujaratiClean(Reply(chunks, Analyze(question)).answer);
  }

  /** generate_answer: score every chunk, rank, select, compose, translate. */
  method GenerateAnswer(question: string, chunks: seq<Chunk>, language: string)
    returns (answer: string, found: bool, confidence: real)
    ensures Outcome(answer, found, confidence) == Answer(chunks, question, language)
  {
    if |chunks| == 0 {
      answer := TranslateAnswer(NoContentMessage, language);
      return answer, false, 0.0;
    }
    var questionAnalysis := AnalyzeQuestion(question);
    var chunkScores := ScoreAll(chunks, questionAnalysis);
    chunkScores := SortByScore(chunkScores);
    if |chunkScores| > 0 {
      var bestChunks := SelectBestChunks(chunkScores, questionAnalysis.primary);
      SelectShape(chunkScores, questionAnalysis.primary);
      var answerText := GenerateAnswerFromChunks(bestChunks, questionAnalysis.primary);
      answer := TranslateAnswer(answerText, language);
      var maxScore := MaxScore(bestChunks);
      confidence := Confidence(maxScore);
      found := true;
    } else {
      answer := TranslateAnswer(NoMatchMessage, language);
      found, confidence := false, 0.0;
    }
  }

  /** The scoring loop: each chunk scoring above zero, with its score, in order. */
  method ScoreAll(chunks: seq<Chunk>, questionAnalysis: Analysis) returns (chunkScores: seq<Scored>)
    ensures chunkScores == Relevant(chunks, questionAnalysis)
  {
    chunkScores := [];
    var i := 0;
    while i < |chunks|
      invariant 0 <= i <= |chunks|
      invariant chunkScores == Relevant(chunks[..i], questionAnalysis)
    {
      var score := ScoreChunk(chunks[i], questionAnalysis);
      if score > 0 {
        chunkScores := chunkScores + [Scored(chunks[i], score)];
      }
      assert chunks[..i + 1][..i] == chunks[..i];
      i := i + 1;
    }
    assert chunks[..i] == chunks;
  }
}

=== FILE: Composer.dfy ===
/**
 * Composing the answer text from the selected chunks: each chunk's text is
 * cleaned, the texts are joined with spaces, and a text over the question
 * type's length budget is cut back to whole sentences.
 */
module Composer {
  import opened Text
  import opened Analyzer
  import opened Selector

  /** The answer-length budget: 1000 characters for summaries, 600 otherwise. */
  function Budget(primary: Intent): nat {
    if primary == Summary then 1000 else 600
  }

  /** A chunk's text stripped, with its white space runs collapsed to single spaces. */
  function Clean(t: string): string {
    Normalize(Strip(t))
  }

  /** The cleaned texts of the chunks, in order. */
  function Parts(best: seq<Scored>): seq<string> {
    seq(|best|, i requires 0 <= i < |best| => Clean(best[i].chunk.text))
  }

  /**
   * The sentence loop: from the text accumulated so far, each next sentence is
   * taken, followed by ". ", while the accumulated text and the sentence together
   * stay under max characters; the first sentence that does not fit ends it.
   */
  function Truncate(sentences: seq<string>, acc: string, max: nat): string
    decreases |sentences|
  {
    if |sentences| == 0 then acc
    else if |acc + sentences[0]| < max then Truncate(sentences[1..], acc + sentences[0] + ". ", max)
    else acc
  }

  /** A text over budget, cut back at a sentence boundary, or "..." when nothing fits. */
  function Shorten(text: string, max: nat): string {
    var t := Strip(Truncate(Split(text, ". "), "", max));
    if EndsWith(t, ".") then t else t + "..."
  }

  /** generate_answer_from_chunks. */
  function Compose(best: seq<Scored>, primary: Intent): string {
    var text := Join(Parts(best), " ");
    if |text| > Budget(primary) then Shorten(text, Budget(primary)) else text
  }

  /**
   * Over a text whose sentences, joined by ". " after acc, make up `whole` and do
   * not fit in max, the loop stops with nothing taken or with a run of sentences
   * ending in ". " that opens `whole`, within max + 1 characters.
   */
  lemma {:induction false} TruncateShape(sentences: seq<string>, acc: string, max: nat, whole: string)
    requires |sentences| > 0
    requires whole == acc + Join(sentences, ". ")
    requires |whole| >= max
    requires acc == [] || (EndsWith(acc, ". ") && |acc| <= max + 1)
    ensures var r := Truncate(sentences, acc, max);
      r == [] || (EndsWith(r, ". ") && |r| <= max + 1 && IsPrefix(r, whole))
    ensures |Truncate(sentences, acc, max)| >= |acc|
    ensures acc == [] ==> (Truncate(sentences, acc, max) == [] <==> |sentences[0]| >= max)
    decreases |sentences|
  {
    var s := sentences[0];
    if |acc + s| < max {
      if |sentences| == 1 {
        assert false;
      }
      var next := acc + s + ". ";
      JoinCons(s, sentences[1..], ". ");
      assert [s] + sentences[1..] == sentences;
      assert whole == next + Join(sentences[1..], ". ");
      assert EndsWith(next, ". ");
      assert Truncate(sentences, acc, max) == Truncate(sentences[1..], next, max);
      TruncateShape(sentences[1..], next, max, whole);
    } else {
      assert Truncate(sentences, acc, max) == acc;
      assert whole[..|acc|] == acc;
    }
  }

  /** Stripping a text that ends in ". " leaves a non-empty run of it ending at the period. */
  lemma StripSentences(r: string)
    requires EndsWith(r, ". ")
    ensures var t := Strip(r);
      0 < |t| <= |r| - 1 && t == r[|r| - 1 - |t|..|r| - 1] && EndsWith(t, ".")
  {
    var l := TrimLeft(r);
    TrimLeftShape(r);
    if l == [] {
      assert r[|r| - 2] == '.' && AllSpace(r);
      assert false;
    }
    assert l[|l| - 2..] == ". ";
    var t := TrimRight(l);
    TrimRightShape(l);
    assert l[|l| - 2] == '.';
    if |t| >= |l| {
      assert false;
    }
    if |t| < |l| - 1 {
      assert false;
    }
    assert t == l[..|l| - 1];
  }

  /** r is the text up to and including one of its ". " separators, stripped. */
  predicate CutAtSentence(text: string, r: string) {
    exists k :: 2 <= k <= |text| && text[k - 2..k] == ". " && r == Strip(text[..k])
  }

  /**
   * A text over budget becomes "..." when its first sentence alone does not fit
   * under max, and otherwise the text cut at one of its ". " separators: a part
   * of the text, at most max characters long, ending with a period.
   */
  lemma ShortenShape(text: string, max: nat)
    requires |text| > max
    ensures var first := Split(text, ". ")[0];
      (|first| >= max ==> Shorten(text, max) == "...")
      && (|first| < max ==>
            var r := Shorten(text, max);
            0 < |r| <= max && EndsWith(r, ".") && Contains(text, r) && CutAtSentence(text, r))
  {
    var ss := Split(text, ". ");
    SplitJoin(text, ". ");
    assert text == [] + Join(ss, ". ");
    TruncateShape(ss, [], max, text);
    if |ss[0]| < max {
      StrippedCut(text, Truncate(ss, [], max));
    }
  }

  /** An opening part of the text ending in ". ", stripped, is a non-empty part of
      the text ending with a period and cut at that separator. */
  lemma StrippedCut(text: string, acc: string)
    requires IsPrefix(acc, text) && EndsWith(acc, ". ")
    ensures var t := Strip(acc);
      0 < |t| < |acc| && EndsWith(t, ".") && Contains(text, t) && CutAtSentence(text, t)
  {
    StripSentences(acc);
    var t := Strip(acc);
    var k := |acc| - 1 - |t|;
    assert text[..|acc|] == acc;
    assert text[k..k + |t|] == t;
    ContainsAt(text, t, k);
    assert text[|acc| - 2..|acc|] == ". ";
  }

  /**
   * The answer never exceeds its budget. A text within budget is the answer
   * unchanged; a longer one is cut at one of its ". " separators, giving a run of
   * whole sentences ending with a period, or becomes "..." when its first sentence
   * alone is too long.
   */
  lemma ComposeShape(best: seq<Scored>, primary: Intent)
    ensures |Compose(best, primary)| <= Budget(primary)
    ensures var text := Join(Parts(best), " ");
      (|text| <= Budget(primary) ==> Compose(best, primary) == text)
      && (|text| > Budget(primary) ==>
            Compose(best, primary) == "..."
            || (EndsWith(Compose(best, primary), ".") && Contains(text, Compose(best, primary))
                && CutAtSentence(text, Compose(best, primary))))
  {
    var text := Join(Parts(best), " ");
    if |text| > Budget(primary) {
      ShortenShape(text, Budget(primary));
    }
  }

  /** generate_answer_from_chunks: the cleaning loop, the join and the sentence loop. */
  method GenerateAnswerFromChunks(best: seq<Scored>, primary: Intent) returns (answerText: string)
    ensures answerText == Compose(best, primary)
  {
    var answerParts: seq<string> := [];
    var i := 0;
    while i < |best|
      invariant 0 <= i <= |best|
      invariant |answerParts| == i
      invariant forall k :: 0 <= k < i ==> answerParts[k] == Clean(best[k].chunk.text)
    {
      var cleanText := Strip(best[i].chunk.text);
      cleanText := Join(Words(cleanText), " ");
      answerParts := answerParts + [cleanText];
      i := i + 1;
    }
    assert answerParts == Parts(best);
    answerText := Join(answerParts, " ");
    var maxLength := if primary == Summary then 1000 else 600;
    if |answerText| > maxLength {
      var sentences := Split(answerText, ". ");
      var truncated := TruncateLoop(sentences, maxLength);
      answerText := Strip(truncated);
      if !EndsWith(answerText, ".") {
        answerText := answerText + "...";
      }
    }
  }

  /** The sentence loop with its early exit. */
  method TruncateLoop(sentences: seq<string>, maxLength: nat) returns (truncated: string)
    ensures truncated == Truncate(sentences, "", maxLength)
  {
    truncated := "";
    var i := 0;
    while i < |sentences|
      invariant 0 <= i <= |sentences|
      invariant Truncate(sentences[i..], truncated, maxLength) == Truncate(sentences, "", maxLength)
    {
      var sentence := sentences[i];
      assert sentences[i..][1..] == sentences[i + 1..];
      if |truncated + sentence| < maxLength {
        truncated := truncated + sentence + ". ";
      } else {
        break;
      }
      i := i + 1;
    }
  }
}

=== FILE: Localizer.dfy ===
/**
 * translate_answer: English answer text to Gujarati or Hindi through ordered
 * replace-all tables.  Gujarati takes the long table keys as plain substrings,
 * then the short ones as whole words ignoring case, then a fixed list of patch
 * replacements; Hindi takes every table key as a plain substring; English and
 * every language without a table are left as they are.
 */
module Localizer {
  import opened Text

  /** A translation table: (English, translation) pairs in dictionary order. */
  type Table = seq<(string, string)>

  /** Entry i of the Gujarati dictionary; the last entry also answers every later index. */
  function GujaratiEntry(i: nat): (string, string) {
    match i
      case 0 => ("I cannot find specific information about this question in the PDF. The question may not be directly addressed in the document content.", "હું આ પ્રશ્ન વિશે PDF માં ચોક્કસ માહિતી શોધી શકતો નથી. પ્રશ્ન સીધો દસ્તાવેજની સામગ્રીમાં સંબોધવામાં આવ્યો નથી.")
      case 1 => ("I cannot find any content in this PDF to answer your question.", "હું તમારા પ્રશ્નનો જવાબ આપવા માટે આ PDF માં કોઈ સામગ્રી શોધી શકતો નથી.")
      case 2 => ("Error generating answer:", "જવાબ જનરેટ કરવામાં ભૂલ:")
      case 3 => ("Chapter", "અધ્યાય")
      case 4 => ("The Blades of Dawn", "ડોનની તવારો")
      case 5 => ("In the realm of", "રાજ્યમાં")
      case 6 => ("land draped in mist", "ધુમ્મસમાં લપેટાયેલી જમીન")
      case 7 => ("steeped in legends", "કથાઓમાં ડૂબેલું")
      case 8 => ("monsters known as", "રાક્ષસો તરીકે ઓળખાય છે")
      case 9 => ("have plagued villages", "ગામડાંમાં ત્રાસ ફેલાવ્યો છે")
      case 10 => ("for centuries", "સદીઓથી")
      case 11 => ("These creatures", "આ જીવો")
      case 12 => ("born from shadows", "છાયાઓમાંથી જન્મ્યા")
      case 13 => ("and c", "અને")
      case 14 => ("Kurogami", "કુરોગામી")
      case 15 => ("Tsukihara", "ત્સુકિહારા")
      case 16 => ("Haruto", "હારુતો")
      case 17 => ("Ake", "એકે")
      case 18 => ("blade", "તલવાર")
      case 19 => ("sword", "તલવાર")
      case 20 => ("warrior", "યોદ્ધા")
      case 21 => ("village", "ગામ")
      case 22 => ("villages", "ગામડાં")
      case 23 => ("story", "કહાણી")
      case 24 => ("tale", "કથા")
      case 25 => ("legend", "કથા")
      case 26 => ("legends", "કથાઓ")
      case 27 => ("monster", "રાક્ષસ")
      case 28 => ("monsters", "રાક્ષસો")
      case 29 => ("shadow", "છાયા")
      case 30 => ("shadows", "છાયાઓ")
      case 31 => ("moonlight", "ચાંદની")
      case 32 => ("blood", "રક્ત")
      case 33 => ("trial", "પરીક્ષા")
      case 34 => ("test", "પરીક્ષા")
      case 35 => ("battle", "લડાઈ")
      case 36 => ("fight", "લડાઈ")
      case 37 => ("power", "શક્તિ")
      case 38 => ("strength", "શક્તિ")
      case 39 => ("magic", "જાદુ")
      case 40 => ("spirit", "આત્મા")
      case 41 => ("soul", "આત્મા")
      case 42 => ("darkness", "અંધારું")
      case 43 => ("light", "પ્રકાશ")
      case 44 => ("dawn", "ભોર")
      case 45 => ("night", "રાત")
      case 46 => ("day", "દિવસ")
      case 47 => ("morning", "સવાર")
      case 48 => ("evening", "સાંજ")
      case 49 => ("forest", "જંગલ")
      case 50 => ("mountain", "પર્વત")
      case 51 => ("river", "નદી")
      case 52 => ("lake", "એરણ")
      case 53 => ("castle", "કિલ્લો")
      case 54 => ("temple", "મંદિર")
      case 55 => ("school", "શાળા")
      case 56 => ("training", "તાલીમ")
      case 57 => ("master", "ગુરુ")
      case 58 => ("student", "વિદ્યાર્થી")
      case 59 => ("teacher", "શિક્ષક")
      case 60 => ("family", "પરિવાર")
      case 61 => ("father", "પિતા")
      case 62 => ("mother", "માતા")
      case 63 => ("son", "પુત્ર")
      case 64 => ("daughter", "પુત્રી")
      case 65 => ("brother", "ભાઈ")
      case 66 => ("sister", "બહેન")
      case 67 => ("friend", "મિત્ર")
      case 68 => ("enemy", "દુશ્મન")
      case 69 => ("hero", "નાયક")
      case 70 => ("heroine", "નાયિકા")
      case 71 => ("villain", "ખલનાયક")
      case 72 => ("protagonist", "મુખ્ય પાત્ર")
      case 73 => ("character", "પાત્ર")
      case 74 => ("characters", "પાત્રો")
      case 75 => ("footsteps", "પગલાં")
      case 76 => ("echoed", "ગુંજ્યા")
      case 77 => ("along", "સાથે")
      case 78 => ("worn", "ઘસાયેલા")
      case 79 => ("cobblestone", "ગોળાકાર પથ્થર")
      case 80 => ("path", "પાથ")
      case 81 => ("weight", "ભાર")
      case 82 => ("constant", "સતત")
      case 83 => ("reminder", "યાદ")
      case 84 => ("oath", "શપથ")
      case 85 => ("sworn", "લીધો")
      case 86 => ("step", "પગલું")
      case 87 => ("brought", "લાવ્યા")
      case 88 => ("closer", "નજીક")
      case 89 => ("unknown", "અજાણ્યું")
      case 90 => ("veil", "ઘૂમટો")
      case 91 => ("between", "વચ્ચે")
      case 92 => ("life", "જીવન")
      case 93 => ("death", "મૃત્યુ")
      case 94 => ("thinned", "પાતળું")
      case 95 => ("under", "નીચે")
      case 96 => ("pale", "ફિક્કું")
      case 97 => ("glow", "ચમક")
      case 98 => ("moon", "ચંદ્ર")
      case 99 => ("soft", "મૃદુ")
      case 100 => ("silence", "શાંતિ")
      case 101 => ("lie", "ખોટું")
      case 102 => ("rustle", "સરસરાટ")
      case 103 => ("carried", "લાવ્યું")
      case 104 => ("promise", "વચન")
      case 105 => ("danger", "ભય")
      case 106 => ("whispers", "ફુસફુસાટ")
      case 107 => ("mist", "ધુમ્મસ")
      case 108 => ("his", "તેનું")
      case 109 => ("her", "તેનું")
      case 110 => ("their", "તેમનું")
      case 111 => ("the", "આ")
      case 112 => ("a", "એક")
      case 113 => ("an", "એક")
      case 114 => ("and", "અને")
      case 115 => ("or", "અથવા")
      case 116 => ("but", "પરંતુ")
      case 117 => ("in", "માં")
      case 118 => ("on", "પર")
      case 119 => ("at", "પર")
      case 120 => ("to", "ને")
      case 121 => ("for", "માટે")
      case 122 => ("of", "નું")
      case 123 => ("with", "સાથે")
      case 124 => ("by", "દ્વારા")
      case 125 => ("is", "છે")
      case 126 => ("are", "છે")
      case 127 => ("was", "હતું")
      case 128 => ("were", "હતા")
      case 129 => ("be", "હોવું")
      case 130 => ("been", "હતું")
      case 131 => ("have", "છે")
      case 132 => ("has", "છે")
      case 133 => ("had", "હતું")
      case 134 => ("do", "કરવું")
      case 135 => ("does", "કરે છે")
      case 136 => ("did", "કર્યું")
      case 137 => ("will", "હશે")
      case 138 => ("would", "હશે")
      case 139 => ("could", "કરી શકે")
      case 140 => ("should", "કરવું જોઈએ")
      case 141 => ("may", "કરી શકે")
      case 142 => ("might", "કરી શકે")
      case 143 => ("can", "કરી શકે")
      case 144 => ("this", "આ")
      case 145 => ("that", "તે")
      case 146 => ("these", "આ")
      case 147 => ("those", "તે")
      case 148 => ("i", "હું")
      case 149 => ("you", "તમે")
      case 150 => ("he", "તે")
      case 151 => ("she", "તે")
      case 152 => ("it", "તે")
      case 153 => ("we", "આપણે")
      case 154 => ("they", "તેઓ")
      case 155 => ("me", "મને")
      case 156 => ("him", "તેને")
      case 157 => ("us", "આપણને")
      case 158 => ("them", "તેમને")
      case 159 => ("my", "મારું")
      case 160 => ("your", "તમારું")
      case 161 => ("its", "તેનું")
      case 162 => ("our", "આપણું")
      case 163 => ("mine", "મારું")
      case 164 => ("yours", "તમારું")
      case 165 => ("hers", "તેનું")
      case 166 => ("ours", "આપણું")
      case _ => ("theirs", "તેમનું")
  }

  /**
   * The Gujarati dictionary as Python builds it: "his", "her" and "their" are
   * written more than once, and each keeps the position of its first occurrence
   * with the value of its last.
   */
  function GujaratiTable(): Table {
    seq(168, i requires 0 <= i < 168 => GujaratiEntry(i))
  }

  /** Entry i of the Hindi dictionary; the last entry also answers every later index. */
  function HindiEntry(i: nat): (string, string) {
    match i
      case 0 => ("I cannot find specific information about this question in the PDF. The question may not be directly addressed in the document content.", "मैं इस प्रश्न के बारे में PDF में विशिष्ट जानकारी नहीं ढूंढ सकता। प्रश्न सीधे दस्तावेज़ की सामग्री में संबोधित नहीं किया गया हो सकता है।")
      case 1 => ("I cannot find any content in this PDF to answer your question.", "मैं आपके प्रश्न का उत्तर देने के लिए इस PDF में कोई सामग्री नहीं ढूंढ सकता।")
      case 2 => ("Error generating answer:", "उत्तर जनरेट करने में त्रुटि:")
      case 3 => ("Chapter", "अध्याय")
      case 4 => ("The Blades of Dawn", "भोर की तलवारें")
      case 5 => ("In the realm of", "राज्य में")
      case 6 => ("land draped in mist", "धुंध में लिपटी भूमि")
      case 7 => ("steeped in legends", "किंवदंतियों में डूबा")
      case 8 => ("monsters known as", "राक्षस जिन्हें कहा जाता है")
      case 9 => ("have plagued villages", "गांवों में तबाही मचाई है")
      case 10 => ("for centuries", "सदियों से")
      case 11 => ("These creatures", "ये जीव")
      case 12 => ("born from shadows", "छायाओं से जन्मे")
      case 13 => ("and c", "और")
      case 14 => ("Kurogami", "कुरोगामी")
      case 15 => ("Tsukihara", "त्सुकिहारा")
      case 16 => ("Haruto", "हारुतो")
      case 17 => ("Ake", "एके")
      case 18 => ("blade", "तलवार")
      case 19 => ("sword", "तलवार")
      case 20 => ("warrior", "योद्धा")
      case 21 => ("village", "गांव")
      case 22 => ("villages", "गांवों")
      case 23 => ("story", "कहानी")
      case 24 => ("tale", "कथा")
      case 25 => ("legend", "कथा")
      case 26 => ("legends", "कथाएं")
      case 27 => ("monster", "राक्षस")
      case 28 => ("monsters", "राक्षसों")
      case 29 => ("shadow", "छाया")
      case 30 => ("shadows", "छायाएं")
      case 31 => ("moonlight", "चांदनी")
      case 32 => ("blood", "रक्त")
      case 33 => ("trial", "परीक्षा")
      case 34 => ("test", "परीक्षा")
      case 35 => ("battle", "युद्ध")
      case 36 => ("fight", "लड़ाई")
      case 37 => ("power", "शक्ति")
      case 38 => ("strength", "बल")
      case 39 => ("magic", "जादू")
      case 40 => ("spirit", "आत्मा")
      case 41 => ("soul", "आत्मा")
      case 42 => ("darkness", "अंधकार")
      case 43 => ("light", "प्रकाश")
      case 44 => ("dawn", "भोर")
      case 45 => ("night", "रात")
      case 46 => ("day", "दिन")
      case 47 => ("morning", "सुबह")
      case 48 => ("evening", "शाम")
      case 49 => ("forest", "जंगल")
      case 50 => ("mountain", "पहाड़")
      case 51 => ("river", "नदी")
      case 52 => ("lake", "झील")
      case 53 => ("castle", "किला")
      case 54 => ("temple", "मंदिर")
      case 55 => ("school", "स्कूल")
      case 56 => ("training", "प्रशिक्षण")
      case 57 => ("master", "गुरु")
      case 58 => ("student", "छात्र")
      case 59 => ("teacher", "शिक्षक")
      case 60 => ("family", "परिवार")
      case 61 => ("father", "पिता")
      case 62 => ("mother", "माता")
      case 63 => ("son", "बेटा")
      case 64 => ("daughter", "बेटी")
      case 65 => ("brother", "भाई")
      case 66 => ("sister", "बहन")
      case 67 => ("friend", "दोस्त")
      case 68 => ("enemy", "दुश्मन")
      case 69 => ("hero", "नायक")
      case 70 => ("heroine", "नायिका")
      case 71 => ("villain", "खलनायक")
      case 72 => ("protagonist", "मुख्य पात्र")
      case 73 => ("character", "पात्र")
      case _ => ("characters", "पात्रों")
  }

  /** The Hindi dictionary. */
  function HindiTable(): Table {
    seq(75, i requires 0 <= i < 75 => HindiEntry(i))
  }

  /** translations.get(target_language, {}). */
  function TableFor(lang: string): Table {
    if lang == "gu" then GujaratiTable()
    else if lang == "hi" then HindiTable()
    else []
  }

  /** text.replace(english, translated) for every entry, in table order. */
  function ReplaceEach(text: string, table: Table): string
    decreases |table|
  {
    if |table| == 0 then text
    else
      var (english, translated) := table[|table| - 1];
      ReplaceAll(ReplaceEach(text, table[..|table| - 1]), english, translated)
  }

  /** The first Gujarati pass: the entries whose key is longer than 3 characters. */
  function LongPass(text: string, table: Table): string
    decreases |table|
  {
    if |table| == 0 then text
    else
      var (english, translated) := table[|table| - 1];
      var t := LongPass(text, table[..|table| - 1]);
      if |english| > 3 then ReplaceAll(t, english, translated) else t
  }

  /**
   * The second Gujarati pass: the entries whose key has at most 3 characters,
   * each replaced as a whole word ignoring case.  Every key of the table is
   * non-empty, so the guard on an empty key never applies.
   */
  function ShortPass(text: string, table: Table): string
    decreases |table|
  {
    if |table| == 0 then text
    else
      var (english, translated) := table[|table| - 1];
      var t := ShortPass(text, table[..|table| - 1]);
      if 0 < |english| <= 3 then ReplaceWord(t, english, translated) else t
  }

  /** The fixed Gujarati patch replacements, block by block, in their order. */
  function PatchTable(): Table {
    Possessives() + ArticleFixes() + TitleFixes() + EnglishWords() + Cleanup() + Structure()
  }

  function PossessiveEntry(i: nat): (string, string) {
    match i
      case 0 => ("'s", "નું")
      case _ => ("'", "")
  }

  /** The possessive ending and the apostrophe. */
  function Possessives(): Table {
    seq(2, i requires 0 <= i < 2 => PossessiveEntry(i))
  }

  function ArticleEntry(i: nat): (string, string) {
    match i
      case 0 => ("આ the", "આ")
      case 1 => ("આ a", "એક")
      case _ => ("આ an", "એક")
  }

  /** An article left after a translated "the". */
  function ArticleFixes(): Table {
    seq(3, i requires 0 <= i < 3 => ArticleEntry(i))
  }

  function TitleEntry(i: nat): (string, string) {
    match i
      case 0 => ("આ Blade", "બ્લેડ")
      case 1 => ("આ Trial", "પરીક્ષા")
      case 2 => ("આ Whispers", "ફુસફુસાટ")
      case 3 => ("આ Mist", "ધુમ્મસ")
      case 4 => ("આ Blood", "રક્ત")
      case _ => ("આ Moon", "ચંદ્ર")
  }

  /** Title words left after a translated "the". */
  function TitleFixes(): Table {
    seq(6, i requires 0 <= i < 6 => TitleEntry(i))
  }

  function EnglishEntry(i: nat): (string, string) {
    match i
      case 0 => ("Each", "દરેક")
      case 1 => ("where", "જ્યાં")
      case 2 => ("under", "નીચે")
      case 3 => ("the", "આ")
      case 4 => ("a", "એક")
      case 5 => ("an", "એક")
      case 6 => ("and", "અને")
      case 7 => ("of", "નું")
      case 8 => ("in", "માં")
      case 9 => ("to", "ને")
      case 10 => ("for", "માટે")
      case 11 => ("with", "સાથે")
      case 12 => ("by", "દ્વારા")
      case 13 => ("is", "છે")
      case 14 => ("are", "છે")
      case 15 => ("was", "હતું")
      case 16 => ("were", "હતા")
      case 17 => ("have", "છે")
      case 18 => ("has", "છે")
      case 19 => ("had", "હતું")
      case 20 => ("his", "તેનો")
      case 21 => ("her", "તેની")
      case 22 => ("their", "તેમનું")
      case 23 => ("this", "આ")
      case 24 => ("that", "તે")
      case 25 => ("these", "આ")
      case _ => ("those", "તે")
  }

  /** English words that may remain, each replaced wherever it occurs. */
  function EnglishWords(): Table {
    seq(27, i requires 0 <= i < 27 => EnglishEntry(i))
  }

  function CleanupEntry(i: nat): (string, string) {
    match i
      case 0 => ("Triએકl", "પરીક્ષા")
      case 1 => ("Whછેpers", "ફુસફુસાટ")
      case 2 => ("every", "દરેક")
      case 3 => ("sઘસાયેલા", "ઘસાયેલા")
      case 4 => ("જંગલs", "જંગલ")
      case _ => ("એક ખોટું", "એક ખોટું વચન")
  }

  /** Words the earlier replacements broke. */
  function Cleanup(): Table {
    seq(6, i requires 0 <= i < 6 => CleanupEntry(i))
  }

  function StructureEntry(i: nat): (string, string) {
    match i
      case 0 => ("નું આ", "નો")
      case 1 => ("નું તે", "નો")
      case 2 => ("આ શપથ તે હતું", "શપથ લીધો હતો")
      case _ => ("શાંતિ હતું એક ખોટું", "શાંતિ એક ખોટું વચન હતું")
  }

  /** Sentence structure. */
  function Structure(): Table {
    seq(4, i requires 0 <= i < 4 => StructureEntry(i))
  }

  /** The patches: every fixed replacement, in order, as a plain replace-all. */
  function Patches(t: string): string {
    ReplaceEach(t, PatchTable())
  }

  /** The Gujarati translation: both passes over the table, then the patches. */
  function Gujarati(text: string): string {
    Patches(ShortPass(LongPass(text, GujaratiTable()), GujaratiTable()))
  }

  /** translate_answer. */
  function Localize(text: string, lang: string): string {
    if lang == "en" then text
    else if lang == "gu" then Gujarati(text)
    else ReplaceEach(text, TableFor(lang))
  }

  /** An ASCII letter or an apostrophe. */
  predicate Latin(c: char) {
    IsUpper(c) || IsLower(c) || c == '\''
  }

  /** Some translation of the table contains c. */
  predicate InSomeTranslation(table: Table, c: char) {
    exists k :: 0 <= k < |table| && c in table[k].1
  }

  /** English, and every language without a table, is returned unchanged. */
  lemma LocalizeIdentity(text: string, lang: string)
    requires lang != "gu" && lang != "hi"
    ensures Localize(text, lang) == text
  {
  }

  /** Every character of a table-driven translation comes from the text or from a translation. */
  lemma {:induction false} ReplaceEachChars(text: string, table: Table)
    ensures forall c :: c in ReplaceEach(text, table) ==> c in text || InSomeTranslation(table, c)
    decreases |table|
  {
    if |table| > 0 {
      var init := table[..|table| - 1];
      var (english, translated) := table[|table| - 1];
      ReplaceEachChars(text, init);
      ReplaceAllChars(ReplaceEach(text, init), english, translated);
      forall c | c in ReplaceEach(text, table) ensures c in text || InSomeTranslation(table, c) {
        if c in translated {
          assert c in table[|table| - 1].1;
        } else if InSomeTranslation(init, c) {
          var k :| 0 <= k < |init| && c in init[k].1;
          assert table[k] == init[k];
        }
      }
    }
  }
  /** No translation of the table holds an ASCII letter or an apostrophe. */
  predicate NoLatinTranslations(table: Table) {
    forall k, c :: 0 <= k < |table| && Latin(c) ==> c !in table[k].1
  }

  /** Applying a table made of two parts is applying one part after the other. */
  lemma {:induction false} ReplaceEachAppend(text: string, first: Table, second: Table)
    ensures ReplaceEach(text, first + second) == ReplaceEach(ReplaceEach(text, first), second)
    decreases |second|
  {
    if |second| == 0 {
      assert first + second == first;
    } else {
      var whole := first + second;
      assert whole[..|whole| - 1] == first + second[..|second| - 1];
      assert whole[|whole| - 1] == second[|second| - 1];
      ReplaceEachAppend(text, first, second[..|second| - 1]);
    }
  }

  /** A table that inserts no ASCII letter and no apostrophe keeps out those its text lacks. */
  lemma ReplaceEachKeepsOut(text: string, table: Table, c: char)
    requires NoLatinTranslations(table) && Latin(c)
    ensures c in ReplaceEach(text, table) ==> c in text
  {
    ReplaceEachChars(text, table);
  }

  lemma NoLatinSlice(table: Table, i: nat)
    requires NoLatinTranslations(table) && i <= |table|
    ensures NoLatinTranslations(table[i..])
  {
    forall k, c | 0 <= k < |table| - i && Latin(c) ensures c !in table[i..][k].1 {
      assert table[i..][k] == table[k + i];
    }
  }

  lemma NoLatinAppend(first: Table, second: Table)
    requires NoLatinTranslations(first) && NoLatinTranslations(second)
    ensures NoLatinTranslations(first + second)
  {
    var whole := first + second;
    forall k, c | 0 <= k < |whole| && Latin(c) ensures c !in whole[k].1 {
      if k >= |first| {
        assert whole[k] == second[k - |first|];
      }
    }
  }

  lemma PossessivesNoLatin()
    ensures NoLatinTranslations(Possessives())
  {
    var table := Possessives();
    forall k, c | 0 <= k < |table| && Latin(c) ensures c !in table[k].1 {
      assert k == 0 || k == 1;
    }
  }

  lemma ArticleFixesNoLatin()
    ensures NoLatinTranslations(ArticleFixes())
  {
    var table := ArticleFixes();
    forall k, c | 0 <= k < |table| && Latin(c) ensures c !in table[k].1 {
      assert
        k == 0 || k == 1 || k == 2;
    }
  }

  lemma TitleFixesNoLatin()
    ensures NoLatinTranslations(TitleFixes())
  {
    var table := TitleFixes();
    forall k, c | 0 <= k < |table| && Latin(c) ensures c !in table[k].1 {
      assert
        k == 0 || k == 1 || k == 2 || k == 3 || k == 4 || k == 5;
    }
  }

  lemma EnglishWordsNoLatin()
    ensures NoLatinTranslations(EnglishWords())
  {
    var table := EnglishWords();
    forall k, c | 0 <= k < |table| && Latin(c) ensures c !in table[k].1 {
      assert
        k == 0 || k == 1 || k == 2 || k == 3 || k == 4 || k == 5 || k == 6 || k == 7 || k == 8 ||
          k == 9 || k == 10 || k == 11 || k == 12 || k == 13 || k == 14 || k == 15 || k == 16 ||
          k == 17 || k == 18 || k == 19 || k == 20 || k == 21 || k == 22 || k == 23 || k == 24 ||
          k == 25 || k == 26;
    }
  }

  lemma CleanupNoLatin()
    ensures NoLatinTranslations(Cleanup())
  {
    var table := Cleanup();
    forall k, c | 0 <= k < |table| && Latin(c) ensures c !in table[k].1 {
      assert
        k == 0 || k == 1 || k == 2 || k == 3 || k == 4 || k == 5;
    }
  }

  lemma StructureNoLatin()
    ensures NoLatinTranslations(Structure())
  {
    var table := Structure();
    forall k, c | 0 <= k < |table| && Latin(c) ensures c !in table[k].1 {
      assert
        k == 0 || k == 1 || k == 2 || k == 3;
    }
  }

  /** The patches add no ASCII letter and no apostrophe to the text they are given. */
  lemma PatchesAddNoLatin(t: string, c: char)
    requires Latin(c)
    ensures c in Patches(t) ==> c in t
  {
    PossessivesNoLatin();
    LaterPatchesNoLatin();
    PatchTableSplits();
    NoLatinAppend(Possessives(), LaterPatches());
    ReplaceEachKeepsOut(t, PatchTable(), c);
  }

  /** The patches after the first two. */
  function LaterPatches(): Table {
    ArticleFixes() + TitleFixes() + EnglishWords() + Cleanup() + Structure()
  }

  /** The patches before the "a" patch, and the ones after it. */
  function PatchesBeforeA(): Table {
    Possessives() + ArticleFixes() + TitleFixes() + EnglishWords()[..4]
  }

  function PatchesAfterA(): Table {
    EnglishWords()[5..] + Cleanup() + Structure()
  }

  lemma PatchTableSplits()
    ensures PatchTable() == Possessives() + LaterPatches()
    ensures PatchTable() == PatchesBeforeA() + [("a", "એક")] + PatchesAfterA()
  {
    var words := EnglishWords();
    assert words[4] == ("a", "એક");
    assert words == words[..4] + [words[4]] + words[5..];
  }

  lemma LaterPatchesNoLatin()
    ensures NoLatinTranslations(LaterPatches())
    ensures NoLatinTranslations(PatchesAfterA())
  {
    ArticleFixesNoLatin();
    TitleFixesNoLatin();
    EnglishWordsNoLatin();
    CleanupNoLatin();
    StructureNoLatin();
    NoLatinAppend(ArticleFixes(), TitleFixes());
    NoLatinAppend(ArticleFixes() + TitleFixes(), EnglishWords());
    NoLatinAppend(ArticleFixes() + TitleFixes() + EnglishWords(), Cleanup());
    NoLatinAppend(ArticleFixes() + TitleFixes() + EnglishWords() + Cleanup(), Structure());
    NoLatinSlice(EnglishWords(), 5);
    NoLatinAppend(EnglishWords()[5..], Cleanup());
    NoLatinAppend(EnglishWords()[5..] + Cleanup(), Structure());
  }

  /** The first two patches turn "'s" into a Gujarati ending and delete every other apostrophe. */
  lemma PossessivesRemoveApostrophe(t: string)
    ensures '\'' !in ReplaceEach(t, Possessives())
  {
    var quotes := Possessives();
    assert quotes[..1][..0] == [] && quotes[..1][0] == quotes[0];
    var t0 := ReplaceAll(t, "'s", "નું");
    assert ReplaceEach(t, quotes) == ReplaceAll(t0, "'", "");
    assert "'" == ['\''];
    ReplaceAllRemoves(t0, '\'', "");
  }

  /** Once the second patch has deleted every apostrophe, no later patch brings one back. */
  lemma PatchesRemoveApostrophe(t: string)
    ensures '\'' !in Patches(t)
  {
    PatchTableSplits();
    ReplaceEachAppend(t, Possessives(), LaterPatches());
    PossessivesRemoveApostrophe(t);
    LaterPatchesNoLatin();
    ReplaceEachKeepsOut(ReplaceEach(t, Possessives()), LaterPatches(), '\'');
  }

  /** Once the "a" patch has replaced every letter a, no later patch brings one back. */
  lemma PatchesRemoveLetterA(t: string)
    ensures 'a' !in Patches(t)
  {
    var letter: Table := [("a", "એક")];
    PatchTableSplits();
    ReplaceEachAppend(t, PatchesBeforeA() + letter, PatchesAfterA());
    ReplaceEachAppend(t, PatchesBeforeA(), letter);
    var u := ReplaceEach(t, PatchesBeforeA());
    assert letter[..0] == [];
    assert ReplaceEach(u, letter) == ReplaceAll(u, "a", "એક");
    assert "a" == ['a'];
    ReplaceAllRemoves(u, 'a', "એક");
    LaterPatchesNoLatin();
    ReplaceEachKeepsOut(ReplaceEach(u, letter), PatchesAfterA(), 'a');
  }

  /** A Gujarati answer holds no apostrophe and no letter a. */
  lemma GujaratiClean(text: string)
    ensures '\'' !in Localize(text, "gu") && 'a' !in Localize(text, "gu")
  {
    var passed := ShortPass(LongPass(text, GujaratiTable()), GujaratiTable());
    PatchesRemoveApostrophe(passed);
    PatchesRemoveLetterA(passed);
  }

  /** A Hindi answer is made of characters of the text and of the Hindi translations. */
  lemma HindiChars(text: string)
    ensures forall c :: c in Localize(text, "hi") ==> c in text || InSomeTranslation(HindiTable(), c)
  {
    ReplaceEachChars(text, HindiTable());
  }

  /** translate_answer: the two table passes for Gujarati, the plain pass otherwise. */
  method TranslateAnswer(answerText: string, targetLanguage: string) returns (translatedText: string)
    ensures translatedText == Localize(answerText, targetLanguage)
  {
    if targetLanguage == "en" {
      return answerText;
    }
    var langTranslations := TableFor(targetLanguage);
    if targetLanguage == "gu" {
      translatedText := TranslateLongPhrases(answerText, langTranslations);
      translatedText := TranslateShortWords(translatedText, langTranslations);
      translatedText := Patches(translatedText);
    } else {
      translatedText := TranslateAll(answerText, langTranslations);
    }
  }

  /** The Gujarati loop over the entries whose key is longer than 3 characters. */
  method TranslateLongPhrases(text: string, translations: Table) returns (translatedText: string)
    ensures translatedText == LongPass(text, translations)
  {
    translatedText := text;
    var i := 0;
    while i < |translations|
      invariant 0 <= i <= |translations|
      invariant translatedText == LongPass(text, translations[..i])
    {
      var (english, translated) := translations[i];
      if |english| > 3 {
        translatedText := ReplaceAll(translatedText, english, translated);
      }
      assert translations[..i + 1][..i] == translations[..i];
      i := i + 1;
    }
    assert translations[..i] == translations;
  }

  /** The Gujarati loop over the entries whose key has at most 3 characters. */
  method TranslateShortWords(text: string, translations: Table) returns (translatedText: string)
    ensures translatedText == ShortPass(text, translations)
  {
    translatedText := text;
    var i := 0;
    while i < |translations|
      invariant 0 <= i <= |translations|
      invariant translatedText == ShortPass(text, translations[..i])
    {
      var (english, translated) := translations[i];
      if 0 < |english| <= 3 {
        translatedText := ReplaceWord(translatedText, english, translated);
      }
      assert translations[..i + 1][..i] == translations[..i];
      i := i + 1;
    }
    assert translations[..i] == translations;
  }

  /** The loop for every other language: each entry as a plain replace-all. */
  method TranslateAll(text: string, translations: Table) returns (translatedText: string)
    ensures translatedText == ReplaceEach(text, translations)
  {
    translatedText := text;
    var i := 0;
    while i < |translations|
      invariant 0 <= i <= |translations|
      invariant translatedText == ReplaceEach(text, translations[..i])
    {
      var (english, translated) := translations[i];
      translatedText := ReplaceAll(translatedText, english, translated);
      assert translations[..i + 1][..i] == translations[..i];
      i := i + 1;
    }
    assert translations[..i] == translations;
  }
}

=== FILE: Scorer.dfy ===
/**
 * The chunk scorer: additive integer rules over the lowered chunk text, driven
 * by the keywords, primary type and entities of the analysed question.
 */
module Scorer {
  import opened Text
  import opened Analyzer
  import opened Segmenter

  /** The story words used for plot questions. */
  const PlotWords: seq<string> := ["story", "plot", "narrative", "events", "action", "happens"]
  const CharacterWords: seq<string> := ["character", "person", "protagonist", "hero", "villain", "main"]
  const StoryNames: seq<string> := ["haruto", "akebane", "kurogami"]
  const MeasureWords: seq<string> := ["longest", "shortest", "biggest", "smallest", "number", "count", "size"]
  const AmountWords: seq<string> := ["pages", "length", "size", "amount"]
  const CompareWords: seq<string> := ["compare", "difference", "similar", "versus", "better", "worse"]
  const PlaceWords: seq<string> := ["place", "location", "world", "realm", "setting", "where"]
  const IntroWords: seq<string> := ["introduction", "beginning", "start", "overview", "summary"]
  const CentralWords: seq<string> := ["main", "primary", "central", "key"]
  const AboutWords: seq<string> := ["about", "concerning", "regarding"]
  const HappenWords: seq<string> := ["happens", "occurs", "events", "action"]

  /** Points for a condition. */
  function If(b: bool, points: nat): nat {
    if b then points else 0
  }

  /** The number of keywords (counted with repetition) occurring in tl. */
  function KeywordHits(tl: string, keywords: seq<string>): nat
    decreases |keywords|
  {
    if |keywords| == 0 then 0
    else KeywordHits(tl, keywords[..|keywords| - 1]) + If(Contains(tl, keywords[|keywords| - 1]), 1)
  }

  /** The text searched for chapter n: "chapter " followed by n in decimal. */
  function ChapterLabel(n: nat): string {
    "chapter " + NatToString(n)
  }

  /** 50 points for each chapter number of the question named in the chunk. */
  function ChapterHits(tl: string, numbers: seq<nat>): nat
    decreases |numbers|
  {
    if |numbers| == 0 then 0
    else
      var n := numbers[|numbers| - 1];
      ChapterHits(tl, numbers[..|numbers| - 1])
        + If(Contains(tl, ChapterLabel(n)) || Contains(tl, ChapterLabel(n) + ":"), 50)
  }

  /** 30 points for each capitalised name of the question found in the chunk. */
  function NameHits(tl: string, names: seq<string>): nat
    decreases |names|
  {
    if |names| == 0 then 0
    else NameHits(tl, names[..|names| - 1]) + If(Contains(tl, Lower(names[|names| - 1])), 30)
  }

  /** The base points: 1 for summary and general questions; for plot questions 2
      when the chunk has a story word and 1 otherwise. */
  function BasePoints(tl: string, primary: Intent): nat {
    If(primary == Summary || primary == General, 1)
      + (if primary == Plot then (if ContainsAny(tl, PlotWords) then 2 else 1) else 0)
  }

  /** The points specific to the primary type, apart from the chapter and name hits. */
  function TypePoints(tl: string, primary: Intent): nat {
    match primary
    case ChapterSpecific => If(Contains(tl, "chapter"), 10)
    case Character =>
      If(ContainsAny(tl, CharacterWords), 15) + If(ContainsAny(tl, StoryNames), 20) + 1
    case Quantity => If(ContainsAny(tl, MeasureWords), 20) + If(ContainsAny(tl, AmountWords), 15)
    case Comparison => If(ContainsAny(tl, CompareWords), 20)
    case Plot => If(ContainsAny(tl, PlotWords), 15)
    case Setting => If(ContainsAny(tl, PlaceWords), 15)
    case Summary => If(ContainsAny(tl, IntroWords), 20) + If(ContainsAny(tl, CentralWords), 10)
    case _ => 0
  }

  /** The points for the question's own text: 25 when the whole question occurs in
      the chunk, 10 for an "about" question with an about-word, and 10 for a
      "happens" question with a happening-word. */
  function ContextPoints(tl: string, ql: string): nat {
    If(Contains(tl, ql), 25)
      + If(Contains(ql, "about") && ContainsAny(tl, AboutWords), 10)
      + If(Contains(ql, "happens") && ContainsAny(tl, HappenWords), 10)
  }

  /** The score of a lowered chunk text. */
  function ScoreLowered(tl: string, a: Analysis): int {
    KeywordHits(tl, a.keywords)
      + BasePoints(tl, a.primary)
      + (if a.primary == ChapterSpecific then ChapterHits(tl, a.entities.chapterNumbers) else 0)
      + (if a.primary == Character then NameHits(tl, a.entities.characterNames) else 0)
      + TypePoints(tl, a.primary)
      + ContextPoints(tl, a.questionLower)
  }

  /** score_chunk_for_question. */
  function Score(c: Chunk, a: Analysis): int {
    ScoreLowered(Lower(c.text), a)
  }

  /** The score is at least the number of keywords found in the chunk, which is
      never negative and never more than the number of keywords. */
  lemma ScoreBounds(c: Chunk, a: Analysis)
    ensures 0 <= KeywordHits(Lower(c.text), a.keywords) <= Score(c, a)
    ensures KeywordHits(Lower(c.text), a.keywords) <= |a.keywords|
  {
    KeywordHitsBound(Lower(c.text), a.keywords);
  }

  lemma {:induction false} KeywordHitsBound(tl: string, keywords: seq<string>)
    ensures KeywordHits(tl, keywords) <= |keywords|
    ensures KeywordHits(tl, keywords) == |keywords| <==> forall k :: 0 <= k < |keywords| ==> Contains(tl, keywords[k])
    decreases |keywords|
  {
    if |keywords| > 0 {
      var init := keywords[..|keywords| - 1];
      KeywordHitsBound(tl, init);
      assert forall k :: 0 <= k < |init| ==> init[k] == keywords[k];
    }
  }

  /** Summary, general, character and plot questions give every chunk at least
      one point, so every chunk passes the "> 0" filter for them. */
  lemma ScorePositive(c: Chunk, a: Analysis)
    requires a.primary in {Summary, General, Character, Plot}
    ensures Score(c, a) >= 1
  {
  }

  /** Testing for "chapter n:" adds nothing to testing for "chapter n". */
  lemma ChapterColonSubsumed(tl: string, n: nat)
    ensures Contains(tl, ChapterLabel(n) + ":") ==> Contains(tl, ChapterLabel(n))
  {
    var l := ChapterLabel(n);
    if Contains(tl, l + ":") {
      assert (l + ":")[..|l|] == l;
      ContainsAt(l + ":", l, 0);
      ContainsTrans(tl, l + ":", l);
    }
  }

  /** any() over a word list is preserved when the text grows. */
  lemma {:induction false} ContainsAnyMono(small: string, big: string, words: seq<string>)
    requires Contains(big, small)
    ensures ContainsAny(small, words) ==> ContainsAny(big, words)
    decreases |words|
  {
    if |words| > 0 {
      if Contains(small, words[0]) {
        ContainsTrans(big, small, words[0]);
      }
      ContainsAnyMono(small, big, words[1..]);
    }
  }

  lemma {:induction false} KeywordHitsMono(small: string, big: string, keywords: seq<string>)
    requires Contains(big, small)
    ensures KeywordHits(small, keywords) <= KeywordHits(big, keywords)
    decreases |keywords|
  {
    if |keywords| > 0 {
      var k := keywords[|keywords| - 1];
      KeywordHitsMono(small, big, keywords[..|keywords| - 1]);
      if Contains(small, k) {
        ContainsTrans(big, small, k);
      }
    }
  }

  lemma {:induction false} ChapterHitsMono(small: string, big: string, numbers: seq<nat>)
    requires Contains(big, small)
    ensures ChapterHits(small, numbers) <= ChapterHits(big, numbers)
    decreases |numbers|
  {
    if |numbers| > 0 {
      var n := numbers[|numbers| - 1];
      ChapterHitsMono(small, big, numbers[..|numbers| - 1]);
      if Contains(small, ChapterLabel(n)) {
        ContainsTrans(big, small, ChapterLabel(n));
      }
      if Contains(small, ChapterLabel(n) + ":") {
        ContainsTrans(big, small, ChapterLabel(n) + ":");
      }
    }
  }

  lemma {:induction false} NameHitsMono(small: string, big: string, names: seq<string>)
    requires Contains(big, small)
    ensures NameHits(small, names) <= NameHits(big, names)
    decreases |names|
  {
    if |names| > 0 {
      var n := Lower(names[|names| - 1]);
      NameHitsMono(small, big, names[..|names| - 1]);
      if Contains(small, n) {
        ContainsTrans(big, small, n);
      }
    }
  }

  lemma BasePointsMono(small: string, big: string, primary: Intent)
    requires Contains(big, small)
    ensures BasePoints(small, primary) <= BasePoints(big, primary)
  {
    ContainsAnyMono(small, big, PlotWords);
  }

  lemma TypePointsMono(small: string, big: string, primary: Intent)
    requires Contains(big, small)
    ensures TypePoints(small, primary) <= TypePoints(big, primary)
  {
    match primary
    case ChapterSpecific =>
      if Contains(small, "chapter") {
        ContainsTrans(big, small, "chapter");
      }
    case Character =>
      ContainsAnyMono(small, big, CharacterWords);
      ContainsAnyMono(small, big, StoryNames);
    case Quantity =>
      ContainsAnyMono(small, big, MeasureWords);
      ContainsAnyMono(small, big, AmountWords);
    case Comparison => ContainsAnyMono(small, big, CompareWords);
    case Plot => ContainsAnyMono(small, big, PlotWords);
    case Setting => ContainsAnyMono(small, big, PlaceWords);
    case Summary =>
      ContainsAnyMono(small, big, IntroWords);
      ContainsAnyMono(small, big, CentralWords);
    case _ =>
  }

  lemma ContextPointsMono(small: string, big: string, ql: string)
    requires Contains(big, small)
    ensures ContextPoints(small, ql) <= ContextPoints(big, ql)
  {
    ContainsAnyMono(small, big, AboutWords);
    ContainsAnyMono(small, big, HappenWords);
    if Contains(small, ql) {
      ContainsTrans(big, small, ql);
    }
  }

  /** Every rule rewards the presence of a substring, so a lowered text that
      contains another scores at least as much. */
  lemma ScoreMono(small: string, big: string, a: Analysis)
    requires Contains(big, small)
    ensures ScoreLowered(small, a) <= ScoreLowered(big, a)
  {
    KeywordHitsMono(small, big, a.keywords);
    ChapterHitsMono(small, big, a.entities.chapterNumbers);
    NameHitsMono(small, big, a.entities.characterNames);
    BasePointsMono(small, big, a.primary);
    TypePointsMono(small, big, a.primary);
    ContextPointsMono(small, big, a.questionLower);
  }

  /** The chapter label is searched as a substring: a chunk naming chapter 12
      earns the 50 points of a question about chapter 1. */
  lemma ChapterLabelInLonger(tl: string)
    requires Contains(tl, "chapter 12")
    ensures ChapterHits(tl, [1]) == 50
  {
    assert NatToString(1) == "1";
    var one := ChapterLabel(1);
    assert one == "chapter 1";
    assert IsPrefix(one, "chapter 12");
    ContainsTrans(tl, "chapter 12", one);
    assert [1][..0] == [];
  }

  /** The scoring function, rule by rule, with its running score. */
  method ScoreChunk(c: Chunk, a: Analysis) returns (score: int)
    ensures score == Score(c, a)
  {
    var tl := Lower(c.text);
    score := 0;
    var i := 0;
    while i < |a.keywords|
      invariant 0 <= i <= |a.keywords|
      invariant score == KeywordHits(tl, a.keywords[..i])
    {
      assert a.keywords[..i + 1][..i] == a.keywords[..i];
      if Contains(tl, a.keywords[i]) {
        score := score + 1;
      }
      i := i + 1;
    }
    assert a.keywords[..i] == a.keywords;
    if a.primary == Summary || a.primary == General {
      score := score + 1;
    }
    if a.primary == Plot {
      if ContainsAny(tl, PlotWords) {
        score := score + 2;
      } else {
        score := score + 1;
      }
    }
    var typed := 0;
    if a.primary == ChapterSpecific {
      typed := ChapterScore(tl, a.entities.chapterNumbers);
    } else if a.primary == Character {
      typed := NameScore(tl, a.entities.characterNames);
    }
    score := score + typed + TypePoints(tl, a.primary) + ContextPoints(tl, a.questionLower);
  }

  /** The loop over the question's chapter numbers. */
  method ChapterScore(tl: string, numbers: seq<nat>) returns (points: nat)
    ensures points == ChapterHits(tl, numbers)
  {
    points := 0;
    var i := 0;
    while i < |numbers|
      invariant 0 <= i <= |numbers|
      invariant points == ChapterHits(tl, numbers[..i])
    {
      assert numbers[..i + 1][..i] == numbers[..i];
      var name := "chapter " + NatToString(numbers[i]);
      if Contains(tl, name) || Contains(tl, name + ":") {
        points := points + 50;
      }
      i := i + 1;
    }
    assert numbers[..i] == numbers;
  }

  /** The loop over the question's capitalised names. */
  method NameScore(tl: string, names: seq<string>) returns (points: nat)
    ensures points == NameHits(tl, names)
  {
    points := 0;
    var i := 0;
    while i < |names|
      invariant 0 <= i <= |names|
      invariant points == NameHits(tl, names[..i])
    {
      assert names[..i + 1][..i] == names[..i];
      if Contains(tl, Lower(names[i])) {
        points := points + 30;
      }
      i := i + 1;
    }
    assert names[..i] == names;
  }
}

=== FILE: Segmenter.dfy ===
/**
 * The segmenter: page texts of a PDF become an ordered sequence of stored
 * chunks of at most three sentences each, tagged with their index and page.
 */
module Segmenter {
  import opened Wrappers
  import opened Text

  /** A stored PDFChunk: position in the document, text, and 1-based page number. */
  datatype Chunk = Chunk(index: nat, text: string, pageNumber: nat)

  /** The buffered sentences are enough for a chunk: three of them, or 300 characters. */
  predicate Full(buf: seq<string>) {
    |buf| >= 3 || |Join(buf, ". ")| >= 300
  }

  /** The sentence pieces of one page: its text stripped, its white space collapsed,
      then split on ". ". */
  function Pieces(text: string): seq<string> {
    Split(Normalize(Strip(text)), ". ")
  }

  /**
   * The sentence groups emitted for the remaining pieces of a page when the
   * sentences in buf are already buffered: blank pieces are skipped, a group is
   * emitted as soon as it is Full, and what is left at the end of the page is
   * emitted as a last, smaller group.
   */
  function Group(pieces: seq<string>, buf: seq<string>): seq<seq<string>>
    decreases |pieces|
  {
    if |pieces| == 0 then (if |buf| == 0 then [] else [buf])
    else
      var s := Strip(pieces[0]);
      if |s| == 0 then Group(pieces[1..], buf)
      else if Full(buf + [s]) then [buf + [s]] + Group(pieces[1..], [])
      else Group(pieces[1..], buf + [s])
  }

  /** The text stored for a group: its sentences joined by ". ", stripped. */
  function ChunkText(g: seq<string>): string {
    Strip(Join(g, ". "))
  }

  function TextsOf(gs: seq<seq<string>>): (r: seq<string>)
    ensures |r| == |gs|
    decreases |gs|
  {
    if |gs| == 0 then [] else [ChunkText(gs[0])] + TextsOf(gs[1..])
  }

  /** The sentence groups of one page; a page that failed extraction (None) or is
      blank yields none. */
  function PageGroups(page: Option<string>): seq<seq<string>> {
    match page
    case None => []
    case Some(t) => if |Strip(t)| == 0 then [] else Group(Pieces(t), [])
  }

  /** The chunk texts of one page, in emission order. */
  function PageTexts(page: Option<string>): seq<string> {
    TextsOf(PageGroups(page))
  }

  /** Chunks for texts emitted on page number page, indexed from start. */
  function NewChunks(texts: seq<string>, start: nat, page: nat): (r: seq<Chunk>)
    ensures |r| == |texts|
    decreases |texts|
  {
    if |texts| == 0 then [] else [Chunk(start, texts[0], page)] + NewChunks(texts[1..], start + 1, page)
  }

  /** The k-th new chunk carries index start + k, the k-th text and the page number. */
  lemma {:induction false} NewChunksAt(texts: seq<string>, start: nat, page: nat)
    ensures forall k :: 0 <= k < |texts| ==> NewChunks(texts, start, page)[k] == Chunk(start + k, texts[k], page)
    decreases |texts|
  {
    if |texts| > 0 {
      NewChunksAt(texts[1..], start + 1, page);
      var r := NewChunks(texts, start, page);
      forall k | 0 <= k < |texts|
        ensures r[k] == Chunk(start + k, texts[k], page)
      {
        if k > 0 {
          assert r[k] == NewChunks(texts[1..], start + 1, page)[k - 1];
        }
      }
    }
  }

  /** The chunks created for a document whose pages are given in order. */
  function Segment(pages: seq<Option<string>>): seq<Chunk>
    decreases |pages|
  {
    if |pages| == 0 then []
    else
      var prev := Segment(pages[..|pages| - 1]);
      prev + NewChunks(PageTexts(pages[|pages| - 1]), |prev|, |pages|)
  }

  /** The non-blank sentences of a piece list, stripped, in order. */
  function Sentences(pieces: seq<string>): seq<string>
    decreases |pieces|
  {
    if |pieces| == 0 then []
    else if |Strip(pieces[0])| == 0 then Sentences(pieces[1..])
    else [Strip(pieces[0])] + Sentences(pieces[1..])
  }

  function Flatten(gs: seq<seq<string>>): seq<string>
    decreases |gs|
  {
    if |gs| == 0 then [] else gs[0] + Flatten(gs[1..])
  }

  predicate AllStripped(ss: seq<string>) {
    forall j :: 0 <= j < |ss| ==> Stripped(ss[j])
  }

  lemma StrippedStrip(s: string)
    requires |Strip(s)| > 0
    ensures Stripped(Strip(s))
  {
    StripShape(s);
  }

  /** Every group holds one to three non-blank, stripped sentences. */
  lemma {:induction false} GroupSizes(pieces: seq<string>, buf: seq<string>)
    requires |buf| <= 2 && AllStripped(buf)
    ensures forall k :: 0 <= k < |Group(pieces, buf)| ==>
      1 <= |Group(pieces, buf)[k]| <= 3 && AllStripped(Group(pieces, buf)[k])
    decreases |pieces|
  {
    if |pieces| > 0 {
      var s := Strip(pieces[0]);
      var rest := pieces[1..];
      if |s| == 0 {
        GroupSizes(rest, buf);
      } else {
        StrippedStrip(pieces[0]);
        var b := buf + [s];
        if Full(b) {
          GroupSizes(rest, []);
          var g := Group(pieces, buf);
          var tail := Group(rest, []);
          assert g == [b] + tail;
          forall k | 0 <= k < |g|
            ensures 1 <= |g[k]| <= 3 && AllStripped(g[k])
          {
            if k > 0 {
              assert g[k] == tail[k - 1];
            }
          }
        } else {
          GroupSizes(rest, b);
        }
      }
    }
  }

  /** Every group but the last of a page was emitted because it was Full. */
  lemma {:induction false} GroupFull(pieces: seq<string>, buf: seq<string>)
    ensures forall k :: 0 <= k < |Group(pieces, buf)| - 1 ==> Full(Group(pieces, buf)[k])
    decreases |pieces|
  {
    if |pieces| > 0 {
      var s := Strip(pieces[0]);
      var rest := pieces[1..];
      if |s| == 0 {
        GroupFull(rest, buf);
      } else {
        var b := buf + [s];
        if Full(b) {
          GroupFull(rest, []);
          var g := Group(pieces, buf);
          var tail := Group(rest, []);
          assert g == [b] + tail;
          forall k | 0 <= k < |g| - 1
            ensures Full(g[k])
          {
            if k > 0 {
              assert g[k] == tail[k - 1];
            }
          }
        } else {
          GroupFull(rest, b);
        }
      }
    }
  }

  /** The groups, read in order, hold exactly the page's non-blank sentences:
      nothing is lost, repeated or reordered. */
  lemma {:induction false} GroupContent(pieces: seq<string>, buf: seq<string>)
    ensures Flatten(Group(pieces, buf)) == buf + Sentences(pieces)
    decreases |pieces|
  {
    if |pieces| == 0 {
      if |buf| > 0 {
        FlattenCons(buf, []);
      }
    } else {
      var s := Strip(pieces[0]);
      var rest := pieces[1..];
      if |s| == 0 {
        assert Group(pieces, buf) == Group(rest, buf);
        assert Sentences(pieces) == Sentences(rest);
        GroupContent(rest, buf);
      } else if Full(buf + [s]) {
        assert Group(pieces, buf) == [buf + [s]] + Group(rest, []);
        GroupContent(rest, []);
        var none: seq<string> := [];
        assert none + Sentences(rest) == Sentences(rest);
        FlattenCons(buf + [s], Group(rest, []));
        SentencesCons(pieces, buf);
      } else {
        assert Group(pieces, buf) == Group(rest, buf + [s]);
        GroupContent(rest, buf + [s]);
        SentencesCons(pieces, buf);
      }
    }
  }

  lemma SentencesCons(pieces: seq<string>, buf: seq<string>)
    requires |pieces| > 0 && |Strip(pieces[0])| > 0
    ensures (buf + [Strip(pieces[0])]) + Sentences(pieces[1..]) == buf + Sentences(pieces)
  {
    var s := Strip(pieces[0]);
    assert Sentences(pieces) == [s] + Sentences(pieces[1..]);
  }

  lemma FlattenCons(g: seq<string>, gs: seq<seq<string>>)
    ensures Flatten([g] + gs) == g + Flatten(gs)
  {
    assert ([g] + gs)[1..] == gs;
  }

  /** A chunk's text is its sentences joined by ". " and is not blank. */
  lemma ChunkTextOfGroup(g: seq<string>)
    requires |g| > 0 && AllStripped(g)
    ensures Stripped(Join(g, ". ")) && ChunkText(g) == Join(g, ". ")
  {
    JoinStartsWithFirst(g, ". ");
    JoinEndsWithLast(g, ". ");
    StripShape(Join(g, ". "));
  }

  lemma {:induction false} JoinEndsWithLast(parts: seq<string>, sep: string)
    requires |parts| > 0 && |parts[|parts| - 1]| > 0
    ensures |Join(parts, sep)| > 0
    ensures Join(parts, sep)[|Join(parts, sep)| - 1] == parts[|parts| - 1][|parts[|parts| - 1]| - 1]
  {
  }

  /** Chunk indices are exactly 0 .. N-1, in emission order. */
  lemma {:induction false} SegmentIndices(pages: seq<Option<string>>)
    ensures forall k :: 0 <= k < |Segment(pages)| ==> Segment(pages)[k].index == k
    decreases |pages|
  {
    if |pages| > 0 {
      var init := pages[..|pages| - 1];
      SegmentIndices(init);
      NewChunksAt(PageTexts(pages[|pages| - 1]), |Segment(init)|, |pages|);
    }
  }

  /** Page number n names a page, counted from 1 over all pages including skipped
      ones, whose text was extracted and is not blank. */
  predicate ExtractedPage(pages: seq<Option<string>>, n: int) {
    1 <= n <= |pages| && pages[n - 1].Some? && |Strip(pages[n - 1].value)| > 0
  }

  /** Every chunk's page number names an extracted, non-blank page. */
  lemma {:induction false} SegmentPageNumbers(pages: seq<Option<string>>)
    ensures forall k :: 0 <= k < |Segment(pages)| ==> ExtractedPage(pages, Segment(pages)[k].pageNumber)
    decreases |pages|
  {
    if |pages| > 0 {
      var init := pages[..|pages| - 1];
      SegmentPageNumbers(init);
      var prev := Segment(init);
      var last := pages[|pages| - 1];
      var added := NewChunks(PageTexts(last), |prev|, |pages|);
      NewChunksAt(PageTexts(last), |prev|, |pages|);
      assert Segment(pages) == prev + added;
      forall k | 0 <= k < |Segment(pages)|
        ensures ExtractedPage(pages, Segment(pages)[k].pageNumber)
      {
        if k < |prev| {
          var n := prev[k].pageNumber;
          assert ExtractedPage(init, n);
          assert pages[n - 1] == init[n - 1];
        } else {
          assert Segment(pages)[k] == added[k - |prev|];
          assert |PageTexts(last)| > 0;
        }
      }
    }
  }

  /** Page numbers never decrease along the chunk sequence. */
  lemma {:induction false} SegmentPagesOrdered(pages: seq<Option<string>>)
    ensures forall j, k :: 0 <= j <= k < |Segment(pages)| ==>
      Segment(pages)[j].pageNumber <= Segment(pages)[k].pageNumber
    decreases |pages|
  {
    if |pages| > 0 {
      var init := pages[..|pages| - 1];
      SegmentPagesOrdered(init);
      SegmentPageNumbers(init);
      var prev := Segment(init);
      var added := NewChunks(PageTexts(pages[|pages| - 1]), |prev|, |pages|);
      NewChunksAt(PageTexts(pages[|pages| - 1]), |prev|, |pages|);
      var all := Segment(pages);
      assert all == prev + added;
      forall j, k | 0 <= j <= k < |all|
        ensures all[j].pageNumber <= all[k].pageNumber
      {
        if k >= |prev| {
          assert all[k] == added[k - |prev|];
          if j < |prev| {
            assert ExtractedPage(init, prev[j].pageNumber);
          } else {
            assert all[j] == added[j - |prev|];
          }
        }
      }
    }
  }

  /** Every stored chunk text is non-empty and has no surrounding white space. */
  lemma {:induction false} SegmentTexts(pages: seq<Option<string>>)
    ensures forall k :: 0 <= k < |Segment(pages)| ==> Stripped(Segment(pages)[k].text)
    decreases |pages|
  {
    if |pages| > 0 {
      SegmentTexts(pages[..|pages| - 1]);
      var last := pages[|pages| - 1];
      var gs := PageGroups(last);
      if last.Some? && |Strip(last.value)| > 0 {
        GroupSizes(Pieces(last.value), []);
      }
      TextsStripped(gs);
      NewChunksAt(TextsOf(gs), |Segment(pages[..|pages| - 1])|, |pages|);
    }
  }

  lemma {:induction false} TextsStripped(gs: seq<seq<string>>)
    requires forall k :: 0 <= k < |gs| ==> |gs[k]| > 0 && AllStripped(gs[k])
    ensures forall k :: 0 <= k < |gs| ==> Stripped(TextsOf(gs)[k]) && TextsOf(gs)[k] == Join(gs[k], ". ")
    decreases |gs|
  {
    if |gs| > 0 {
      TextsStripped(gs[1..]);
      var ts := TextsOf(gs);
      forall k | 0 <= k < |gs|
        ensures Stripped(ts[k]) && ts[k] == Join(gs[k], ". ")
      {
        if k == 0 {
          ChunkTextOfGroup(gs[0]);
        } else {
          assert ts[k] == TextsOf(gs[1..])[k - 1];
          assert gs[k] == gs[1..][k - 1];
        }
      }
    }
  }

  /** Storing the chunks of page p + 1 after those of the pages before it stores
      the chunks of the first p + 1 pages. */
  lemma SegmentSnoc(stored: seq<Chunk>, pages: seq<Option<string>>, p: nat, at: nat)
    requires p < |pages| && at == |Segment(pages[..p])|
    ensures (stored + Segment(pages[..p])) + NewChunks(PageTexts(pages[p]), at, p + 1)
      == stored + Segment(pages[..p + 1])
  {
    assert pages[..p + 1][..p] == pages[..p];
  }

  /** One step of the sentence loop: the texts emitted for one more piece when
      buf is buffered, and what is buffered afterwards. */
  function Feed(buf: seq<string>, piece: string): (seq<string>, seq<string>) {
    var s := Strip(piece);
    if |s| == 0 then ([], buf)
    else if Full(buf + [s]) then ([ChunkText(buf + [s])], [])
    else ([], buf + [s])
  }

  lemma GroupStep(pieces: seq<string>, buf: seq<string>)
    requires |pieces| > 0
    ensures TextsOf(Group(pieces, buf))
      == Feed(buf, pieces[0]).0 + TextsOf(Group(pieces[1..], Feed(buf, pieces[0]).1))
  {
    var s := Strip(pieces[0]);
    if |s| > 0 && Full(buf + [s]) {
      var tail := Group(pieces[1..], []);
      assert Group(pieces, buf) == [buf + [s]] + tail;
      assert ([buf + [s]] + tail)[1..] == tail;
    }
  }

  /** Buffering one more non-blank piece: the current chunk text grows by ". "
      and the stripped piece (or becomes that piece when nothing was buffered). */
  lemma AppendSentence(buf: seq<string>, piece: string)
    requires AllStripped(buf) && |Strip(piece)| > 0
    ensures var s := Strip(piece);
      AllStripped(buf + [s]) &&
      (Join(buf, ". ") == "" <==> buf == []) &&
      Join(buf + [s], ". ") == (if buf == [] then s else Join(buf, ". ") + ". " + s) &&
      ChunkText(buf + [s]) == Join(buf + [s], ". ") && |ChunkText(buf + [s])| > 0
  {
    var s := Strip(piece);
    StrippedStrip(piece);
    if buf != [] {
      JoinSnoc(buf, s, ". ");
      JoinStartsWithFirst(buf, ". ");
    } else {
      assert buf + [s] == [s];
    }
    assert AllStripped(buf + [s]) by {
      forall j | 0 <= j < |buf + [s]| ensures Stripped((buf + [s])[j]) {
        if j < |buf| { assert (buf + [s])[j] == buf[j]; }
      }
    }
    ChunkTextOfGroup(buf + [s]);
  }

  lemma {:induction false} NewChunksAppend(a: seq<string>, b: seq<string>, start: nat, page: nat)
    ensures NewChunks(a + b, start, page)
      == NewChunks(a, start, page) + NewChunks(b, start + |a|, page)
    decreases |a|
  {
    if |a| > 0 {
      assert (a + b)[1..] == a[1..] + b;
      NewChunksAppend(a[1..], b, start + 1, page);
    } else {
      assert a + b == b;
    }
  }

  /** Storing the chunks of out after those of emitted stores the chunks of
      emitted + out. */
  lemma StoreStep(stored: seq<Chunk>, emitted: seq<string>, out: seq<string>, start: nat, at: nat, page: nat)
    requires at == start + |emitted|
    ensures (stored + NewChunks(emitted, start, page)) + NewChunks(out, at, page)
      == stored + NewChunks(emitted + out, start, page)
  {
    NewChunksAppend(emitted, out, start, page);
  }

  /** What remains to emit, after out is emitted, is the rest. */
  lemma EmitStep(emitted: seq<string>, out: seq<string>, rest: seq<string>)
    ensures emitted + (out + rest) == (emitted + out) + rest
  {
  }

  /** A page of four one-letter sentences, "A. B. C. D." for the letters A to D. */
  function SentencePage(a: char, b: char, c: char, d: char): string {
    [a] + ". " + [b] + ". " + [c] + ". " + [d] + "."
  }

  /** The page is already stripped and single-spaced. */
  lemma SentencePageNormalized(a: char, b: char, c: char, d: char)
    requires IsUpper(a) && IsUpper(b) && IsUpper(c) && IsUpper(d)
    ensures Normalize(Strip(SentencePage(a, b, c, d))) == SentencePage(a, b, c, d)
  {
    var page := SentencePage(a, b, c, d);
    StripShape(page);
    var ws := [[a] + ".", [b] + ".", [c] + ".", [d] + "."];
    assert ws[..1] == [[a] + "."] && ws[..2] == ws[..1] + [[b] + "."] && ws[..3] == ws[..2] + [[c] + "."]
      && ws == ws[..3] + [[d] + "."];
    JoinSnoc(ws[..1], [b] + ".", " ");
    JoinSnoc(ws[..2], [c] + ".", " ");
    JoinSnoc(ws[..3], [d] + ".", " ");
    assert Join(ws, " ") == page;
    NormalizeSingleSpaced(ws);
  }

  /** Splitting at ". " right after a one-character sentence. */
  lemma SplitAfterLetter(c: char, rest: string)
    requires c != '.'
    ensures SplitFrom([c] + ". " + rest, ". ", []) == [[c]] + SplitFrom(rest, ". ", [])
  {
    var s := [c] + ". " + rest;
    assert s[..2] != ". " && s[1..] == ". " + rest;
    assert [] + [c] == [c];
    assert (". " + rest)[..2] == ". " && (". " + rest)[2..] == rest;
  }

  /** The page splits at ". " into its four sentences, the last keeping its period. */
  lemma SentencePageSplit(a: char, b: char, c: char, d: char)
    requires IsUpper(a) && IsUpper(b) && IsUpper(c) && IsUpper(d)
    ensures Split(SentencePage(a, b, c, d), ". ") == [[a], [b], [c], [d] + "."]
  {
    var last := [d] + ".";
    var r3 := [c] + ". " + last;
    var r2 := [b] + ". " + r3;
    var r1 := [a] + ". " + r2;
    assert SentencePage(a, b, c, d) == r1;
    SplitAfterLetter(a, r2);
    SplitAfterLetter(b, r3);
    SplitAfterLetter(c, last);
    assert last[..2] != ". " && last[1..] == "." && [] + [last[0]] == [d];
    assert SplitFrom(".", ". ", [d]) == [[d] + "."];
  }

  /** The first three sentences fill a group; the fourth is left for the page's last one. */
  lemma SentencePageGroups(a: char, b: char, c: char, d: char)
    requires IsUpper(a) && IsUpper(b) && IsUpper(c) && IsUpper(d)
    ensures Group([[a], [b], [c], [d] + "."], []) == [[[a], [b], [c]], [[d] + "."]]
  {
    var ps := [[a], [b], [c], [d] + "."];
    StripShape([a]);
    StripShape([b]);
    StripShape([c]);
    StripShape([d] + ".");
    assert ps[1..] == [[b], [c], [d] + "."] && ps[1..][1..] == [[c], [d] + "."] && ps[1..][1..][1..] == [[d] + "."];
    assert [[a], [b]][..1] == [[a]];
    assert Join([[a]], ". ") == [a];
    assert Join([[a], [b]], ". ") == [a] + ". " + [b];
    assert !Full([[a]]) && !Full([[a], [b]]) && Full([[a], [b], [c]]);
    var none: seq<string> := [];
    assert none + [[a]] == [[a]] && [[a]] + [[b]] == [[a], [b]] && [[a], [b]] + [[c]] == [[a], [b], [c]];
    assert Group(ps, []) == Group(ps[1..], [[a]]);
    assert Group(ps[1..], [[a]]) == Group(ps[1..][1..], [[a], [b]]);
    assert Group(ps[1..][1..], [[a], [b]]) == [[[a], [b], [c]]] + Group([[d] + "."], []);
    assert none + [[d] + "."] == [[d] + "."];
    assert !Full([[d] + "."]);
    assert Group([[d] + "."], []) == Group([], [[d] + "."]);
    assert Group([[d] + "."], []) == [[[d] + "."]];
  }

  /** The groups' texts: the first three sentences rejoined by ". ", then the fourth. */
  lemma SentencePageTexts(a: char, b: char, c: char, d: char)
    requires IsUpper(a) && IsUpper(b) && IsUpper(c) && IsUpper(d)
    ensures TextsOf([[[a], [b], [c]], [[d] + "."]]) == [[a] + ". " + [b] + ". " + [c], [d] + "."]
  {
    var g := [[a], [b], [c]];
    assert g[..2] == [[a], [b]] && g[..2][..1] == [[a]];
    var abc := Join(g, ". ");
    assert Join([[a]], ". ") == [a];
    assert Join(g[..2], ". ") == [a] + ". " + [b];
    assert abc == Join(g[..2], ". ") + ". " + [c];
    assert abc == [a] + ". " + [b] + ". " + [c];
    assert abc[0] == a && abc[|abc| - 1] == c;
    assert Stripped(abc);
    StripShape(abc);
    assert Stripped([d] + ".");
    StripShape([d] + ".");
    assert ChunkText(g) == abc && ChunkText([[d] + "."]) == [d] + ".";
    var gs := [[[a], [b], [c]], [[d] + "."]];
    assert gs[1..] == [[[d] + "."]] && gs[1..][1..] == [];
  }

  /** The page's chunk texts: a chunk of three sentences, then the trailing sentence. */
  lemma SentencePageChunks(a: char, b: char, c: char, d: char)
    requires IsUpper(a) && IsUpper(b) && IsUpper(c) && IsUpper(d)
    ensures PageTexts(Some(SentencePage(a, b, c, d))) == [[a] + ". " + [b] + ". " + [c], [d] + "."]
  {
    var page := SentencePage(a, b, c, d);
    SentencePageNormalized(a, b, c, d);
    SentencePageSplit(a, b, c, d);
    SentencePageGroups(a, b, c, d);
    SentencePageTexts(a, b, c, d);
    StripShape(page);
    assert Pieces(page) == [[a], [b], [c], [d] + "."];
  }

  /** A one-page document whose page gives two texts yields two chunks on page 1. */
  lemma OnePageTwoChunks(page: string, x: string, y: string)
    requires PageTexts(Some(page)) == [x, y]
    ensures Segment([Some(page)]) == [Chunk(0, x, 1), Chunk(1, y, 1)]
  {
    assert [Some(page)][..0] == [];
    assert Segment([Some(page)]) == [] + NewChunks([x, y], 0, 1);
    assert [x, y][1..] == [y] && [y][1..] == [];
    assert NewChunks([y], 1, 1) == [Chunk(1, y, 1)] + NewChunks([], 2, 1);
    assert NewChunks([x, y], 0, 1) == [Chunk(0, x, 1)] + NewChunks([y], 1, 1);
  }

  /** The letters A to D spell the example page and its two chunk texts. */
  lemma ExampleSpelled()
    ensures SentencePage('A', 'B', 'C', 'D') == "A. B. C. D."
  {
  }

  lemma ExampleChunksSpelled()
    ensures ['A'] + ". " + ['B'] + ". " + ['C'] == "A. B. C"
    ensures ['D'] + "." == "D."
  {
  }

  /**
   * The page "A. B. C. D." gives the chunk "A. B. C", emitted once three sentences
   * are buffered, and then the trailing chunk "D.", both on page 1.
   */
  lemma FourSentenceExample()
    ensures Segment([Some("A. B. C. D.")]) == [Chunk(0, "A. B. C", 1), Chunk(1, "D.", 1)]
  {
    ExampleSpelled();
    SentencePageChunks('A', 'B', 'C', 'D');
    ExampleChunksSpelled();
    OnePageTwoChunks("A. B. C. D.", "A. B. C", "D.");
  }

  /** The segmenter's store of chunks for one document. */
  class ChunkStore {
    var chunks: seq<Chunk>

    constructor ()
      ensures chunks == []
    {
      chunks := [];
    }

    /**
     * Segments the given page texts (None for a page whose extraction fails) and
     * appends one chunk per emitted group, numbering them from 0.
     */
    method CreatePdfChunks(pages: seq<Option<string>>)
      modifies this
      ensures chunks == old(chunks) + Segment(pages)
    {
      var chunkCount := 0;
      var p := 0;
      while p < |pages|
        invariant 0 <= p <= |pages|
        invariant chunks == old(chunks) + Segment(pages[..p])
        invariant chunkCount == |Segment(pages[..p])|
      {
        ghost var at := chunkCount;
        chunkCount := CreatePageChunks(pages[p], p + 1, chunkCount);
        SegmentSnoc(old(chunks), pages, p, at);
        p := p + 1;
      }
      assert pages[..p] == pages;
    }

    /**
     * The body of the page loop: a page that failed extraction or is blank is
     * skipped; otherwise its sentences are buffered and a chunk is stored each
     * time the buffer is Full, and once more for what is left at the page's end.
     */
    method CreatePageChunks(page: Option<string>, pageNumber: nat, chunkCount: nat) returns (count: nat)
      modifies this
      ensures chunks == old(chunks) + NewChunks(PageTexts(page), chunkCount, pageNumber)
      ensures count == chunkCount + |PageTexts(page)|
    {
      count := chunkCount;
      if page.None? || |Strip(page.value)| == 0 {
        return;
      }
      var sentences := Split(Normalize(Strip(page.value)), ". ");
      count := ChunkSentences(sentences, pageNumber, count);
    }

    /**
     * The sentence loop of one page: sentences are buffered and a chunk is stored
     * each time the buffer is Full, and once more for what is left at the end.
     */
    method ChunkSentences(sentences: seq<string>, pageNumber: nat, chunkCount: nat) returns (count: nat)
      modifies this
      ensures chunks == old(chunks) + NewChunks(TextsOf(Group(sentences, [])), chunkCount, pageNumber)
      ensures count == chunkCount + |TextsOf(Group(sentences, []))|
    {
      count := chunkCount;
      var currentChunk := "";
      var sentenceCount := 0;
      ghost var buf: seq<string> := [];
      ghost var emitted: seq<string> := [];
      ghost var target := TextsOf(Group(sentences, []));
      assert sentences[0..] == sentences;
      var i := 0;
      while i < |sentences|
        invariant 0 <= i <= |sentences|
        invariant |buf| <= 2 && AllStripped(buf)
        invariant currentChunk == Join(buf, ". ") && sentenceCount == |buf|
        invariant emitted + TextsOf(Group(sentences[i..], buf)) == target
        invariant chunks == old(chunks) + NewChunks(emitted, chunkCount, pageNumber)
        invariant count == chunkCount + |emitted|
      {
        GroupStep(sentences[i..], buf);
        assert sentences[i..][1..] == sentences[i + 1..];
        ghost var out;
        ghost var at := count;
        currentChunk, sentenceCount, count, buf, out :=
          AddSentence(sentences[i], currentChunk, sentenceCount, count, pageNumber, buf);
        StoreStep(old(chunks), emitted, out, chunkCount, at, pageNumber);
        EmitStep(emitted, out, TextsOf(Group(sentences[i + 1..], buf)));
        emitted := emitted + out;
        i := i + 1;
      }
      ghost var out;
      ghost var at := count;
      count, out := Flush(currentChunk, count, pageNumber, buf);
      StoreStep(old(chunks), emitted, out, chunkCount, at, pageNumber);
      emitted := emitted + out;
    }

    /**
     * Stores the current chunk, if it is not blank, as the next chunk of the page.
     */
    method Flush(currentChunk: string, count: nat, pageNumber: nat, ghost buf: seq<string>)
      returns (nextCount: nat, ghost out: seq<string>)
      requires AllStripped(buf) && currentChunk == Join(buf, ". ")
      modifies this
      ensures out == TextsOf(Group([], buf))
      ensures chunks == old(chunks) + NewChunks(out, count, pageNumber)
      ensures nextCount == count + |out|
    {
      nextCount, out := count, [];
      if buf != [] {
        ChunkTextOfGroup(buf);
      }
      var text := Strip(currentChunk);
      if text != "" {
        Create(Chunk(count, text, pageNumber));
        nextCount := count + 1;
        out := [text];
      }
    }

    /**
     * The body of the sentence loop: a blank sentence is skipped; otherwise it is
     * appended to the current chunk, which is stored and cleared once it holds
     * three sentences or 300 characters.
     */
    method AddSentence(piece: string, currentChunk: string, sentenceCount: nat, count: nat,
                       pageNumber: nat, ghost buf: seq<string>)
      returns (nextChunk: string, nextSentenceCount: nat, nextCount: nat,
               ghost nextBuf: seq<string>, ghost out: seq<string>)
      requires |buf| <= 2 && AllStripped(buf)
      requires currentChunk == Join(buf, ". ") && sentenceCount == |buf|
      modifies this
      ensures (out, nextBuf) == Feed(buf, piece)
      ensures |nextBuf| <= 2 && AllStripped(nextBuf)
      ensures nextChunk == Join(nextBuf, ". ") && nextSentenceCount == |nextBuf|
      ensures chunks == old(chunks) + NewChunks(out, count, pageNumber)
      ensures nextCount == count + |out|
    {
      nextChunk, nextSentenceCount, nextCount, nextBuf, out := currentChunk, sentenceCount, count, buf, [];
      var sentence := Strip(piece);
      if sentence == "" {
        return;
      }
      AppendSentence(buf, piece);
      nextChunk := if currentChunk != "" then currentChunk + ". " + sentence else sentence;
      nextSentenceCount := sentenceCount + 1;
      nextBuf := buf + [sentence];
      if nextSentenceCount >= 3 || |nextChunk| >= 300 {
        var text := Strip(nextChunk);
        if text != "" {
          Create(Chunk(count, text, pageNumber));
          nextCount := count + 1;
          out := [text];
        }
        nextChunk := "";
        nextSentenceCount := 0;
        nextBuf := [];
      }
    }

    /** Stores one chunk (the PDFChunk.objects.create call). */
    method Create(c: Chunk)
      modifies this
      ensures chunks == old(chunks) + [c]
    {
      chunks := chunks + [c];
    }
  }
}

=== FILE: Selector.dfy ===
/**
 * Choosing the chunks an answer is composed from.  The scored chunks arrive best
 * first; the primary question type decides how many are kept and, for chapter
 * questions, which ones.
 */
module Selector {
  import opened Wrappers
  import opened Text
  import opened Analyzer
  import opened Segmenter

  /** A chunk with the score it earned for the question. */
  datatype Scored = Scored(chunk: Chunk, score: int)

  /** The chapter number first named in a chunk's lowered text, if any. */
  function ChapterOf(x: Scored): Option<string> {
    FirstChapter(Lower(x.chunk.text))
  }

  /** The slice xs[:n]. */
  function Take<T>(xs: seq<T>, n: nat): seq<T> {
    if |xs| <= n then xs else xs[..n]
  }

  /**
   * The chapter branch over the remaining chunks xs, when `taken` chunks are kept
   * already and the chapter numbers in `seen` have been met: the chunks it goes on
   * to keep, in order.  A chunk naming a new chapter is kept, and the scan stops
   * once two or more are kept; a chunk naming no chapter is kept while fewer than
   * two are.
   */
  function ChapterPick(xs: seq<Scored>, taken: nat, seen: set<string>, chapter: Scored -> Option<string>): seq<Scored>
    decreases |xs|
  {
    if |xs| == 0 then []
    else match chapter(xs[0])
      case Some(n) =>
        var pick := if n in seen then [] else [xs[0]];
        if taken + |pick| >= 2 then pick
        else pick + ChapterPick(xs[1..], taken + |pick|, seen + {n}, chapter)
      case None =>
        var pick := if taken < 2 then [xs[0]] else [];
        pick + ChapterPick(xs[1..], taken + |pick|, seen, chapter)
  }

  /** select_best_chunks: character questions and the remaining types alike keep two. */
  function Select(xs: seq<Scored>, primary: Intent): seq<Scored> {
    if primary == ChapterSpecific then ChapterPick(xs, 0, {}, ChapterOf)
    else if primary == Summary then Take(xs, 3)
    else Take(xs, 2)
  }

  /** r is xs with some elements left out, the rest in their order. */
  predicate IsSubsequence(r: seq<Scored>, xs: seq<Scored>)
    decreases |xs|
  {
    if |r| == 0 then true
    else if |xs| == 0 then false
    else (r[0] == xs[0] && IsSubsequence(r[1..], xs[1..])) || IsSubsequence(r, xs[1..])
  }

  /** Highest score first. */
  predicate Descending(xs: seq<Scored>) {
    forall i, j :: 0 <= i < j < |xs| ==> xs[i].score >= xs[j].score
  }

  /** No chapter number is named by two of the chunks. */
  predicate DistinctChapters(r: seq<Scored>, chapter: Scored -> Option<string>) {
    forall i, j :: 0 <= i < j < |r| && chapter(r[i]).Some? ==> chapter(r[i]) != chapter(r[j])
  }

  /** No kept chunk names a chapter in seen. */
  predicate NoneSeen(r: seq<Scored>, seen: set<string>, chapter: Scored -> Option<string>) {
    forall i :: 0 <= i < |r| && chapter(r[i]).Some? ==> chapter(r[i]).value !in seen
  }

  /** A chunk naming no chapter sits where fewer than two chunks were kept before it. */
  predicate UnnamedEarly(r: seq<Scored>, taken: nat, chapter: Scored -> Option<string>) {
    forall i :: 0 <= i < |r| && chapter(r[i]).None? ==> taken + i < 2
  }

  lemma {:induction false} SubsequenceMembers(r: seq<Scored>, xs: seq<Scored>)
    requires IsSubsequence(r, xs)
    ensures forall x :: x in r ==> x in xs
    decreases |xs|
  {
    if |r| > 0 {
      if r[0] == xs[0] && IsSubsequence(r[1..], xs[1..]) {
        SubsequenceMembers(r[1..], xs[1..]);
        assert forall x :: x in r ==> x == r[0] || x in r[1..];
      } else {
        SubsequenceMembers(r, xs[1..]);
      }
    }
  }

  /** Leaving elements out of a sequence sorted best first keeps it sorted. */
  lemma {:induction false} SubsequenceDescending(r: seq<Scored>, xs: seq<Scored>)
    requires IsSubsequence(r, xs) && Descending(xs)
    ensures Descending(r)
    decreases |xs|
  {
    if |r| > 0 {
      assert Descending(xs[1..]) by {
        forall i, j | 0 <= i < j < |xs| - 1 ensures xs[1..][i].score >= xs[1..][j].score {
          assert xs[1..][i] == xs[i + 1] && xs[1..][j] == xs[j + 1];
        }
      }
      if r[0] == xs[0] && IsSubsequence(r[1..], xs[1..]) {
        SubsequenceDescending(r[1..], xs[1..]);
        SubsequenceMembers(r[1..], xs[1..]);
        forall i, j | 0 <= i < j < |r| ensures r[i].score >= r[j].score {
          assert r[j] == r[1..][j - 1];
          if i > 0 {
            assert r[i] == r[1..][i - 1];
          } else {
            assert r[j] in xs[1..];
          }
        }
      } else {
        SubsequenceDescending(r, xs[1..]);
      }
    }
  }

  lemma {:induction false} TakeIsSubsequence(xs: seq<Scored>, n: nat)
    ensures IsSubsequence(Take(xs, n), xs)
    decreases |xs|
  {
    if |xs| > 0 && n > 0 {
      TakeIsSubsequence(xs[1..], n - 1);
      assert Take(xs, n)[1..] == Take(xs[1..], n - 1);
    }
  }

  /** The chapter branch keeps a subsequence of the chunks, at most three in all. */
  lemma {:induction false} ChapterPickSubsequence(xs: seq<Scored>, taken: nat, seen: set<string>,
                                                  chapter: Scored -> Option<string>)
    requires taken <= 2
    ensures IsSubsequence(ChapterPick(xs, taken, seen, chapter), xs)
    ensures taken + |ChapterPick(xs, taken, seen, chapter)| <= 3
    decreases |xs|
  {
    if |xs| > 0 {
      var r := ChapterPick(xs, taken, seen, chapter);
      match chapter(xs[0])
      case Some(n) =>
        var pick := if n in seen then [] else [xs[0]];
        if taken + |pick| < 2 {
          var rest := ChapterPick(xs[1..], taken + |pick|, seen + {n}, chapter);
          ChapterPickSubsequence(xs[1..], taken + |pick|, seen + {n}, chapter);
          if n !in seen {
            assert r[1..] == rest;
          } else {
            assert r == rest;
          }
        } else if n !in seen {
          assert r[1..] == [];
        }
      case None =>
        var pick := if taken < 2 then [xs[0]] else [];
        var rest := ChapterPick(xs[1..], taken + |pick|, seen, chapter);
        ChapterPickSubsequence(xs[1..], taken + |pick|, seen, chapter);
        if taken < 2 {
          assert r[1..] == rest;
        } else {
          assert r == rest;
        }
    }
  }

  /** The chapter branch keeps no chunk whose chapter is already in `seen`. */
  lemma {:induction false} ChapterPickFresh(xs: seq<Scored>, taken: nat, seen: set<string>,
                                            chapter: Scored -> Option<string>)
    ensures NoneSeen(ChapterPick(xs, taken, seen, chapter), seen, chapter)
    decreases |xs|
  {
    if |xs| > 0 {
      var r := ChapterPick(xs, taken, seen, chapter);
      match chapter(xs[0])
      case Some(n) =>
        var pick := if n in seen then [] else [xs[0]];
        if taken + |pick| < 2 {
          var rest := ChapterPick(xs[1..], taken + |pick|, seen + {n}, chapter);
          ChapterPickFresh(xs[1..], taken + |pick|, seen + {n}, chapter);
          assert r == pick + rest;
          assert forall i :: |pick| <= i < |r| ==> r[i] == rest[i - |pick|];
        }
      case None =>
        var pick := if taken < 2 then [xs[0]] else [];
        var rest := ChapterPick(xs[1..], taken + |pick|, seen, chapter);
        ChapterPickFresh(xs[1..], taken + |pick|, seen, chapter);
        assert r == pick + rest;
        assert forall i :: |pick| <= i < |r| ==> r[i] == rest[i - |pick|];
    }
  }

  /** No two chunks kept by the chapter branch name the same chapter. */
  lemma {:induction false} ChapterPickDistinct(xs: seq<Scored>, taken: nat, seen: set<string>,
                                               chapter: Scored -> Option<string>)
    ensures DistinctChapters(ChapterPick(xs, taken, seen, chapter), chapter)
    decreases |xs|
  {
    if |xs| > 0 {
      var r := ChapterPick(xs, taken, seen, chapter);
      match chapter(xs[0])
      case Some(n) =>
        var pick := if n in seen then [] else [xs[0]];
        if taken + |pick| < 2 {
          var rest := ChapterPick(xs[1..], taken + |pick|, seen + {n}, chapter);
          ChapterPickDistinct(xs[1..], taken + |pick|, seen + {n}, chapter);
          ChapterPickFresh(xs[1..], taken + |pick|, seen + {n}, chapter);
          assert r == pick + rest;
          forall i, j | 0 <= i < j < |r| && chapter(r[i]).Some?
            ensures chapter(r[i]) != chapter(r[j])
          {
            assert r[j] == rest[j - |pick|];
            if i >= |pick| {
              assert r[i] == rest[i - |pick|];
            } else {
              assert r[i] == xs[0];
            }
          }
        }
      case None =>
        var pick := if taken < 2 then [xs[0]] else [];
        var rest := ChapterPick(xs[1..], taken + |pick|, seen, chapter);
        ChapterPickDistinct(xs[1..], taken + |pick|, seen, chapter);
        assert r == pick + rest;
        forall i, j | 0 <= i < j < |r| && chapter(r[i]).Some?
          ensures chapter(r[i]) != chapter(r[j])
        {
          assert r[i] == rest[i - |pick|] && r[j] == rest[j - |pick|];
        }
    }
  }

  /** A chunk naming no chapter is kept only while fewer than two chunks are kept. */
  lemma {:induction false} ChapterPickUnnamed(xs: seq<Scored>, taken: nat, seen: set<string>,
                                              chapter: Scored -> Option<string>)
    ensures UnnamedEarly(ChapterPick(xs, taken, seen, chapter), taken, chapter)
    decreases |xs|
  {
    if |xs| > 0 {
      var r := ChapterPick(xs, taken, seen, chapter);
      match chapter(xs[0])
      case Some(n) =>
        var pick := if n in seen then [] else [xs[0]];
        if taken + |pick| < 2 {
          var rest := ChapterPick(xs[1..], taken + |pick|, seen + {n}, chapter);
          ChapterPickUnnamed(xs[1..], taken + |pick|, seen + {n}, chapter);
          assert r == pick + rest;
          assert forall i :: |pick| <= i < |r| ==> r[i] == rest[i - |pick|];
        }
      case None =>
        var pick := if taken < 2 then [xs[0]] else [];
        var rest := ChapterPick(xs[1..], taken + |pick|, seen, chapter);
        ChapterPickUnnamed(xs[1..], taken + |pick|, seen, chapter);
        assert r == pick + rest;
        assert forall i :: 0 <= i < |pick| ==> r[i] == xs[0];
        assert forall i :: |pick| <= i < |r| ==> r[i] == rest[i - |pick|];
    }
  }

  /** Among chunks naming no chapter, the chapter branch keeps the first ones. */
  lemma {:induction false} ChapterPickNoChapters(xs: seq<Scored>, taken: nat, seen: set<string>,
                                                 chapter: Scored -> Option<string>)
    requires taken <= 2
    requires forall i :: 0 <= i < |xs| ==> chapter(xs[i]).None?
    ensures ChapterPick(xs, taken, seen, chapter) == Take(xs, 2 - taken)
    decreases |xs|
  {
    if |xs| > 0 {
      assert chapter(xs[0]).None?;
      var pick := if taken < 2 then [xs[0]] else [];
      ChapterPickNoChapters(xs[1..], taken + |pick|, seen, chapter);
      if taken < 2 {
        assert Take(xs, 2 - taken) == [xs[0]] + Take(xs[1..], 1 - taken);
      }
    }
  }

  /**
   * Whatever the question type, the selection keeps the chunks' order, keeps at
   * most three of them, and keeps the best chunk when there is one.
   */
  lemma SelectShape(xs: seq<Scored>, primary: Intent)
    ensures var r := Select(xs, primary);
      IsSubsequence(r, xs) && |r| <= 3
      && (|xs| > 0 ==> |r| > 0 && r[0] == xs[0])
  {
    if primary == ChapterSpecific {
      ChapterPickSubsequence(xs, 0, {}, ChapterOf);
      if |xs| > 0 {
        ChapterPickHead(xs, ChapterOf);
      }
    } else {
      TakeIsSubsequence(xs, if primary == Summary then 3 else 2);
    }
  }

  lemma ChapterPickHead(xs: seq<Scored>, chapter: Scored -> Option<string>)
    requires |xs| > 0
    ensures var r := ChapterPick(xs, 0, {}, chapter);
      |r| > 0 && r[0] == xs[0]
  {
  }

  /** Summary questions keep the top three chunks, other non-chapter questions the top two. */
  lemma SelectCounts(xs: seq<Scored>, primary: Intent)
    ensures primary == Summary ==> Select(xs, primary) == xs[..if |xs| < 3 then |xs| else 3]
    ensures primary != Summary && primary != ChapterSpecific
      ==> Select(xs, primary) == xs[..if |xs| < 2 then |xs| else 2]
  {
  }

  /** Chapter questions keep chunks of different chapters, and a chunk naming no
      chapter only among the first two kept; with no chapter named, the top two. */
  lemma SelectChapters(xs: seq<Scored>)
    ensures var r := Select(xs, ChapterSpecific);
      DistinctChapters(r, ChapterOf)
      && (forall i :: 0 <= i < |r| && ChapterOf(r[i]).None? ==> i < 2)
      && ((forall i :: 0 <= i < |xs| ==> ChapterOf(xs[i]).None?) ==> r == Take(xs, 2))
  {
    ChapterPickDistinct(xs, 0, {}, ChapterOf);
    ChapterPickUnnamed(xs, 0, {}, ChapterOf);
    if forall i :: 0 <= i < |xs| ==> ChapterOf(xs[i]).None? {
      ChapterPickNoChapters(xs, 0, {}, ChapterOf);
    }
  }

  /** Selecting from chunks sorted best first gives chunks sorted best first. */
  lemma SelectDescending(xs: seq<Scored>, primary: Intent)
    requires Descending(xs)
    ensures Descending(Select(xs, primary))
  {
    SelectShape(xs, primary);
    SubsequenceDescending(Select(xs, primary), xs);
  }

  /** select_best_chunks. */
  method SelectBestChunks(chunkScores: seq<Scored>, primary: Intent) returns (best: seq<Scored>)
    ensures best == Select(chunkScores, primary)
  {
    if primary == ChapterSpecific {
      best := ChapterScan(chunkScores);
    } else {
      var n := if primary == Summary then 3 else 2;
      best := [];
      var i := 0;
      while i < |chunkScores| && i < n
        invariant 0 <= i <= |chunkScores| && i <= n
        invariant best == chunkScores[..i]
      {
        best := best + [chunkScores[i]];
        i := i + 1;
      }
    }
  }

  /** One step of the chapter scan over a chunk naming chapter n. */
  lemma ScanNamed(xs: seq<Scored>, best: seq<Scored>, seen: set<string>, chapter: Scored -> Option<string>,
                  n: string, target: seq<Scored>)
    requires |xs| > 0 && chapter(xs[0]) == Some(n)
    requires best + ChapterPick(xs, |best|, seen, chapter) == target
    ensures var next := if n in seen then best else best + [xs[0]];
      (|next| >= 2 ==> next == target)
      && (|next| < 2 ==> next + ChapterPick(xs[1..], |next|, seen + {n}, chapter) == target)
  {
    if n !in seen && |best| + 1 < 2 {
      assert best + ([xs[0]] + ChapterPick(xs[1..], |best| + 1, seen + {n}, chapter))
        == (best + [xs[0]]) + ChapterPick(xs[1..], |best| + 1, seen + {n}, chapter);
    }
  }

  /** One step of the chapter scan over a chunk naming no chapter. */
  lemma ScanUnnamed(xs: seq<Scored>, best: seq<Scored>, seen: set<string>, chapter: Scored -> Option<string>,
                    target: seq<Scored>)
    requires |xs| > 0 && chapter(xs[0]).None?
    requires best + ChapterPick(xs, |best|, seen, chapter) == target
    ensures var next := if |best| < 2 then best + [xs[0]] else best;
      next + ChapterPick(xs[1..], |next|, seen, chapter) == target
  {
    if |best| < 2 {
      var later := ChapterPick(xs[1..], |best| + 1, seen, chapter);
      assert ChapterPick(xs, |best|, seen, chapter) == [xs[0]] + later;
      assert best + ([xs[0]] + later) == (best + [xs[0]]) + later;
    } else {
      var later := ChapterPick(xs[1..], |best|, seen, chapter);
      var none: seq<Scored> := [];
      assert ChapterPick(xs, |best|, seen, chapter) == none + later;
      assert none + later == later;
    }
  }

  /** The chapter branch of select_best_chunks, with its early exit. */
  method ChapterScan(chunkScores: seq<Scored>) returns (best: seq<Scored>)
    ensures best == ChapterPick(chunkScores, 0, {}, ChapterOf)
  {
    ghost var target := ChapterPick(chunkScores, 0, {}, ChapterOf);
    best := [];
    var seen: set<string> := {};
    var i := 0;
    assert chunkScores[i..] == chunkScores;
    assert best + ChapterPick(chunkScores[i..], |best|, seen, ChapterOf) == target;
    while i < |chunkScores|
      invariant 0 <= i <= |chunkScores|
      invariant |best| <= 2
      invariant best + ChapterPick(chunkScores[i..], |best|, seen, ChapterOf) == target
    {
      var x := chunkScores[i];
      assert chunkScores[i..][0] == x && chunkScores[i..][1..] == chunkScores[i + 1..];
      var chapterMatch := ChapterOf(x);
      if chapterMatch.Some? {
        var n := chapterMatch.value;
        ScanNamed(chunkScores[i..], best, seen, ChapterOf, n, target);
        if n !in seen {
          best := best + [x];
          seen := seen + {n};
        } else {
          assert seen + {n} == seen;
        }
        if |best| >= 2 {
          break;
        }
      } else {
        ScanUnnamed(chunkScores[i..], best, seen, ChapterOf, target);
        if |best| < 2 {
          best := best + [x];
        }
      }
      i := i + 1;
    }
  }
}

=== FILE: Summarizer.dfy ===
/**
 * The text summary made when a document is uploaded: the text of every page is
 * gathered, and the summary is its first five sentences, or, for a text of
 * fewer than three sentences, its first 300 characters.
 */
module Summarizer {
  import opened Wrappers
  import opened Text

  /**
   * What the summary sees of an uploaded file: whether it exists, its size in
   * bytes, and the text of each page, None when extracting it failed.
   */
  datatype PdfFile = PdfFile(present: bool, size: nat, pages: seq<Option<string>>)

  const FileNotFound: string := "Error reading PDF: File not found"
  const FileEmpty: string := "Error reading PDF: File is empty"
  const NoPages: string := "Error reading PDF: No pages found"
  const NoText: string := "Error reading PDF: No text content found"
  const NoSummary: string := "Summary could not be generated."

  /** A page's contribution to the text: its text and a space, or nothing when it has none. */
  function PageText(page: Option<string>): string {
    match page
    case Some(t) => if |t| > 0 then t + " " else ""
    case None => ""
  }

  /** The text of all pages, in order. */
  function PagesText(pages: seq<Option<string>>): string
    decreases |pages|
  {
    if |pages| == 0 then "" else PagesText(pages[..|pages| - 1]) + PageText(pages[|pages| - 1])
  }

  /** A page that contributes no visible text. */
  predicate Blank(page: Option<string>) {
    page.None? || AllSpace(page.value)
  }

  /** [s.strip() for s in parts if s.strip()]. */
  function Pieces(parts: seq<string>): seq<string>
    decreases |parts|
  {
    if |parts| == 0 then []
    else
      var s := Strip(parts[0]);
      if s == [] then Pieces(parts[1..]) else [s] + Pieces(parts[1..])
  }

  /** The sentences of a text: its non-blank pieces between periods, stripped. */
  function SentencesOf(text: string): seq<string> {
    Pieces(Split(text, "."))
  }

  /** sentences[:5]. */
  function FirstFive(sentences: seq<string>): seq<string> {
    if |sentences| < 5 then sentences else sentences[..5]
  }

  /** The summary of a text with visible content. */
  function Abridge(text: string): string {
    var sentences := SentencesOf(text);
    if |sentences| < 3 then (if |text| > 300 then text[..300] + "..." else text)
    else Join(FirstFive(sentences), ". ") + "."
  }

  /** generate_pdf_summary. */
  function Summarize(pdf: PdfFile): string {
    if !pdf.present then FileNotFound
    else if pdf.size == 0 then FileEmpty
    else if |pdf.pages| == 0 then NoPages
    else
      var text := PagesText(pdf.pages);
      if Strip(text) == [] then NoText
      else
        var summary := Abridge(text);
        if summary != [] then summary else NoSummary
  }

  lemma AllSpaceAppend(a: string, b: string)
    ensures AllSpace(a + b) <==> AllSpace(a) && AllSpace(b)
  {
    if AllSpace(a + b) {
      forall i | 0 <= i < |a| ensures IsSpace(a[i]) {
        assert a[i] == (a + b)[i];
      }
      forall i | 0 <= i < |b| ensures IsSpace(b[i]) {
        assert b[i] == (a + b)[|a| + i];
      }
    } else if AllSpace(a) && AllSpace(b) {
      forall i | 0 <= i < |a + b| ensures IsSpace((a + b)[i]) {
        if i >= |a| {
          assert (a + b)[i] == b[i - |a|];
        }
      }
    }
  }

  /** The gathered text is blank exactly when every page is. */
  lemma {:induction false} BlankPages(pages: seq<Option<string>>)
    ensures AllSpace(PagesText(pages)) <==> forall i :: 0 <= i < |pages| ==> Blank(pages[i])
    decreases |pages|
  {
    if |pages| > 0 {
      var init := pages[..|pages| - 1];
      var last := pages[|pages| - 1];
      BlankPages(init);
      AllSpaceAppend(PagesText(init), PageText(last));
      if last.Some? && |last.value| > 0 {
        AllSpaceAppend(last.value, " ");
      }
      assert forall i :: 0 <= i < |init| ==> init[i] == pages[i];
    }
  }

  /** A text with visible content ends with the space that follows its last page. */
  lemma {:induction false} PagesTextEnds(pages: seq<Option<string>>)
    ensures PagesText(pages) == [] || PagesText(pages)[|PagesText(pages)| - 1] == ' '
    decreases |pages|
  {
    if |pages| > 0 {
      PagesTextEnds(pages[..|pages| - 1]);
    }
  }

  /** A piece of a split on one character never holds that character. */
  lemma {:induction false} SplitFromLacks(s: string, c: char, cur: string)
    requires c !in cur
    ensures forall p :: p in SplitFrom(s, [c], cur) ==> c !in p
    decreases |s|
  {
    if |s| >= 1 {
      if s[..1] == [c] {
        SplitFromLacks(s[1..], c, []);
      } else {
        assert s[0] != c;
        SplitFromLacks(s[1..], c, cur + [s[0]]);
      }
    }
  }

  /** Splitting on a character the text lacks gives the text as one piece. */
  lemma {:induction false} SplitFromWhole(a: string, c: char, cur: string)
    requires c !in a
    ensures SplitFrom(a, [c], cur) == [cur + a]
    decreases |a|
  {
    if |a| >= 1 {
      assert a[0] != c && a[..1] != [c];
      SplitFromWhole(a[1..], c, cur + [a[0]]);
      assert cur + [a[0]] + a[1..] == cur + a;
    }
  }

  /** Splitting at the first occurrence of the character. */
  lemma {:induction false} SplitFromThrough(a: string, b: string, c: char, cur: string)
    requires c !in a
    ensures SplitFrom(a + [c] + b, [c], cur) == [cur + a] + SplitFrom(b, [c], [])
    decreases |a|
  {
    var s := a + [c] + b;
    if |a| == 0 {
      assert s == [c] + b && s[..1] == [c] && s[1..] == b;
      assert cur + a == cur;
    } else {
      assert s[0] == a[0] != c;
      assert s[1..] == a[1..] + [c] + b;
      SplitFromThrough(a[1..], b, c, cur + [a[0]]);
      assert cur + [a[0]] + a[1..] == cur + a;
    }
  }

  /** Stripping keeps a run of the text, so it adds no character. */
  lemma StripWithin(s: string, c: char)
    requires c !in s
    ensures c !in Strip(s)
  {
    var l := TrimLeft(s);
    TrimLeftShape(s);
    TrimRightShape(l);
  }

  /** A single leading space is stripped away from a stripped text. */
  lemma StripLead(lead: string, x: string)
    requires lead == "" || lead == " "
    requires Stripped(x)
    ensures Strip(lead + x) == x
  {
    StripShape(x);
    if lead == " " {
      assert (lead + x)[1..] == x;
      assert TrimLeft(lead + x) == TrimLeft(x);
    } else {
      assert lead + x == x;
    }
  }

  /** Every sentence is non-empty, stripped, and free of periods. */
  lemma {:induction false} PiecesShape(parts: seq<string>, c: char)
    requires forall p :: p in parts ==> c !in p
    ensures forall i :: 0 <= i < |Pieces(parts)| ==> Stripped(Pieces(parts)[i]) && c !in Pieces(parts)[i]
    decreases |parts|
  {
    if |parts| > 0 {
      assert parts[0] in parts;
      assert forall p :: p in parts[1..] ==> p in parts;
      PiecesShape(parts[1..], c);
      StripShape(parts[0]);
      StripWithin(parts[0], c);
    }
  }

  lemma SentencesShape(text: string)
    ensures forall i :: 0 <= i < |SentencesOf(text)| ==>
      Stripped(SentencesOf(text)[i]) && '.' !in SentencesOf(text)[i]
  {
    assert "." == ['.'];
    SplitFromLacks(text, '.', []);
    PiecesShape(Split(text, "."), '.');
  }

  /** The last sentence, closed by its period, splits into itself and an empty piece. */
  lemma LastSentence(x: string, lead: string)
    requires lead == "" || lead == " "
    requires Stripped(x) && '.' !in x
    ensures SentencesOf(lead + x + ".") == [x]
  {
    var first := lead + x;
    StripLead(lead, x);
    assert "." == ['.'];
    var none: string := [];
    assert first + "." == first + ['.'] + none;
    SplitFromThrough(first, none, '.', none);
    assert none + none == none && none + first == first;
    assert Split(first + ".", ".") == [first] + SplitFrom(none, ['.'], none);
    assert SplitFrom(none, ['.'], none) == [none + none];
    assert ([first] + [none])[1..] == [none];
    StripShape(none);
    assert ([none])[1..] == [];
    assert Pieces([none]) == [];
    assert Pieces([first] + [none]) == [x];
    assert lead + x + "." == first + ".";
  }

  /** A sentence followed by ". " splits off as the first sentence. */
  lemma NextSentence(x: string, lead: string, tail: string)
    requires lead == "" || lead == " "
    requires Stripped(x) && '.' !in x
    ensures SentencesOf(lead + x + ". " + tail) == [x] + SentencesOf(" " + tail)
  {
    var first := lead + x;
    StripLead(lead, x);
    assert "." == ['.'];
    assert lead + x + ". " + tail == first + ['.'] + (" " + tail);
    var none: string := [];
    SplitFromThrough(first, " " + tail, '.', none);
    assert none + first == first;
    var later := Split(" " + tail, ".");
    assert Split(lead + x + ". " + tail, ".") == [first] + later;
    assert ([first] + later)[1..] == later;
    assert Pieces([first] + later) == [x] + Pieces(later);
  }

  /**
   * Sentences joined by ". " and closed by a period split back into the same
   * sentences; lead is the space left in front of every sentence but the first.
   */
  lemma {:induction false} JoinedSentences(xs: seq<string>, lead: string)
    requires |xs| > 0
    requires lead == "" || lead == " "
    requires forall i :: 0 <= i < |xs| ==> Stripped(xs[i]) && '.' !in xs[i]
    ensures SentencesOf(lead + Join(xs, ". ") + ".") == xs
    decreases |xs|
  {
    if |xs| == 1 {
      LastSentence(xs[0], lead);
    } else {
      var rest := xs[1..];
      JoinCons(xs[0], rest, ". ");
      assert [xs[0]] + rest == xs;
      var tail := Join(rest, ". ") + ".";
      assert lead + Join(xs, ". ") + "." == lead + xs[0] + ". " + tail;
      NextSentence(xs[0], lead, tail);
      JoinedSentences(rest, " ");
      assert " " + tail == " " + Join(rest, ". ") + ".";
    }
  }

  /**
   * For a text of at least three sentences the summary ends with a period, its
   * sentences are the first five sentences of the text, and summarising the
   * summary gives it back.
   */
  lemma AbridgeSentences(text: string)
    requires |SentencesOf(text)| >= 3
    ensures EndsWith(Abridge(text), ".")
    ensures SentencesOf(Abridge(text)) == FirstFive(SentencesOf(text))
    ensures Abridge(Abridge(text)) == Abridge(text)
  {
    var kept := FirstFive(SentencesOf(text));
    SentencesShape(text);
    JoinedSentences(kept, "");
    assert "" + Join(kept, ". ") + "." == Abridge(text);
    assert FirstFive(kept) == kept;
  }

  /**
   * For a text of fewer than three sentences the summary is the text itself when
   * it has at most 300 characters, and otherwise its first 300 characters and
   * "...".
   */
  lemma AbridgeShort(text: string)
    requires |SentencesOf(text)| < 3
    ensures |Abridge(text)| <= 303
    ensures |text| <= 300 ==> Abridge(text) == text
    ensures |text| > 300 ==> IsPrefix(text[..300], Abridge(text)) && EndsWith(Abridge(text), "...")
  {
  }

  /** A summary ends with a space or a period. */
  lemma SummaryEnding(pages: seq<Option<string>>)
    requires Strip(PagesText(pages)) != []
    ensures var r := Abridge(PagesText(pages));
      |r| > 0 && (r[|r| - 1] == ' ' || r[|r| - 1] == '.')
  {
    var text := PagesText(pages);
    PagesTextEnds(pages);
    if |SentencesOf(text)| >= 3 {
      AbridgeSentences(text);
    }
  }

  /**
   * Each error message is given exactly in its own case, and a document with
   * visible text gets its summary, never the fallback message.
   */
  lemma SummarizeCases(pdf: PdfFile)
    ensures Summarize(pdf) == FileNotFound <==> !pdf.present
    ensures Summarize(pdf) == FileEmpty <==> pdf.present && pdf.size == 0
    ensures Summarize(pdf) == NoPages <==> pdf.present && pdf.size > 0 && |pdf.pages| == 0
    ensures Summarize(pdf) == NoText
      <==> pdf.present && pdf.size > 0 && |pdf.pages| > 0
           && forall i :: 0 <= i < |pdf.pages| ==> Blank(pdf.pages[i])
    ensures pdf.present && pdf.size > 0 && (exists i :: 0 <= i < |pdf.pages| && !Blank(pdf.pages[i]))
      ==> Summarize(pdf) == Abridge(PagesText(pdf.pages))
  {
    var text := PagesText(pdf.pages);
    BlankPages(pdf.pages);
    StripShape(text);
    if pdf.present && pdf.size > 0 && |pdf.pages| > 0 && Strip(text) != [] {
      SummaryEnding(pdf.pages);
      var r := Abridge(text);
      assert FileNotFound[|FileNotFound| - 1] == 'd';
      assert FileEmpty[|FileEmpty| - 1] == 'y';
      assert NoPages[|NoPages| - 1] == 'd';
      assert NoText[|NoText| - 1] == 'd';
    }
  }

  /** generate_pdf_summary: the page loop, then the summary of the text. */
  method GeneratePdfSummary(pdf: PdfFile) returns (summary: string)
    ensures summary == Summarize(pdf)
  {
    if !pdf.present {
      return FileNotFound;
    }
    if pdf.size == 0 {
      return FileEmpty;
    }
    if |pdf.pages| == 0 {
      return NoPages;
    }
    var text := ExtractText(pdf.pages);
    if Strip(text) == [] {
      return NoText;
    }
    var sentences := SentencesOf(text);
    if |sentences| < 3 {
      summary := if |text| > 300 then text[..300] + "..." else text;
    } else {
      summary := Join(FirstFive(sentences), ". ") + ".";
    }
    if summary == [] {
      summary := NoSummary;
    }
  }

  /** The page loop: each page's text that could be extracted, followed by a space. */
  method ExtractText(pages: seq<Option<string>>) returns (text: string)
    ensures text == PagesText(pages)
  {
    text := "";
    var i := 0;
    while i < |pages|
      invariant 0 <= i <= |pages|
      invariant text == PagesText(pages[..i])
    {
      var pageText := pages[i];
      if pageText.Some? && |pageText.value| > 0 {
        text := text + pageText.value + " ";
      }
      assert pages[..i + 1][..i] == pages[..i];
      i := i + 1;
    }
    assert pages[..i] == pages;
  }
}

=== FILE: Text.dfy ===
/** Option and Result, for page extraction that may fail and for the upload validator. */
module Wrappers {
  datatype Option<T> = None | Some(value: T)

  datatype Result<T, E> = Ok(value: T) | Err(error: E)
}

/**
 * The Python string built-ins the pipeline relies on -- str.lower, str.strip,
 * str.split, str.join, str.replace, `in` on strings, int() and str() on
 * numbers -- and the few regular expressions it uses, written out over ASCII.
 */
module Text {
  import opened Wrappers

  /** str.isspace() restricted to ASCII: space, \t \n \v \f \r and \x1c..\x1f. */
  predicate IsSpace(c: char) {
    c == ' ' || 9 <= c as int <= 13 || 28 <= c as int <= 31
  }

  predicate IsDigit(c: char) { '0' <= c <= '9' }

  predicate IsUpper(c: char) { 'A' <= c <= 'Z' }

  predicate IsLower(c: char) { 'a' <= c <= 'z' }

  /** The regular-expression class \w, over ASCII. */
  predicate IsWordChar(c: char) { IsUpper(c) || IsLower(c) || IsDigit(c) || c == '_' }

  predicate IsNonWordChar(c: char) { !IsWordChar(c) }

  predicate AllSpace(s: string) { forall i :: 0 <= i < |s| ==> IsSpace(s[i]) }

  predicate AllDigits(s: string) { forall i :: 0 <= i < |s| ==> IsDigit(s[i]) }

  /** A string that str.strip() leaves unchanged and that is not empty. */
  predicate Stripped(s: string) { |s| > 0 && !IsSpace(s[0]) && !IsSpace(s[|s| - 1]) }

  function LowerChar(c: char): char {
    if IsUpper(c) then (c as int + 32) as char else c
  }

  /** str.lower(). */
  function Lower(s: string): (r: string)
    ensures |r| == |s|
    ensures forall i :: 0 <= i < |s| ==> r[i] == LowerChar(s[i])
  {
    seq(|s|, i requires 0 <= i < |s| => LowerChar(s[i]))
  }

  function TrimLeft(s: string): string
    decreases |s|
  {
    if |s| > 0 && IsSpace(s[0]) then TrimLeft(s[1..]) else s
  }

  function TrimRight(s: string): string
    decreases |s|
  {
    if |s| > 0 && IsSpace(s[|s| - 1]) then TrimRight(s[..|s| - 1]) else s
  }

  /** str.strip(). */
  function Strip(s: string): string {
    TrimRight(TrimLeft(s))
  }

  /** str.lstrip() drops exactly the leading white space. */
  lemma {:induction false} TrimLeftShape(s: string)
    ensures var r := TrimLeft(s);
      |r| <= |s| && r == s[|s| - |r|..] && AllSpace(s[..|s| - |r|]) && (r == [] || !IsSpace(r[0]))
    decreases |s|
  {
    if |s| > 0 && IsSpace(s[0]) {
      TrimLeftShape(s[1..]);
      var r := TrimLeft(s);
      assert s[..|s| - |r|] == [s[0]] + s[1..][..|s| - 1 - |r|];
    }
  }

  /** str.rstrip() drops exactly the trailing white space. */
  lemma {:induction false} TrimRightShape(s: string)
    ensures var r := TrimRight(s);
      |r| <= |s| && r == s[..|r|] && AllSpace(s[|r|..]) && (r == [] || !IsSpace(r[|r| - 1]))
    decreases |s|
  {
    if |s| > 0 && IsSpace(s[|s| - 1]) {
      TrimRightShape(s[..|s| - 1]);
      var r := TrimRight(s);
      assert s[|r|..] == s[..|s| - 1][|r|..] + [s[|s| - 1]];
    }
  }

  /** str.strip() gives the empty string exactly on blank input, and otherwise a
      string with no surrounding space; a stripped string is its own strip. */
  lemma StripShape(s: string)
    ensures Strip(s) == [] <==> AllSpace(s)
    ensures Strip(s) != [] ==> Stripped(Strip(s))
    ensures Stripped(s) ==> Strip(s) == s
  {
    var t := TrimLeft(s);
    TrimLeftShape(s);
    TrimRightShape(t);
    if Strip(s) == [] {
      assert AllSpace(t);
      assert s == s[..|s| - |t|] + t;
    }
  }

  /** The tokens of s between separator characters, continuing a token cur. */
  function TokensFrom(s: string, isSep: char -> bool, cur: string): seq<string>
    decreases |s|
  {
    if |s| == 0 then (if |cur| == 0 then [] else [cur])
    else if isSep(s[0]) then (if |cur| == 0 then [] else [cur]) + TokensFrom(s[1..], isSep, [])
    else TokensFrom(s[1..], isSep, cur + [s[0]])
  }

  /** str.split() with no argument: the maximal runs of non-space characters. */
  function Words(s: string): seq<string> {
    TokensFrom(s, IsSpace, [])
  }

  /** The maximal runs of \w characters, between which \b holds. */
  function WordRuns(s: string): seq<string> {
    TokensFrom(s, IsNonWordChar, [])
  }

  /** sep.join(parts). */
  function Join(parts: seq<string>, sep: string): string
    decreases |parts|
  {
    if |parts| == 0 then []
    else if |parts| == 1 then parts[0]
    else Join(parts[..|parts| - 1], sep) + sep + parts[|parts| - 1]
  }

  lemma JoinSnoc(parts: seq<string>, x: string, sep: string)
    requires |parts| > 0
    ensures Join(parts + [x], sep) == Join(parts, sep) + sep + x
  {
    assert (parts + [x])[..|parts|] == parts;
  }

  /** The first part opens the joined string. */
  lemma {:induction false} JoinStartsWithFirst(parts: seq<string>, sep: string)
    requires |parts| > 0
    ensures |parts[0]| <= |Join(parts, sep)|
    ensures Join(parts, sep)[..|parts[0]|] == parts[0]
    decreases |parts|
  {
    if |parts| > 1 {
      var init := parts[..|parts| - 1];
      JoinStartsWithFirst(init, sep);
      assert init[0] == parts[0];
      var j := Join(init, sep);
      assert Join(parts, sep) == j + sep + parts[|parts| - 1];
      assert (j + sep + parts[|parts| - 1])[..|parts[0]|] == j[..|parts[0]|];
    }
  }

  /** ' '.join(s.split()): runs of white space collapsed to one space, ends trimmed. */
  function Normalize(s: string): string {
    Join(Words(s), " ")
  }

  /** A word as str.split() sees it: a non-empty run without white space. */
  predicate IsWord(w: string) {
    |w| > 0 && forall i :: 0 <= i < |w| ==> !IsSpace(w[i])
  }

  /** Characters other than separators extend the current token. */
  lemma {:induction false} TokensRun(a: string, rest: string, isSep: char -> bool, cur: string)
    requires forall i :: 0 <= i < |a| ==> !isSep(a[i])
    ensures TokensFrom(a + rest, isSep, cur) == TokensFrom(rest, isSep, cur + a)
    decreases |a|
  {
    if |a| == 0 {
      assert a + rest == rest && cur + a == cur;
    } else {
      assert (a + rest)[0] == a[0] && (a + rest)[1..] == a[1..] + rest;
      TokensRun(a[1..], rest, isSep, cur + [a[0]]);
      assert cur + [a[0]] + a[1..] == cur + a;
    }
  }

  /** A token followed by a separator is emitted whole. */
  lemma TokenThenSep(a: string, c: char, rest: string, isSep: char -> bool)
    requires |a| > 0 && forall i :: 0 <= i < |a| ==> !isSep(a[i])
    requires isSep(c)
    ensures TokensFrom(a + ([c] + rest), isSep, []) == [a] + TokensFrom(rest, isSep, [])
  {
    TokensRun(a, [c] + rest, isSep, []);
    assert ([c] + rest)[1..] == rest;
    assert [] + a == a;
  }

  /** A token at the end of the text is emitted whole. */
  lemma TokenAtEnd(a: string, isSep: char -> bool)
    requires |a| > 0 && forall i :: 0 <= i < |a| ==> !isSep(a[i])
    ensures TokensFrom(a, isSep, []) == [a]
  {
    TokensRun(a, [], isSep, []);
    assert a + [] == a && [] + a == a;
  }

  /** Splitting words joined by single spaces gives the words back, the first
      one continuing the current token. */
  lemma {:induction false} TokensOfJoin(ws: seq<string>, cur: string)
    requires |ws| > 0 && forall k :: 0 <= k < |ws| ==> IsWord(ws[k])
    ensures TokensFrom(Join(ws, " "), IsSpace, cur) == [cur + ws[0]] + ws[1..]
    decreases |ws|
  {
    if |ws| == 1 {
      TokensRun(ws[0], [], IsSpace, cur);
      assert ws[0] + [] == ws[0];
      assert ws[1..] == [];
    } else {
      var rest := ws[1..];
      JoinCons(ws[0], rest, " ");
      assert [ws[0]] + rest == ws;
      var tail := Join(rest, " ");
      assert ws[0] + " " + tail == ws[0] + (" " + tail);
      TokensRun(ws[0], " " + tail, IsSpace, cur);
      assert (" " + tail)[0] == ' ' && (" " + tail)[1..] == tail;
      TokensOfJoin(rest, []);
      assert [] + rest[0] == rest[0];
      assert [rest[0]] + rest[1..] == rest;
    }
  }

  /** Collapsing white space leaves text whose words are single-spaced unchanged. */
  lemma NormalizeSingleSpaced(ws: seq<string>)
    requires forall k :: 0 <= k < |ws| ==> IsWord(ws[k])
    ensures Words(Join(ws, " ")) == ws
    ensures Normalize(Join(ws, " ")) == Join(ws, " ")
  {
    if |ws| > 0 {
      TokensOfJoin(ws, []);
      assert [] + ws[0] == ws[0];
      assert [ws[0]] + ws[1..] == ws;
    }
  }

  predicate IsPrefix(p: string, s: string) {
    |p| <= |s| && s[..|p|] == p
  }

  /** s.endswith(suffix). */
  predicate EndsWith(s: string, suffix: string) {
    |suffix| <= |s| && s[|s| - |suffix|..] == suffix
  }

  /** Python's `p in s` on strings: p occurs in s as a substring. */
  predicate Contains(s: string, p: string)
    decreases |s|
  {
    IsPrefix(p, s) || (|s| > 0 && Contains(s[1..], p))
  }

  /** p occurs in s at position i. */
  predicate OccursAt(s: string, p: string, i: int) {
    0 <= i <= |s| - |p| && s[i..i + |p|] == p
  }

  /** `p in s` holds exactly when p occurs at some position of s. */
  lemma {:induction false} ContainsIff(s: string, p: string)
    ensures Contains(s, p) <==> exists i :: OccursAt(s, p, i)
    decreases |s|
  {
    if IsPrefix(p, s) {
      assert OccursAt(s, p, 0);
    } else if |s| > 0 {
      ContainsIff(s[1..], p);
      if Contains(s[1..], p) {
        var i :| OccursAt(s[1..], p, i);
        assert s[1..][i..i + |p|] == s[i + 1..i + 1 + |p|];
        assert OccursAt(s, p, i + 1);
      }
      if exists i :: OccursAt(s, p, i) {
        var i :| OccursAt(s, p, i);
        assert i != 0;
        assert s[1..][i - 1..i - 1 + |p|] == s[i..i + |p|];
        assert OccursAt(s[1..], p, i - 1);
      }
    }
  }

  lemma ContainsAt(s: string, p: string, i: int)
    requires OccursAt(s, p, i)
    ensures Contains(s, p)
  {
    ContainsIff(s, p);
  }

  /** Containment is transitive: whatever occurs in a substring of t occurs in t. */
  lemma ContainsTrans(t: string, u: string, p: string)
    requires Contains(t, u) && Contains(u, p)
    ensures Contains(t, p)
  {
    ContainsIff(t, u);
    ContainsIff(u, p);
    var i :| OccursAt(t, u, i);
    var j :| OccursAt(u, p, j);
    forall k | 0 <= k < |p| ensures t[i + j + k] == p[k] {
      assert t[i + j + k] == t[i..i + |u|][j + k];
    }
    assert t[i + j..i + j + |p|] == p;
    ContainsAt(t, p, i + j);
  }

  /** any(w in s for w in words). */
  predicate ContainsAny(s: string, words: seq<string>)
    decreases |words|
  {
    |words| > 0 && (Contains(s, words[0]) || ContainsAny(s, words[1..]))
  }

  /** any(...) holds exactly when one of the words occurs in s. */
  lemma {:induction false} ContainsAnyIff(s: string, words: seq<string>)
    ensures ContainsAny(s, words) <==> exists k :: 0 <= k < |words| && Contains(s, words[k])
    decreases |words|
  {
    if |words| > 0 {
      ContainsAnyIff(s, words[1..]);
      if exists k :: 0 <= k < |words| && Contains(s, words[k]) {
        var k :| 0 <= k < |words| && Contains(s, words[k]);
        if k > 0 {
          assert words[1..][k - 1] == words[k];
        }
      }
    }
  }

  /** A list comprehension [x for x in xs if p(x)]. */
  function Filter<T(!new)>(xs: seq<T>, p: T -> bool): (r: seq<T>)
    ensures |r| <= |xs|
    ensures forall x :: x in r <==> x in xs && p(x)
    decreases |xs|
  {
    if |xs| == 0 then []
    else if p(xs[0]) then [xs[0]] + Filter(xs[1..], p)
    else Filter(xs[1..], p)
  }

  /** A comprehension that falls back on a second condition when the first keeps
      nothing keeps the elements satisfying the first condition if there are any,
      and otherwise those satisfying the second. */
  lemma FilterFallback<T(!new)>(xs: seq<T>, p: T -> bool, q: T -> bool)
    ensures var r := if |Filter(xs, p)| == 0 then Filter(xs, q) else Filter(xs, p);
      ((exists x :: x in xs && p(x)) ==> forall x :: x in r <==> x in xs && p(x)) &&
      ((forall x :: x in xs ==> !p(x)) ==> forall x :: x in r <==> x in xs && q(x))
  {
    if exists x :: x in xs && p(x) {
      var x :| x in xs && p(x);
      assert x in Filter(xs, p);
    } else if |Filter(xs, p)| > 0 {
      assert Filter(xs, p)[0] in Filter(xs, p);
    }
  }

  /** str.split(sep) for a non-empty sep, continuing a piece cur. */
  function SplitFrom(s: string, sep: string, cur: string): (r: seq<string>)
    requires |sep| > 0
    ensures |r| > 0
    decreases |s|
  {
    if |s| < |sep| then [cur + s]
    else if s[..|sep|] == sep then [cur] + SplitFrom(s[|sep|..], sep, [])
    else SplitFrom(s[1..], sep, cur + [s[0]])
  }

  /** str.split(sep): the pieces between leftmost non-overlapping occurrences of sep. */
  function Split(s: string, sep: string): (r: seq<string>)
    requires |sep| > 0
    ensures |r| > 0
  {
    SplitFrom(s, sep, [])
  }

  /** Joining a part in front of a non-empty list puts one separator after it. */
  lemma {:induction false} JoinCons(x: string, parts: seq<string>, sep: string)
    requires |parts| > 0
    ensures Join([x] + parts, sep) == x + sep + Join(parts, sep)
    decreases |parts|
  {
    if |parts| > 1 {
      var init := parts[..|parts| - 1];
      var last := parts[|parts| - 1];
      JoinCons(x, init, sep);
      assert ([x] + parts)[..|parts|] == [x] + init;
      assert Join([x] + parts, sep) == Join([x] + init, sep) + sep + last;
      assert Join(parts, sep) == Join(init, sep) + sep + last;
    } else {
      assert [x] + parts == [x, parts[0]];
      assert [x, parts[0]][..1] == [x];
    }
  }

  /** Joining the pieces of a split with the same separator gives back the text. */
  lemma {:induction false} SplitFromJoin(s: string, sep: string, cur: string)
    requires |sep| > 0
    ensures Join(SplitFrom(s, sep, cur), sep) == cur + s
    decreases |s|
  {
    if |s| < |sep| {
    } else if s[..|sep|] == sep {
      var rest := SplitFrom(s[|sep|..], sep, []);
      assert SplitFrom(s, sep, cur) == [cur] + rest;
      SplitFromJoin(s[|sep|..], sep, []);
      JoinCons(cur, rest, sep);
      assert s == sep + s[|sep|..];
    } else {
      assert SplitFrom(s, sep, cur) == SplitFrom(s[1..], sep, cur + [s[0]]);
      SplitFromJoin(s[1..], sep, cur + [s[0]]);
      assert cur + [s[0]] + s[1..] == cur + s;
    }
  }

  /** sep.join(s.split(sep)) == s. */
  lemma SplitJoin(s: string, sep: string)
    requires |sep| > 0
    ensures Join(Split(s, sep), sep) == s
  {
    SplitFromJoin(s, sep, []);
  }

  /** str.replace(pat, rep): every leftmost non-overlapping occurrence of pat is
      replaced; an empty pat inserts rep before every character and at the end. */
  function ReplaceAll(s: string, pat: string, rep: string): string
    decreases |s|
  {
    if |pat| == 0 then (if |s| == 0 then rep else rep + [s[0]] + ReplaceAll(s[1..], pat, rep))
    else if |s| < |pat| then s
    else if s[..|pat|] == pat then rep + ReplaceAll(s[|pat|..], pat, rep)
    else [s[0]] + ReplaceAll(s[1..], pat, rep)
  }

  /** Every character of a replacement result comes from the input or from rep. */
  lemma {:induction false} ReplaceAllChars(s: string, pat: string, rep: string)
    ensures forall c :: c in ReplaceAll(s, pat, rep) ==> c in s || c in rep
    decreases |s|
  {
    if |pat| == 0 {
      if |s| > 0 {
        ReplaceAllChars(s[1..], pat, rep);
      }
    } else if |s| < |pat| {
    } else if s[..|pat|] == pat {
      ReplaceAllChars(s[|pat|..], pat, rep);
    } else {
      ReplaceAllChars(s[1..], pat, rep);
    }
  }

  /** Replacing a one-character pattern by text without that character removes it. */
  lemma {:induction false} ReplaceAllRemoves(s: string, c: char, rep: string)
    requires c !in rep
    ensures c !in ReplaceAll(s, [c], rep)
    decreases |s|
  {
    if |s| >= 1 {
      ReplaceAllRemoves(s[1..], c, rep);
      if s[..1] == [c] {
        assert ReplaceAll(s, [c], rep) == rep + ReplaceAll(s[1..], [c], rep);
      } else {
        assert s[0] != c;
        assert ReplaceAll(s, [c], rep) == [s[0]] + ReplaceAll(s[1..], [c], rep);
      }
    }
  }

  /**
   * re.sub(r'\b' + re.escape(key) + r'\b', rep, text, flags=re.IGNORECASE) on the
   * remainder s of text, where prevWord says whether the character of text just
   * before s is a \w character.  Word boundaries are judged on the original text.
   */
  function ReplaceWordFrom(s: string, key: string, rep: string, prevWord: bool): string
    requires |key| > 0
    decreases |s|
  {
    if |s| == 0 then []
    else if |key| <= |s| && Lower(s[..|key|]) == Lower(key)
         && prevWord != IsWordChar(s[0])
         && (if |key| == |s| then IsWordChar(s[|s| - 1])
             else IsWordChar(s[|key| - 1]) != IsWordChar(s[|key|]))
    then rep + ReplaceWordFrom(s[|key|..], key, rep, IsWordChar(s[|key| - 1]))
    else [s[0]] + ReplaceWordFrom(s[1..], key, rep, IsWordChar(s[0]))
  }

  function ReplaceWord(s: string, key: string, rep: string): string
    requires |key| > 0
  {
    ReplaceWordFrom(s, key, rep, false)
  }

  function DigitValue(c: char): nat
    requires IsDigit(c)
  {
    c as int - '0' as int
  }

  /** int(s) for a string of ASCII digits. */
  function DigitsValue(s: string): nat
    requires AllDigits(s)
    decreases |s|
  {
    if |s| == 0 then 0 else DigitsValue(s[..|s| - 1]) * 10 + DigitValue(s[|s| - 1])
  }

  /** str(n) for a natural number: decimal, without leading zeros. */
  function NatToString(n: nat): (r: string)
    ensures |r| > 0 && AllDigits(r)
    decreases n
  {
    (if n < 10 then [] else NatToString(n / 10)) + [('0' as int + n % 10) as char]
  }

  /** int(str(n)) == n. */
  lemma {:induction false} NatToStringRoundTrip(n: nat)
    ensures DigitsValue(NatToString(n)) == n
    decreases n
  {
    var r := NatToString(n);
    assert r[..|r| - 1] == if n < 10 then [] else NatToString(n / 10);
    if n >= 10 {
      NatToStringRoundTrip(n / 10);
    }
  }

  /** Length of the longest prefix of s made of characters satisfying p. */
  function SpanOf(s: string, p: char -> bool): (n: nat)
    ensures n <= |s|
    ensures forall i :: 0 <= i < n ==> p(s[i])
    ensures n < |s| ==> !p(s[n])
    decreases |s|
  {
    if |s| > 0 && p(s[0]) then 1 + SpanOf(s[1..], p) else 0
  }

  /** A match of chapter\s+(\d+) at the start of s: its digit group and its length. */
  function ChapterAt(s: string): (m: Option<(string, nat)>)
    ensures m.Some? ==> 0 < m.value.1 <= |s| && |m.value.0| > 0 && AllDigits(m.value.0)
  {
    if !IsPrefix("chapter", s) then None
    else
      var ws := SpanOf(s[7..], IsSpace);
      var d := SpanOf(s[7 + ws..], IsDigit);
      if ws == 0 || d == 0 then None
      else Some((s[7 + ws..7 + ws + d], 7 + ws + d))
  }

  /** re.findall(r'chapter\s+(\d+)', s): the digit groups of all matches, left to right. */
  function ChapterMatches(s: string): (r: seq<string>)
    ensures forall k :: 0 <= k < |r| ==> |r[k]| > 0 && AllDigits(r[k])
    decreases |s|
  {
    if |s| == 0 then []
    else match ChapterAt(s)
      case Some(m) => [m.0] + ChapterMatches(s[m.1..])
      case None => ChapterMatches(s[1..])
  }

  /** Positions where "chapter" does not start contribute no match. */
  lemma {:induction false} ChapterMatchesSkip(s: string, n: nat)
    requires n <= |s|
    requires forall k :: 0 <= k < n ==> !IsPrefix("chapter", s[k..])
    ensures ChapterMatches(s) == ChapterMatches(s[n..])
    decreases n
  {
    if n > 0 {
      assert !IsPrefix("chapter", s[0..]);
      assert s[0..] == s;
      forall k | 0 <= k < n - 1 ensures !IsPrefix("chapter", s[1..][k..]) {
        assert s[1..][k..] == s[k + 1..];
      }
      ChapterMatchesSkip(s[1..], n - 1);
      assert s[1..][n - 1..] == s[n..];
    }
  }

  /** re.search(r'chapter\s+(\d+)', s).group(1), when there is a match. */
  function FirstChapter(s: string): Option<string> {
    var ms := ChapterMatches(s);
    if |ms| == 0 then None else Some(ms[0])
  }

  /** s opens with "chapter", the white space w, the digits d and then no further
      digit, n characters in all: a match of chapter\s+(\d+) with group d. */
  predicate ChapterParts(s: string, w: string, d: string, n: nat) {
    |w| > 0 && AllSpace(w) && |d| > 0 && AllDigits(d)
    && IsPrefix("chapter", s) && n == 7 + |w| + |d| && n <= |s|
    && s[7..7 + |w|] == w && s[7 + |w|..n] == d && (n == |s| || !IsDigit(s[n]))
  }

  /** The span of p is k when the first k characters satisfy p and the next does not. */
  lemma SpanExact(s: string, p: char -> bool, k: nat)
    requires k <= |s| && forall i :: 0 <= i < k ==> p(s[i])
    requires k == |s| || !p(s[k])
    ensures SpanOf(s, p) == k
  {
  }

  /** A match found by ChapterAt is made of "chapter", white space and digits. */
  lemma ChapterAtParts(s: string)
    requires ChapterAt(s).Some?
    ensures ChapterParts(s, s[7..7 + SpanOf(s[7..], IsSpace)], ChapterAt(s).value.0, ChapterAt(s).value.1)
  {
    var t := s[7..];
    var ws := SpanOf(t, IsSpace);
    var u := s[7 + ws..];
    var dn := SpanOf(u, IsDigit);
    var n := 7 + ws + dn;
    assert IsPrefix("chapter", s) && ws > 0 && dn > 0;
    assert ChapterAt(s) == Some((s[7 + ws..n], n));
    var w := s[7..7 + ws];
    forall i | 0 <= i < |w| ensures IsSpace(w[i]) {
      assert w[i] == t[i];
    }
    var d := s[7 + ws..n];
    forall i | 0 <= i < |d| ensures IsDigit(d[i]) {
      assert d[i] == u[i];
    }
    if n < |s| {
      assert s[n] == u[dn];
    }
  }

  /** Every match of chapter\s+(\d+) at the start of s is the one ChapterAt finds. */
  lemma PartsChapterAt(s: string, w: string, d: string, n: nat)
    requires ChapterParts(s, w, d, n)
    ensures ChapterAt(s) == Some((d, n))
  {
    var k := |w|;
    var t := s[7..];
    forall i | 0 <= i < k ensures IsSpace(t[i]) {
      assert t[i] == s[7..7 + k][i] == w[i];
    }
    assert t[k] == s[7 + k..n][0] == d[0];
    SpanExact(t, IsSpace, k);
    var u := s[7 + k..];
    forall i | 0 <= i < |d| ensures IsDigit(u[i]) {
      assert u[i] == s[7 + k..n][i] == d[i];
    }
    if n < |s| {
      assert u[|d|] == s[n];
    }
    SpanExact(u, IsDigit, |d|);
  }

  /** ChapterAt finds exactly the match of chapter\s+(\d+) at the start of s:
      the white space runs up to the digits, and the digits as far as they go. */
  lemma ChapterAtIff(s: string, d: string, n: nat)
    ensures ChapterAt(s) == Some((d, n)) <==> exists w :: ChapterParts(s, w, d, n)
  {
    if ChapterAt(s) == Some((d, n)) {
      ChapterAtParts(s);
    }
    if exists w :: ChapterParts(s, w, d, n) {
      var w :| ChapterParts(s, w, d, n);
      PartsChapterAt(s, w, d, n);
    }
  }

  /** A match of chapter\s+(\d+) with group d starts at position i of s. */
  predicate ChapterAtPos(s: string, i: int, d: string) {
    0 <= i < |s| && ChapterAt(s[i..]).Some? && ChapterAt(s[i..]).value.0 == d
  }

  /** Only the first character of a match is a 'c': the rest of "chapter", the
      white space and the digits hold none. */
  lemma NoLetterCInside(s: string, w: string, d: string, n: nat, i: nat)
    requires ChapterParts(s, w, d, n) && 0 < i < n
    ensures s[i] != 'c'
  {
    if i < 7 {
      OneLetterC();
      assert s[i] == s[..7][i];
    } else if i < 7 + |w| {
      assert s[i] == s[7..7 + |w|][i - 7];
      assert IsSpace(w[i - 7]);
    } else {
      assert s[i] == s[7 + |w|..n][i - 7 - |w|];
      assert IsDigit(d[i - 7 - |w|]);
    }
  }

  /** A match starts with the letter c. */
  lemma ChapterAtStartsWithC(t: string)
    requires ChapterAt(t).Some?
    ensures |t| > 0 && t[0] == 'c'
  {
    assert t[..7][0] == 'c';
  }

  /** No match starts inside another, so matches never overlap. */
  lemma NoChapterInside(s: string, i: nat)
    requires ChapterAt(s).Some? && 0 < i < ChapterAt(s).value.1
    ensures ChapterAt(s[i..]).None?
  {
    ChapterAtParts(s);
    var w := s[7..7 + SpanOf(s[7..], IsSpace)];
    NoLetterCInside(s, w, ChapterAt(s).value.0, ChapterAt(s).value.1, i);
    if ChapterAt(s[i..]).Some? {
      ChapterAtStartsWithC(s[i..]);
    }
  }

  /** "chapter" holds the letter c only at its start. */
  lemma OneLetterC()
    ensures forall i :: 0 < i < 7 ==> "chapter"[i] != 'c'
  {
  }

  /** findall's groups are exactly the groups of the matches found scanning left
      to right, since matches never overlap. */
  lemma {:induction false} ChapterMatchesIff(s: string, d: string)
    ensures d in ChapterMatches(s) <==> exists i :: ChapterAtPos(s, i, d)
    decreases |s|
  {
    if |s| > 0 {
      match ChapterAt(s)
      case Some(m) =>
        var rest := s[m.1..];
        ChapterMatchesIff(rest, d);
        assert ChapterMatches(s) == [m.0] + ChapterMatches(rest);
        assert s[0..] == s;
        if d == m.0 {
          assert ChapterAtPos(s, 0, d);
        }
        forall i | ChapterAtPos(rest, i, d) ensures ChapterAtPos(s, i + m.1, d) {
          assert rest[i..] == s[i + m.1..];
        }
        if exists i :: ChapterAtPos(s, i, d) {
          var i :| ChapterAtPos(s, i, d);
          assert s[0..] == s;
          if i == 0 {
            assert d == m.0;
            assert d in ChapterMatches(s);
          } else if i < m.1 {
            NoChapterInside(s, i);
          } else if i >= m.1 {
            assert rest[i - m.1..] == s[i..];
            assert ChapterAtPos(rest, i - m.1, d);
          }
        }
      case None =>
        var rest := s[1..];
        ChapterMatchesIff(rest, d);
        forall i | ChapterAtPos(rest, i, d) ensures ChapterAtPos(s, i + 1, d) {
          assert rest[i..] == s[i + 1..];
        }
        if exists i :: ChapterAtPos(s, i, d) {
          var i :| ChapterAtPos(s, i, d);
          assert s[0..] == s;
          assert rest[i - 1..] == s[i..];
          assert ChapterAtPos(rest, i - 1, d);
        }
    }
  }

  /** re.search finds the leftmost match: FirstChapter is the group of the match
      at the least position where one starts, and None when no position has one. */
  lemma {:induction false} FirstChapterLeftmost(s: string, i: nat)
    requires i <= |s|
    requires forall j :: 0 <= j < i ==> ChapterAt(s[j..]).None?
    ensures i < |s| && ChapterAt(s[i..]).Some? ==> FirstChapter(s) == Some(ChapterAt(s[i..]).value.0)
    ensures i == |s| ==> FirstChapter(s) == None
    decreases i
  {
    if i == 0 {
      assert s[0..] == s;
      if |s| > 0 && ChapterAt(s).Some? {
        assert ChapterMatches(s)[0] == ChapterAt(s).value.0;
      }
    } else {
      assert s[0..] == s;
      assert ChapterMatches(s) == ChapterMatches(s[1..]);
      forall j | 0 <= j < i - 1 ensures ChapterAt(s[1..][j..]).None? {
        assert s[1..][j..] == s[j + 1..];
      }
      FirstChapterLeftmost(s[1..], i - 1);
      assert s[1..][i - 1..] == s[i..];
    }
  }
}

=== FILE: Upload.dfy ===
/**
 * The upload validator: a chosen file is accepted only when it is present,
 * named with the ".pdf" suffix, non-empty and at most 10 MB; otherwise the
 * first failing check names the error shown to the user.
 */
module Upload {
  import opened Wrappers
  import opened Text

  /** An uploaded file as the validator sees it: its name and its size in bytes. */
  datatype UploadedFile = UploadedFile(name: string, size: nat)

  const SelectFile: string := "Please select a PDF file to upload."
  const InvalidFile: string := "Invalid file selected."
  const OnlyPdf: string := "Only PDF files are allowed."
  const EmptyFile: string := "The selected file is empty."
  const TooLarge: string := "File size must be under 10MB."

  /** The size limit, 10 * 1024 * 1024 bytes. */
  const MaxSize: nat := 10 * 1024 * 1024

  /**
   * The truth value of the form's file field: no file at all, or an uploaded
   * file without a name, is false.
   */
  predicate Given(file: Option<UploadedFile>) {
    file.Some? && file.value.name != []
  }

  /** PDFUploadForm.clean_file: the guards in order, the first failing one decides. */
  function CleanFile(file: Option<UploadedFile>): (r: Result<UploadedFile, string>)
    ensures r.Ok? ==> file == Some(r.value)
  {
    if !Given(file) then Err(SelectFile)
    else if file.value.name == [] then Err(InvalidFile)
    else if !EndsWith(file.value.name, ".pdf") then Err(OnlyPdf)
    else if file.value.size == 0 then Err(EmptyFile)
    else if file.value.size > MaxSize then Err(TooLarge)
    else Ok(file.value)
  }

  /**
   * A file is accepted exactly when it is given, its name ends with ".pdf", and
   * its size lies in 1..10485760; each error is reported exactly when every
   * earlier check passed and its own check fails. The unnamed-file error is never
   * reported, as a file without a name is already not given.
   */
  lemma CleanFileCases(file: Option<UploadedFile>)
    ensures CleanFile(file).Ok? <==>
      file.Some? && file.value.name != [] && EndsWith(file.value.name, ".pdf")
      && 0 < file.value.size <= 10485760
    ensures CleanFile(file) == Err(SelectFile) <==> file.None? || file.value.name == []
    ensures CleanFile(file) != Err(InvalidFile)
    ensures CleanFile(file) == Err(OnlyPdf) <==> Given(file) && !EndsWith(file.value.name, ".pdf")
    ensures CleanFile(file) == Err(EmptyFile) <==>
      Given(file) && EndsWith(file.value.name, ".pdf") && file.value.size == 0
    ensures CleanFile(file) == Err(TooLarge) <==>
      Given(file) && EndsWith(file.value.name, ".pdf") && file.value.size > 10485760
  {
    assert MaxSize == 10485760;
  }

  /**
   * The suffix check is case-sensitive and comes before the size checks: a name
   * ending in ".PDF" is refused whatever the size.
   */
  lemma UpperCaseSuffix(stem: string, size: nat)
    ensures CleanFile(Some(UploadedFile(stem + ".PDF", size))) == Err(OnlyPdf)
  {
    var name := stem + ".PDF";
    assert name[|name| - 4..] == ".PDF";
  }

  /** The size bounds are inclusive at 10485760 bytes and exclusive at 0. */
  lemma SizeBounds(stem: string)
    ensures CleanFile(Some(UploadedFile(stem + ".pdf", 10485760))) == Ok(UploadedFile(stem + ".pdf", 10485760))
    ensures CleanFile(Some(UploadedFile(stem + ".pdf", 10485761))) == Err(TooLarge)
    ensures CleanFile(Some(UploadedFile(stem + ".pdf", 0))) == Err(EmptyFile)
  {
    var name := stem + ".pdf";
    assert name[|name| - 4..] == ".pdf";
  }
}
